=== FILE: README.md ===
# SoulBomber match engine, in Dafny

This project models the core of SoulBomber, a multiplayer Bomberman-style
game with a Go backend and a browser client. A lobby of up to four players,
some of them computer players, starts a two-minute match on a 15 by 15
board. Players move, push bombs and dash. A bomb detonates in a cross,
clears blocks, hits players and sets off other bombs. Powerups give a
longer blast range or a shield for a while. A powerup wave arrives one
minute in, and the best score wins when the two minutes are up.

Every operation is a pure function from one state to the next:

- **The match** (`Engine`, `Blast`, `Timers`, `Ai`) is an immutable `Game`
  value. Work the Go code leaves to goroutines and `time.AfterFunc`
  (detonations, effect expiry, the blast clean-up, the wave, the match end,
  the teardown) comes back as `Event`s. `Timers.Fire` fires them against the
  match registry, and `Ai.AiTick` is one tick of a computer player's ticker.
- **Map iteration orders** are explicit arguments. Go visits a map in an
  unspecified order, so a property that needs every key takes the hypothesis
  `Orders.Enumerates(order, keys)`.
- **Random draws, fresh UUIDs and the clock** are arguments too. Times are
  integer milliseconds.
- **The server** (`Dispatch`) is a hub of connections with bounded queues
  (`Sockets`), the session tracker (`Tracker`) and the match registry
  (`Registry`). What the database answers, the iteration orders and the
  clock are bundled as a `World`. A start reads its roster and the
  requester's name from the tracker (`Dispatch.Roster`). `Messages` models how `handleMessage` picks a handler and checks
  its payload.
- **Match creation** (`Lobby`) covers the board, the powerup layout, the
  seating and the replacement of a lobby's old match.
- **Side modules:** input validation (`Validation`), UUID generation
  (`Uuid`), the HTTP rate limiter (`RateLimit`), the browser's movement,
  keyboard, clock and error handling (`Client`), and the decorative
  background level (`Background`).

The main proved properties are:

- every action keeps the match invariants (`EngineFacts`, `BlastEffects`,
  `Timers`, `Ai`, `Lobby`);
- a detonation sweeps exactly the cross its rays reach and scores exactly
  its blocks and kills (`BlastRays`, `BlastEffects`);
- a restart or a single-player start leaves the registry untouched by every
  timer of the match it replaced, while that match's powerup wave and match end still
  send their frames to the lobby (`Timers.OldTimersAfterRestart`,
  `Dispatch.OldWaveReachesLobby`, and the finding below);
- the winner rule;
- the round trips of UUID text, decimal text and the clock text;
- the throttles the client keeps.

Some of the behaviour modelled is easy to misread:

- **Moving.** A move onto empty terrain succeeds even when a bomb lies there.
  A push is tried only when the target cell is not empty terrain (see
  `EngineFacts.MoveOntoEmpty` and `EngineFacts.MovePush`).
- **Computer players' tier.** Roster players reach the match without their
  AI difficulty, so computer players tick at the one-second default
  interval with the default bomb chance.
- **Blast rays.** A ray stops at the board's edge and at a wall. It does
  not stop at a block: it clears the block and runs on to its full
  range, clearing every further block in reach (backend/game.go:611-613 and
  622-636). The check for a wall after the cell's effects
  (backend/game.go:654-656) can never fire, because a wall already ended the
  ray before them. `Blast.RayWalk` and `BlastRays.CrossBoardShape` state
  this sweep; the finding below gives the reading that stops at the block.
- **The `checkWinCondition` method** does nothing and has no model.

## Model

| member | source | states |
|---|---|---|
| Types.ParseDir | backend/game.go:305-317 | Exactly the four words up, down, left and right name a direction. |
| Engine.Respawn | backend/game.go:827-838 | A respawned record is alive, unshielded, on its spawn cell and has no bombs counted. Its score drops by 100 but never below 0. Every other field is unchanged. |
| Engine.RespawnPlayer | backend/game.go:827-838 | An unknown id leaves the game unchanged. A known id has only its record respawned. |
| Engine.CollectPowerup | backend/game.go:754-800 | A player who holds an effect cannot take a second non-shield powerup, and nothing changes. Otherwise the powerup leaves the board, its effect is recorded with the level's duration, range becomes 2 or 3 or the shield comes on, and exactly one expiry is scheduled. |
| Engine.Apply | backend/game.go:775-792 | Taking a powerup records the effect under its kind and changes only the range or the shield as the kind says. |
| Engine.CollectAt | backend/game.go:327-331 | The pickup loop removes only powerups lying on the landing cell, and only ones listed in the order. Every listed powerup left on the cell was refused by the one-effect rule. The player keeps every effect it held, and no other player changes. |
| Engine.ExpirePowerup | backend/game.go:802-825 | The effect leaves the record and its boost is undone: range back to 1, or shield off. An unknown player changes nothing, and the board's powerups are unchanged. |
| Engine.GetNewPosition | backend/game.go:241-254 | A direction word gives the neighbouring cell one step that way. An unknown word gives the same cell. |
| Engine.FirstBombAt | backend/game.go:337-338 | The bomb found lies on the cell and is listed in the order. None found means no listed bomb lies there. |
| Engine.MovePlayer | backend/game.go:292-381 | Each of the four error texts comes exactly from its own check. A step onto empty terrain always succeeds and leaves the bombs alone. A success moves only the mover, by one step in the direction, and keeps its dash time. |
| Engine.Land | backend/game.go:325-333 | Putting the player down on its new cell and running the pickup loop changes only that player and the powerups, keeps the bombs, and keeps the position or dash time just set. |
| Engine.DashReach | backend/game.go:418-449 | The scan stops at step k: every step up to k is on the board, empty terrain and free of bombs, and step k+1 is not. |
| Engine.Dash | backend/game.go:401-465 | A dead or missing player, and a dash within 7 s of the last one, are refused with their own texts. For a live player off cooldown, an unknown direction word is refused as an invalid direction; otherwise the dash succeeds exactly when the first cell in that direction is clear, and is refused with "no available dash target" when it is not. A success lands on the furthest cell of the clear run, stamps the dash time, keeps the bombs and changes only the dasher. |
| Engine.OwnedInOrder | backend/game.go:476-481 | The list holds exactly the player's listed bombs, without repeats when the order has none. |
| Engine.PlaceBomb | backend/game.go:467-502 | A refusal happens exactly for a missing or dead player. At capacity the game is unchanged and the last owned bomb in map order is detonated. Below capacity, the only change is one bomb `bomb_<player>_<count>` under the player, with the player's range and the current time. |
| Engine.RemoteDetonate | backend/game.go:383-399 | The game is unchanged. Every event detonates one of the player's bombs, and with a full order every one of them is detonated. |
| Engine.TilePoints | backend/game.go:725-742 | Scores 0, 10, 24 and 48 for 0 to 3 blocks and 20 per block from 4 on. This is the truncated float product, computed exactly, and never less than 10 per block. |
| Engine.AwardPoints | backend/game.go:719-746 | Only the owner's score changes, by the tile points plus 250 per kill. A missing owner changes nothing. |
| Engine.LeaderFrom | backend/game.go:856-862 | The leader found is the starting leader or a player listed in the order. |
| Engine.FinishMatch | backend/game.go:853-928 | The match becomes finished, stamped with the current time and with the winner rule's result, and the teardown is scheduled 5 s on. |
| EngineFacts.MovePush | backend/game.go:337-378 | A step onto a cell that is not empty terrain succeeds exactly when a bomb lies there and the cell beyond is on the board, empty and bomb-free. That bomb then moves on and the player takes its cell. Every other outcome is "invalid move". |
| EngineFacts.MoveOntoEmpty | backend/game.go:325-335 | A step onto empty terrain succeeds and keeps the bombs, even one lying there. It takes exactly the listed powerups on the cell that the one-effect rule lets through. |
| EngineFacts.OwnedCount | backend/game.go:476-481 | With a full order, the owned list is as long as the set of the player's bombs. |
| EngineFacts.PlaceBombKeepsCap | backend/game.go:483-489 | No player ever holds more than its capacity of bombs after `placeBomb`. |
| EngineFacts.BombIdInjective | backend/game.go:491 | Two bomb ids are equal only for the same owner and the same counter. |
| EngineFacts.PlaceBombFresh | backend/game.go:491-501 | Below the starting capacity of one, the new bomb's id is not yet on the board. Nothing is overwritten, and the bomb-id invariant is kept. |
| EngineFacts.LeaderFacts | backend/game.go:856-862 | The scan keeps the starting leader exactly when nobody beats the best score so far. Otherwise it ends on the first player in the order with the top score. |
| EngineFacts.WinnerFacts | backend/game.go:855-863 | There is no winner exactly when no score is above 0. Otherwise the winner has the top score, above 0, and nobody before it in the order has that score. |
| EngineFacts.MoveFrameKeeps | backend/types.go:59-75 | A successor that changes only one player, lands it on the board and keeps bomb owners keeps the match invariants. |
| EngineFacts.MoveKeeps | backend/game.go:292-381 | `movePlayer` keeps the match invariants. |
| EngineFacts.DashKeeps | backend/game.go:401-465 | `dash` keeps the match invariants. |
| EngineFacts.PlaceKeeps | backend/game.go:467-502 | `placeBomb` keeps the match invariants. |
| EngineFacts.EffectKeeps | backend/game.go:754-825 | Taking or losing an effect keeps the match invariants. |
| EngineFacts.CollectKeeps | backend/game.go:754-800 | Collecting a powerup keeps the match invariants. |
| EngineFacts.ExpireKeeps | backend/game.go:802-825 | Expiring an effect keeps the match invariants. |
| EngineFacts.RespawnKeeps | backend/game.go:827-838 | A respawn keeps the match invariants. The player is alive on its in-bounds spawn cell. |
| Registry.FirstMatch | backend/game.go:18-38 | The result is the first game in the order that passes the test. None means no listed game passes. |
| Registry.GameByLobby | backend/game.go:18-27 | The game found belongs to the lobby. With a full order, nothing is found exactly when the lobby has no game. |
| Registry.GameByPlayer | backend/game.go:29-38 | The game found seats the player. With a full order, nothing is found exactly when no game seats the player. |
| Registry.Cleanup | backend/game.go:958-973 | The game is no longer active, and every other game keeps its active status and its contents. An unregistered id is a no-op. |
| Registry.OnlyGameFound | backend/game.go:18-27 | When a lobby has exactly one game, every full order finds it. |
| Registry.CleanupIdempotent | backend/game.go:958-973 | Cleaning up twice is cleaning up once, and neither lookup finds the removed game again. |
| Blast.FirstAliveAt | backend/game.go:628-633 | The player returned is alive, stands on the cell and is the first such in the order: no listed entry before it is a live player on the cell. None means no listed live player stands there. |
| Blast.GrantAtFrame | backend/game.go:626-635 | Handing out uncovered powerups changes only the powerups and the takers' effect fields. |
| Blast.ChainAtFacts | backend/game.go:649-653 | The chained bombs are exactly the other listed bombs lying on the cell. |
| Blast.RayWalk | backend/game.go:594-658 | One ray sweeps cells while within range, on the board and not a wall. It clears and counts each block on its way and keeps the board's shape. |
| Blast.CrossWalk | backend/game.go:566-658 | The walk lists the centre first, then the up, down, left and right rays, and keeps the board's shape. |
| Blast.Settle | backend/game.go:614-653 | One swept cell gets a hazard under the next fresh id, hands out powerups only if a block was cleared there, hits its players and chains its other bombs, and keeps the board. |
| Blast.SettleAll | backend/game.go:566-658 | The effects of all swept cells, in sweep order, consume one fresh id per cell and keep the board. |
| Blast.Explode | backend/game.go:554-717 | A missing bomb is a no-op; the `isActive` check before it is made by `Timers.Fire`. Otherwise the sweep and its effects run, the owner is scored, and the clean-up is scheduled 500 ms on. |
| Blast.ClearBlast | backend/game.go:705-708 | Exactly the detonation's hazards and the bomb itself go. |
| BlastRays.ReachFacts | backend/game.go:602-613 | A ray reaches k steps, with k at most the range and 0 for a range below 1. Every step it reaches is on the board and not a wall. It stops short of the range only at the edge or at a wall. |
| BlastRays.RaySteps | backend/game.go:602-613 | The list holds steps i to k of the ray, nearest first. |
| BlastRays.RayWalkCells | backend/game.go:594-658 | One ray sweeps exactly steps 1 to its reach, nearest first. |
| BlastRays.RayWalkTiles | backend/game.go:622-624 | A ray's tally is the number of blocks on its swept steps. |
| BlastRays.TilesCount | backend/game.go:622-624 | Block flags that record the board count that stretch's blocks. |
| BlastRays.RayWalkBoard | backend/game.go:622-623 | A ray clears exactly the blocks on its swept steps. |
| BlastRays.RayWalkFlags | backend/game.go:610-624 | A ray's block flags record the board it started on. |
| BlastRays.RayStep | backend/game.go:594-658 | After one step's cell is swept, the rest of the ray sees the same reach. |
| BlastRays.ClearedKeepsOtherRays | backend/game.go:594-658 | Clearing one ray's blocks changes no cell on another ray. |
| BlastRays.RayOverCells | backend/game.go:594-658 | Walking a ray over a board that agrees along the ray sweeps the same cells with the same flags and tally. |
| BlastRays.CrossRays | backend/game.go:594-658 | Each ray of the cross starts on a board that still agrees with the original along that ray. |
| BlastRays.CrossCells | backend/game.go:566-658 | The cross walk sweeps the centre, then steps 1 to the reach of the up, down, left and right rays. |
| BlastRays.CrossTiles | backend/game.go:566-660 | A detonation's tally counts the blocks on the swept ray steps of the original board. |
| BlastRays.CrossFlags | backend/game.go:594-658 | The block flags of the swept ray cells describe the original board. |
| BlastRays.CrossBoardShape | backend/game.go:566-658 | After the walk exactly the blocks on the swept ray steps are gone. Walls, empty cells and every cell off the cross are unchanged. |
| BlastRays.RayPassesBlock | backend/game.go:604-658 | As written: a ray going right with range 2 over two blocks clears and counts both. |
| BlastRays.RayWalkStopping | backend/game.go:654-656 | As intended: a ray clears at most one block, and only on the last cell it sweeps. |
| BlastRays.StoppingIsPrefix | backend/game.go:604-658 | The intended ray sweeps a prefix of the cells the program's ray sweeps. |
| BlastRays.StoppingAgrees | backend/game.go:604-658 | With no block in reach, the intended ray and the program's ray are the same. |
| BlastRays.CrossBoard | backend/game.go:566-658 | The board after the walk is the original with those blocks cleared. |
| BlastEffects.HitKeeps | backend/game.go:637-648 | A hit changes only the struck players, and none of them dies. |
| BlastEffects.FirstAliveStands | backend/game.go:628-633 | The first live player on a cell is filed under the id returned and stands there. |
| BlastEffects.GrantKeeps | backend/game.go:626-635 | Handing out uncovered powerups changes only players standing on the cell. |
| BlastEffects.SettleFacts | backend/game.go:614-653 | One swept cell puts its hazard under the next fresh id and changes only players standing on it. The shape invariants hold, and exactly the other listed bombs lying there are chained. |
| BlastEffects.SettleGame | backend/game.go:614-653 | The game half of the one-cell facts: the hazard, only players on the cell changed, the invariants kept. |
| BlastEffects.SettleEvents | backend/game.go:614-653 | The event half of the one-cell facts: the events are pick-up expiries followed by exactly the chained detonations of bombs on the cell. |
| BlastEffects.GrantEvents | backend/game.go:626-635 | A pick-up during a blast schedules nothing but effect expiries. |
| BlastEffects.SettleAllFacts | backend/game.go:566-658 | Over all swept cells, players off every cell are untouched. Every chained detonation is of another bomb lying on a swept cell, and every such listed bomb is chained. |
| BlastEffects.SettleAllHazards | backend/game.go:566-658 | The replay appends one fresh hazard id per swept cell, in order. |
| BlastEffects.SettleAllExplosions | backend/game.go:566-658 | With distinct fresh ids, the n-th id marks the n-th swept cell for 500 ms. Every other marker is left alone, and no other id appears. |
| BlastEffects.RayStepsOnRay | backend/game.go:602-613 | Steps i to k of a ray as a list and as a region are the same cells. |
| BlastEffects.SweptCells | backend/game.go:566-658 | The listed swept cells are exactly the centre plus each ray's steps up to its reach. |
| BlastEffects.ExplodeHazards | backend/game.go:698-716 | The last event clears, 500 ms on, exactly the hazards laid: one per swept cell, under successive fresh ids. |
| BlastEffects.ExplodeMarks | backend/game.go:566-658 | With distinct fresh ids, the n-th id marks the n-th swept cell for 500 ms. Every marker not under a new id is left alone. |
| BlastEffects.ExplodeChains | backend/game.go:649-653 | With a full order, the detonation sets off exactly the other bombs lying on swept cells. Its other events are pick-up expiries and, last, the clean-up. |
| BlastEffects.ExplodeSpares | backend/game.go:566-660 | A player standing off every swept cell is untouched, except that the owner gains the blast's points. |
| BlastEffects.ExplodeReward | backend/game.go:566-660 | An owner standing off the swept cells gains the tile points for the blocks on the four rays plus 250 for each kill, counted cell by cell over the swept cells (`KillsAlong`). |
| BlastEffects.SettleAllKills | backend/game.go:637-648 | The sweep's kill tally is the sum over the swept cells of the unshielded players other than the owner struck on each cell as the sweep reaches it. |
| BlastEffects.RewardCore | backend/game.go:660 | The same reward, on the replay and the scoring before the clean-up is scheduled. |
| BlastEffects.ReplayOffCells | backend/game.go:566-658 | Players away from every listed cell are untouched by the replay. |
| BlastEffects.SparesCore | backend/game.go:719-746 | Scoring after the replay changes only the owner's score among players off the swept cells. |
| BlastEffects.ExplodeKeeps | backend/game.go:550-717 | A detonation keeps the match invariants. |
| BlastEffects.ExplodeFrame | backend/game.go:550-717 | A detonation leaves the match's id, lobby, status and times alone. |
| BlastEffects.ReplayKeeps | backend/game.go:566-660 | The invariants survive the swept board, the sweep's player changes and the scoring. |
| BlastEffects.PlayersOnNewBoard | backend/types.go:59-75 | A successor with the same players on a board of the same shape keeps the invariants. |
| Timers.Fire | backend/game.go:840-973 | The teardown is `cleanupGame`. A timer of an unregistered match leaves the registry alone. Only the match timer of such a match still schedules its teardown. No timer adds a match or changes another. The wave always sends `powerupSpawn` and the match end always sends `gameState` to the lobby they were started for, registered or not. A detonation and the clean-up send `gameState` exactly when the match is registered (and, for a detonation, its bomb is still there); an effect expiry and the teardown send nothing. |
| Timers.ClearKeeps | backend/game.go:698-716 | The blast clean-up keeps the match invariants. |
| Timers.ActKeeps | backend/game.go:840-930 | A timer's work keeps the match invariants and the match's id and lobby. |
| Timers.FireKeeps | backend/game.go:840-973 | Firing any timer keeps every registered match sound and filed under its id. |
| Timers.StaleTimerSilent | backend/game.go:91-96 | Once a lobby's match is replaced under another id, the old match is inactive. Every one of its timers, its own teardown included, leaves the registry alone, and all but the wave and the match end send nothing. |
| Timers.OldTimersAfterRestart | backend/lobby.go:456-462 | After a start with players, every timer of the lobby's previous match leaves the new registry alone. The old wave still sends its `powerupSpawn` and the old match end its `gameState` to the lobby, which is playing the new match; the other old timers send nothing. |
| Timers.FireStopped | backend/game.go:931-946 | As intended: a timer of a match that left the registry changes nothing, schedules nothing and sends nothing. On a registered match, and for the teardown, it is the program's timer. |
| Timers.StoppedAfterRestart | backend/game.go:931-946 | With the dropped match's timers stopped as `endGame` stops them, none of its timers changes the new registry, schedules work or sends a frame. |
| Timers.MatchEndFinishes | backend/game.go:849-929 | The match timer finishes the match in place, stamped and with the winner rule's result, sends the finished state to the match's lobby, and schedules the teardown 5 s on. |
| Timers.MatchEndThenTeardown | backend/game.go:926-973 | The teardown the match timer schedules removes exactly that match, which is then inactive. |
| Timers.WaveLays | backend/game.go:841-847 | The wave replaces the match's powerups with a fresh level-2 layout and changes nothing else. |
| Timers.WaveThree | backend/game.go:841-847 | With distinct ids the wave lays exactly three powerups: the level-1 shield at the centre and two level-2 range boosts. |
| Ai.TickInterval | backend/game.go:104-114 | An AI ticks every 1500, 1000, 600 or 300 ms for the easy, medium, hard and chosen_one tiers, and every 1000 ms for an unknown tier. |
| Ai.BombChance | backend/game.go:256-269 | The bomb chances are 0.15, 0.35, 0.55 and 0.75 by tier, and 0.25 for an unknown tier; every chance lies strictly between 0 and 1. |
| Ai.TiersOrdered | backend/game.go:98-124 | A harder tier ticks strictly faster and bombs strictly more eagerly. |
| Ai.ValidMoves | backend/game.go:141-148 | The result holds exactly the listed directions `isValidMove` accepts, and no more entries than were listed. |
| Ai.ValidMovesConcat | backend/game.go:141-148 | The filter goes direction by direction: filtering a joined list is filtering each part and joining, so the accepted directions keep their listed order. |
| Ai.SafeMoves | backend/game.go:213-225 | The result holds exactly the moves whose landing cell is outside every bomb's square. |
| Ai.TargetMoves | backend/game.go:227-239 | The result holds exactly the moves whose landing cell has a live player within 3 cells. |
| Ai.FindBestMove | backend/game.go:165-183 | In danger, the pick is a safe move when one exists. Otherwise it is a move towards a target when one exists, and otherwise any valid move. The pick is always among the valid moves. |
| Ai.TargetMovesAll | backend/game.go:200-211 | A live AI counts itself as a target, so every valid move is a target move. |
| Ai.BestMoveCollapses | backend/game.go:165-183 | For a live AI the choice is a random safe move when in danger with a way out, and otherwise a random valid move. |
| Ai.AlwaysShouldPlace | backend/game.go:271-283 | For a live AI the bomb test is the chance roll alone. |
| Ai.AiMove | backend/game.go:141-153 | The move half does nothing without a valid move. Otherwise the chosen move succeeds and lands the AI one step on. |
| Ai.ValidMoveRuns | backend/game.go:508-542 | A move `isValidMove` accepts succeeds. Only the mover steps, onto the target cell, and the bombs are unchanged. |
| Ai.EscapeListed | backend/game.go:168-173 | An escape from danger is among the valid moves of the four directions. |
| Ai.AiBomb | backend/game.go:155-162 | A roll under the chance on a cell outside every bomb's square calls `placeBomb` there. Otherwise the move is the whole turn. |
| Ai.AiTurn | backend/game.go:126-163 | A dead or missing AI does nothing. Otherwise the turn is the move, then the bomb half. |
| Ai.BombKeeps | backend/game.go:155-162 | The bomb half keeps the match invariants. |
| Ai.AiTurnKeeps | backend/game.go:126-163 | An AI turn keeps the match invariants. |
| Ai.AiTick | backend/game.go:119-135 | A tick of a match no longer registered, or no longer playing, does nothing. |
| Ai.AiTickKeeps | backend/game.go:119-135 | AI ticks keep every registered match sound. |
| Ai.AiTurnFrame | backend/game.go:126-163 | An AI turn leaves the match's id and lobby alone. |
| Lobby.GenerateBoard | backend/lobby.go:536-571 | The board is 15 by 15. Its walls are exactly the border and the pillars, its pockets are empty, and every other cell is a block exactly where the coin came up. |
| Lobby.PocketsExactly | backend/lobby.go:554-568 | The cleared cells are exactly the pocket cells. |
| Lobby.SpawnsAreWalls | backend/lobby.go:478-483 | Every spawn is a pillar, and each has an empty pocket cell beside it. |
| Lobby.InteriorCells | backend/lobby.go:588-589 | The interior list is ascending and holds exactly rows and columns 1 to 13. |
| Lobby.Keep | backend/lobby.go:587-601 | The kept cells are exactly the cells that pass the scan's test, in ascending order when the input is. |
| Lobby.ValidPositions | backend/lobby.go:587-601 | The candidate list holds each interior cell that passes the scan's test exactly once, in scan order. |
| Lobby.CandidateRing | backend/lobby.go:590-599 | A scan candidate is exactly an off-pillar cell at Chebyshev distance 3 from the centre. |
| Lobby.RemoveAt | backend/lobby.go:606 | The list drops exactly its i-th element. |
| Lobby.Fill | backend/lobby.go:603-615 | The loop adds boosts of the level on distinct candidates under its fresh ids until three powerups exist. |
| Lobby.GeneratePowerups | backend/lobby.go:573-617 | With fresh ids there are exactly three powerups: the level-1 shield at the centre under the first id, and two boosts of the level on distinct ring cells. |
| Lobby.LayOut | backend/lobby.go:579-615 | The layout is the shield, then the filling loop over the candidates. |
| Lobby.RingTwo | backend/lobby.go:587-601 | At least two candidates exist, so the loop always lays two boosts. |
| Lobby.RingCells | backend/lobby.go:587-601 | Every candidate is an off-pillar ring cell and never the centre. |
| Lobby.OnlyShieldWhenFresh | backend/lobby.go:579-615 | The shield under the first id is the only shield in a layout. |
| Lobby.FillKeeps | backend/lobby.go:603-615 | The loop never overwrites a powerup whose id is not among its own draws. |
| Lobby.SeatedAt | backend/lobby.go:486-501 | Roster entry i is fresh, alive, on spawn i mod 4, with capacity 1, range 1, score 0 and no effects. |
| Lobby.SeatFromShape | backend/lobby.go:486-501 | The seating loop files exactly the roster's ids, and every record it files is fresh. |
| Lobby.SeatFromKeeps | backend/lobby.go:486-501 | A record whose id no later entry carries stays as it is. |
| Lobby.SeatFromLast | backend/lobby.go:486-501 | Of entries sharing an id, the last one decides the record. |
| Lobby.SeatAll | backend/lobby.go:486-501 | Entry i sits on spawn i mod 4, and of entries sharing an id the last one counts. |
| Lobby.DropLobby | backend/lobby.go:456-462 | Every game of the lobby leaves the registry, and every other game stays. |
| Lobby.MatchPlayers | backend/lobby.go:486-527 | The players are the seated roster, plus the requester as a fresh human on the next spawn when absent. |
| Lobby.ReplacedBy | backend/lobby.go:456-529 | After dropping and filing, the new game is the lobby's only game and the other lobbies are untouched. |
| Lobby.Launch | backend/lobby.go:529-533 | The start reports the new id. The new match is filed under it next to every match left in the registry, and its powerup wave and match end are due one and two minutes on, for its lobby. |
| Lobby.StartGame | backend/lobby.go:450-535 | An empty roster is refused with the registry unchanged. Otherwise the lobby's earlier matches go and the new one takes their place. |
| Lobby.StartSinglePlayer | backend/lobby.go:346-449 | A missing lobby row is "lobby not found" with nothing changed. A write error leaves the lobby's matches dropped. Otherwise the match is created as by `startGame`, even with an empty roster. |
| Lobby.StartsAgree | backend/lobby.go:346-535 | Both entry points build the same match from the same non-empty roster. |
| Lobby.NewGameSound | backend/lobby.go:464-529 | Every new match satisfies the engine's invariants, whatever the roster. |
| Lobby.FreshBoardSound | backend/lobby.go:464-529 | A 15 by 15 board, no bombs and freshly seated players satisfy the invariants. |
| Lobby.SeatingFacts | backend/lobby.go:486-527 | With distinct roster ids, entry i starts on spawn i mod 4 with its name and AI flag. An absent requester joins as a human on the next spawn. |
| Lobby.StartKeeps | backend/lobby.go:450-535 | A start keeps every registered game filed under its id and sound. |
| Lobby.FilingKeeps | backend/lobby.go:529 | Filing a sound game under its own id keeps a sound registry sound. |
| Lobby.StartFound | backend/lobby.go:450-535 | After a start, every order listing the other lobbies' games and the new match once each finds the new match by lobby. |
| Tracker.Register | backend/player_tracker.go:46-99 | A known player gains the connection and is refreshed and active, keeping its lobby, name, AI flag and connection time. An unknown player gets a new active session holding just this connection. The heartbeat is recorded either way. |
| Tracker.UpdateHeartbeat | backend/player_tracker.go:100-113 | The heartbeat is recorded even without a session. A session, when there is one, is refreshed and active. |
| Tracker.UpdateStatus | backend/player_tracker.go:114-129 | A known session takes the status and is touched. Nothing else changes. |
| Tracker.UpdateName | backend/player_tracker.go:130-144 | A known session takes the name and is touched. Nothing else changes. |
| Tracker.Unregister | backend/player_tracker.go:145-175 | The connection leaves the session. The session and the heartbeat go exactly when no connection is left. An unknown player is a no-op. |
| Tracker.RegisterUnregister | backend/player_tracker.go:46-175 | Registering a new player, then closing its only connection, leaves no trace of it. |
| Tracker.CheckIdle | backend/player_tracker.go:272-290 | Active sessions quiet for over 2 minutes become idle, and nothing else changes. |
| Tracker.CheckDisconnected | backend/player_tracker.go:291-327 | Every silent human session not yet marked is marked disconnected, stamped and sent out of its lobby. AI sessions and everything else stay as they were. |
| Tracker.DisconnectOnce | backend/player_tracker.go:291-327 | Sweeping again at the same moment changes nothing and sends no one away. |
| Tracker.CleanupStale | backend/player_tracker.go:328-360 | Exactly the stale sessions go, together with their heartbeats. |
| Tracker.FreshDisconnectKept | backend/player_tracker.go:291-360 | A session the disconnect sweep has just stamped is not stale at that moment. |
| Tracker.LobbyPlayers | backend/player_tracker.go:183-196 | The result holds exactly the sessions of the lobby, with a full iteration order. |
| Tracker.LobbyPlayersConcat | backend/player_tracker.go:183-196 | The sessions come in the order of the keys: listing two runs of keys gives the first run's sessions, then the second's. |
| Tracker.SumValuesAt | backend/player_tracker.go:241-242 | The sum of the per-lobby counts can be split at any lobby. |
| Tracker.Tally | backend/player_tracker.go:211-246 | The AI and human counts of the loop together are the number of sessions listed, and its status counts never exceed that number. |
| Tracker.TallyListed | backend/player_tracker.go:226-239 | Over a listing without repeats, each status, AI and human count is the number of listed sessions of that kind. |
| Tracker.ListedAll | backend/player_tracker.go:225 | A full iteration order lists, for any test, exactly the sessions that pass it. |
| Tracker.TallySum | backend/player_tracker.go:211-246 | The per-lobby counts add up to the number of sessions counted. |
| Tracker.TallyKeys | backend/player_tracker.go:211-246 | The lobbies counted are exactly those of the sessions counted. |
| Tracker.PlayerStats | backend/player_tracker.go:211-246 | Each status count, and the AI and human counts, is the number of sessions of that kind. The per-lobby counts add up to the session total, and the lobbies counted are exactly those with a session. |
| RateLimit.Recent | backend/middleware.go:32-39 | The kept times are exactly those after the window start, each kept as often as it was recorded. |
| RateLimit.RecentConcat | backend/middleware.go:32-39 | Pruning goes entry by entry: pruning a history is pruning its two halves and joining them, so the kept times keep their order. |
| RateLimit.RecentIdempotent | backend/middleware.go:32-39 | Pruning twice is pruning once. |
| RateLimit.Allow | backend/middleware.go:25-48 | A new key is accepted and records the time. For a known key the history is pruned, and the request is accepted exactly when fewer than the limit remain. Only an accepted request is recorded. Other keys are untouched. |
| RateLimit.AllowBounded | backend/middleware.go:25-48 | With a limit of at least one, no key ever records more than the limit. |
| RateLimit.RefusalStays | backend/middleware.go:25-48 | A refused key asking again at the same moment is refused again, and nothing changes. |
| RateLimit.FullWindowRefused | backend/middleware.go:25-48 | A key with the limit's worth of requests inside the window is refused. |
| RateLimit.ClientIp | backend/middleware.go:50-58 | `X-Forwarded-For` wins when set, then `X-Real-IP`, then the remote address. |
| Sockets.Offer | backend/websocket.go:593-599 | A queue with room takes the frame at its end. A full queue is unchanged. |
| Sockets.Register | backend/websocket.go:51-54 | The connection is filed under its id, replacing an earlier one, and the others stay. |
| Sockets.Unregister | backend/websocket.go:61-67 | A registered connection leaves the hub and is closed. An unknown id changes nothing. |
| Sockets.UnregisterTwice | backend/websocket.go:61-67 | A second unregister closes nothing and changes nothing. |
| Sockets.HubBroadcast | backend/websocket.go:74-84 | Every connection with room takes the frame. A full one is closed and leaves the hub. |
| Sockets.DroppedClosedOnce | backend/websocket.go:61-84 | A connection the broadcast dropped is not closed again by its own unregister. |
| Sockets.BroadcastToLobby | backend/websocket.go:575-604 | Every connection of the lobby with room takes the frame. A full one is skipped and stays, and other connections are untouched. |
| Sockets.Send | backend/websocket.go:547-570 | The frame goes onto one connection's queue when it has room. Otherwise the hub is unchanged. |
| Sockets.StaysBounded | backend/websocket.go:641 | Registering, unregistering and replying never grow a queue past 256. |
| Sockets.BroadcastsBounded | backend/websocket.go:575-604 | Neither broadcast grows a queue past 256. |
| Messages.TagOf | backend/websocket.go:170-201 | Each of the fourteen type names selects its own handler, and every other name selects none. |
| Messages.Field | backend/websocket.go:205-218 | A non-object payload gives "Invalid payload format". A missing or non-string field gives "Missing <name>". Otherwise the field's text is returned. |
| Messages.NameOrDefault | backend/websocket.go:220-223 | The given player name when it is a non-empty string, and "Player" otherwise. |
| Messages.ParseJoin | backend/websocket.go:204-226 | Both ids are read in order. A lobby id that is not a UUID is "Invalid lobby ID". |
| Messages.ParseLobbyAndPlayer | backend/websocket.go:265-280 | The lobby id, then the player id, with the first failure deciding. |
| Messages.ParseMove | backend/websocket.go:364-376 | A direction word outside the four gives the validator's error. |
| Messages.ParseUpdateName | backend/websocket.go:471-485 | The player id, then a non-empty name, else "Missing or invalid playerName". |
| Messages.ParseOne | backend/websocket.go:246-255 | The one field read, with its error texts. |
| Messages.ParseFor | backend/websocket.go:162-202 | The selected handler's field checks decide, in reading order. |
| Messages.Parse | backend/websocket.go:162-202 | An unknown type gives "Unknown message type". Otherwise the selected handler's checks decide. |
| Messages.TagOfName | backend/websocket.go:170-201 | Every handler's own type name selects it. |
| Messages.PayloadErrors | backend/websocket.go:204-538 | A handler that reads fields answers a non-object payload with "Invalid payload format". A missing field gives "Missing <field>", the first in reading order deciding. |
| Messages.PayloadIgnored | backend/websocket.go:390-415 | `placeBomb`, `remoteDetonate` and `ping` are accepted whatever their payload. |
| Messages.MoveChecked | backend/websocket.go:364-376 | A move is accepted exactly with one of the four direction words. |
| Messages.JoinChecked | backend/websocket.go:204-226 | A join with both ids is refused exactly for a lobby id that is not a UUID. Otherwise it goes ahead under the given name, or "Player". |
| Dispatch.UnknownTypeRefused | backend/websocket.go:199-200 | An unknown type gets the error frame and changes nothing else. |
| Dispatch.RefusalOnlyReplies | backend/websocket.go:162-545 | A message refused by its checks leaves the tracker, the registry and every other queue alone. |
| Dispatch.BadMoveRefused | backend/websocket.go:374-376 | A move in an unknown direction is refused with the validator's error before any game is looked at. |
| Dispatch.Roster | backend/lobby.go:232-250 | A start's roster is the tracker's sessions of the lobby, each as its id, name and AI flag. Every entry comes from such a session, and with a full iteration order every such session is on it. |
| Dispatch.SessionName | backend/lobby.go:503-509 | The requester's name comes from its session exactly when it has one. |
| Dispatch.LeaveWrite | backend/lobby.go:287-306 | `leaveLobby` writes nothing exactly while the player's session holds a connection. Otherwise it writes the number of sessions the tracker lists for the lobby. |
| Dispatch.JoinedOnRoster | backend/websocket.go:228-243 | A player new to the tracker whose join the database accepts is on the roster of a later start in that lobby, under the name it joined with, and that name is its requester name. |
| Dispatch.LeaveSkipsCount | backend/websocket.go:357-358 | Leaving from the only connection of the session, the lobby's row is not written, although the player drops out of the tracker. |
| Dispatch.LeaveCounted | backend/websocket.go:340-362 | The leave handler with the connection unregistered before `leaveLobby`: the tracker is the unregistered one and no timer is scheduled. |
| Dispatch.LeaveCountedRefreshes | backend/lobby.go:287-306 | With the connection unregistered first, the row is written exactly when the player has no connection left, with the count of the lobby's sessions that remain. Leaving from the only connection always writes. |
| Dispatch.JoinTracks | backend/websocket.go:228-243 | A join binds the connection and tracks the session. When the lobby is missing or full, the tracking is undone, so a new player leaves no trace. |
| Dispatch.StartReusesMatch | backend/websocket.go:281-294 | A start on a lobby that has a match sends that match to the lobby and creates nothing. |
| Dispatch.SingleReusesMatch | backend/websocket.go:319-332 | A single-player start on a lobby that has a match sends that match to the asker and creates nothing. |
| Dispatch.RestartReplaces | backend/websocket.go:440-469 | A restart always drops the lobby's first match. With players, the new match is then the lobby's only one. With an empty roster, the start is refused and the match stays dropped. |
| Dispatch.ReplacedThroughCleanup | backend/websocket.go:455-462 | Removing one of the lobby's games before a replacement does not change the outcome. |
| Dispatch.InGameFrame | backend/websocket.go:364-438 | In-game commands keep the sessions and the set of matches. Without a match they are refused with "Game not found". |
| Dispatch.Tick | backend/game.go:840-973 | A timer firing on the server leaves the sessions and the set of connections alone, puts its frames on the lobby's queues, and keeps a sound registry sound. |
| Dispatch.Deliver | backend/websocket.go:575-604 | Delivering a timer's frames keeps the set of connections; one frame reaches the lobby as one `broadcastToLobby`. |
| Dispatch.OldWaveReachesLobby | backend/game.go:841-847 | After a restart, the replaced match's wave leaves the new registry alone and still puts its `powerupSpawn` frame on the queue of every connection of the lobby with room. |
| Dispatch.InGameOthers | backend/websocket.go:364-438 | Every match except the one seating the player is left as it was. |
| Validation.Utf8Len | backend/validation.go:21 | Go's `len` is the UTF-8 byte count: one to four bytes per character. |
| Validation.AsciiLen | backend/validation.go:21 | ASCII text takes one byte per character. |
| Validation.TrimSpace | backend/validation.go:17 | The result is the input without white space at either end. It is empty exactly for blank input, and otherwise starts and ends with a non-space character. |
| Validation.TrimSpaceFixed | backend/validation.go:17 | Text with no white space at either end is unchanged. |
| Validation.TrimSpaceIdempotent | backend/validation.go:17 | Trimming twice is trimming once. |
| Validation.NameMatchLen | backend/validation.go:11 | A name that matches the pattern is ASCII, so its byte length is its length. |
| Validation.ValidateLobbyName | backend/validation.go:16-30 | Blank, over 50 bytes and off-pattern names each get their own error, and only a name matching the pattern passes. The 50-byte cap never decides acceptance. |
| Validation.ValidatePlayerName | backend/validation.go:32-46 | A name passes exactly when it is non-blank, at most 20 characters and all in the name class. |
| Validation.ValidateDirection | backend/validation.go:48-55 | Exactly the four direction words pass. |
| Validation.ValidateDifficulty | backend/validation.go:57-64 | Exactly the four AI tiers pass. |
| Validation.ValidateUUID | backend/validation.go:66-71 | A text passes exactly when it is five lowercase-hex groups of 8, 4, 4, 4 and 12 joined by hyphens. |
| Validation.UppercaseRejected | backend/validation.go:66-71 | Uppercase hex digits are rejected. |
| Validation.DropControl | backend/validation.go:75-83 | Only kept characters remain, every kept character of the input remains, and text with nothing to drop is returned as it is. |
| Validation.DropControlOne | backend/validation.go:76-80 | A single character stays exactly when it is tab, LF, CR or in 32 to 127. |
| Validation.DropControlCounts | backend/validation.go:75-83 | Each kept character remains as often as it occurs in the input; every other character is gone. |
| Validation.DropControlConcat | backend/validation.go:75-83 | The loop goes character by character: dropping from a joined text is dropping from each part and joining, so the kept characters keep their order. |
| Validation.Sanitize | backend/validation.go:73-85 | The result is the kept characters with only white space cut from either end: a slice of them with nothing but white space outside it, not starting or ending with white space, and empty exactly when the kept characters are all white space. |
| Validation.SanitizeIdempotent | backend/validation.go:73-85 | Sanitising twice is sanitising once. |
| Uuid.HexValue | backend/uuid.go:19-23 | The value of a lowercase hex digit is below 16 and prints back as that digit. |
| Uuid.Hex | backend/uuid.go:19-23 | Each byte becomes two lowercase hex digits. |
| Uuid.HexConcat | backend/uuid.go:19-23 | The hex of a concatenation is the concatenation of the hex texts. |
| Uuid.Unhex | backend/uuid.go:19-23 | Each digit pair gives one byte. |
| Uuid.UnhexHex | backend/uuid.go:19-23 | Decoding the hex text gives back the bytes. |
| Uuid.Stamp | backend/uuid.go:16-17 | Byte 6 gets the version nibble 4, and byte 8 gets the variant bits 10. The other bits and bytes are kept. |
| Uuid.Digits | backend/validation.go:11 | A UUID text without its hyphens is 32 hex digits. |
| Uuid.Decode | backend/uuid.go:18-24 | A UUID text spells sixteen bytes. |
| Uuid.Layout | backend/uuid.go:18-24 | Five hex groups of the right lengths joined by hyphens have the UUID layout and spell their digits. |
| Uuid.FormatFacts | backend/uuid.go:18-24 | Formatted bytes have the UUID layout and decode back to themselves. |
| Uuid.HexGroups | backend/uuid.go:19-23 | The five groups' digits, run together, are the hex of all sixteen bytes. |
| Uuid.FormatNibbles | backend/uuid.go:18-24 | Index 14 shows the high nibble of byte 6, and index 19 that of byte 8. |
| Uuid.NewUuidFacts | backend/uuid.go:10-25 | A generated UUID passes `ValidateUUID`. It has `4` at index 14 and one of `8`, `9`, `a`, `b` at index 19, and decodes to the random bytes with only those bits overwritten. |
| Uuid.FallbackRejected | backend/uuid.go:13-15 | Without randomness the text starts with `rnd-` and fails `ValidateUUID`. |
| Decimal.NatToString | frontend/js/game.js:526-536 | The numeral is the shortest decimal one: digits only, with no leading zero. |
| Decimal.ParseNatToString | frontend/js/game.js:526-536 | Printing a number and parsing it back gives the number. |
| Decimal.IntToString | backend/uuid.go:14 | `%d` adds a minus sign for negatives and prints digits only otherwise. |
| Client.InferFacing | frontend/js/game.js:434-452 | As written: a move or dash faces its direction, vertical winning a diagonal step. A player who did not move faces 'down'. |
| Client.InferFacingKept | frontend/js/game.js:434-452 | As intended: a player who did not move keeps the previous facing, and with no previous payload faces down. |
| Client.FacingFollowsStep | frontend/js/game.js:441-445 | A move or a dash of any length in a direction is drawn facing that direction. |
| Client.VerticalWins | frontend/js/game.js:441-445 | A step that changes both coordinates is drawn vertically. |
| Client.StandingTurnsDown | frontend/js/game.js:445-448 | As written, a player who walked left and then stood still faces down. |
| Client.PreCheckIsServerCheck | frontend/js/game.js:1295-1311 | On any board the server could send, the client's move check is the server's `isValidMove`. |
| Client.MovePressed | frontend/js/game.js:1262-1322 | A move goes out exactly with the socket open, the player alive, 150 ms since the last move sent and the board check passed. Only a sent move restamps the throttle. |
| Client.BombPressed | frontend/js/game.js:1327-1349 | With the socket open and the player alive, a bomb message goes out exactly when 200 ms have passed since the last. |
| Client.ActionOf | frontend/js/game.js:1357-1406 | Arrows and WASD in either case map to their directions, space to a bomb, r or R to detonation and the three Shift names to a dash. No other key maps. |
| Client.KeyDown | frontend/js/game.js:1351-1407 | Nothing happens during the countdown or for an unmapped key, and at most one message, stamped with the key's time, is added. Outside the countdown, an arrow or WASD key records its direction even when the move is held back, and sends the move exactly when the socket is open, the player alive, 150 ms have passed since the last move and the board check passes. Space sends a bomb exactly when the socket is open, the player alive and 200 ms have passed since the last bomb. r or R sends a detonation, and Shift a dash in the last recorded direction, exactly when the socket is open. |
| Client.Act | frontend/js/game.js:1357-1417 | The same, per mapped action: the move, bomb, detonation and dash are each sent under exactly their own conditions, and only the move changes the facing. |
| Client.DashFollowsArrow | frontend/js/game.js:1357-1406 | Shift right after an arrow dashes the way that arrow pointed, sent or not. |
| Client.MoveKeepsSpaced | frontend/js/game.js:1259-1322 | A sent move is stamped with its own time, at least 150 ms after every earlier move. |
| Client.BombKeepsSpaced | frontend/js/game.js:1324-1349 | A sent bomb is stamped with its own time, at least 200 ms after every earlier bomb. |
| Client.KeyKeepsSpaced | frontend/js/game.js:1351-1407 | Every key press keeps the throttle invariant, whatever the clock does. |
| Client.UnthrottledKeepsSpaced | frontend/js/game.js:1409-1417 | Detonation and dash messages fall outside both throttles. |
| Client.SessionSpaced | frontend/js/game.js:1259-1407 | From a freshly loaded page, any run of key presses sends moves 150 ms apart and bombs 200 ms apart. |
| Client.Remaining | frontend/js/game.js:526-528 | The whole seconds left of the two-minute match, never negative. |
| Client.Pad2 | frontend/js/game.js:536 | A value below sixty is printed as two digits that read back as the value. |
| Client.ClockText | frontend/js/game.js:529-536 | The minutes come unpadded before the colon and the seconds as two digits after it. |
| Client.Clock | frontend/js/game.js:526-536 | The timer text has the `m:ss` shape. |
| Client.ClockReadsBack | frontend/js/game.js:526-536 | The timer text reads back as the seconds left. |
| Client.TextReadsBack | frontend/js/game.js:529-536 | Any `m:ss` text the timer prints reads back as its seconds. |
| Client.Lower | frontend/js/game.js:506 | Capital ASCII letters become lowercase, and every other character is kept. |
| Client.LowerFixed | frontend/js/game.js:506 | Text without capital letters lowercases to itself. |
| Client.Route | frontend/js/game.js:501-511 | "lobby not found" goes to the menu, text containing "dash" in any case is a toast, "invalid move" is hidden, and anything else opens the modal, checked in that order. |
| Client.BadStepHidden | frontend/js/game.js:501-511 | A refused step from the server is never shown. |
| Client.DashRefusalsToast | frontend/js/game.js:501-511 | The server's dash refusals show as a toast. |
| Client.DashErrorsRouted | frontend/js/game.js:501-511 | No error the server's dash returns is swallowed. It shows as a toast exactly when it is the cooldown or the blocked path; a dead or unknown player and a bad direction open the modal. |
| Client.OtherErrorsRouted | frontend/js/game.js:501-511 | A missing lobby returns to the menu, and the parser's direction error opens the modal. |
| Background.CodesAgree | frontend/js/background.js:6-12 | The client's codes for empty, wall and soft wall are the server's. |
| Background.Template | frontend/js/background.js:56-69 | The template is 15 by 15, with walls and unset cells only. |
| Background.GenerateLevel | frontend/js/background.js:56-79 | A cell is a wall exactly on the border and where both indices are even. Every other cell is a soft wall exactly when its coin came up, and unset otherwise. |
| Background.WallsMatchServer | frontend/js/background.js:56-79 | The decoration shows the same walls as every board the server generates. |

## Left out

- **Concurrency.** Locks, goroutines and channels are not modelled. Each
  handler or timer runs as one atomic transition, so the model leaves out
  these re-locking deadlocks:
  - an AI turn calls `movePlayer` under the game lock;
  - `explodeBomb` holds the game's write lock (backend/game.go:545) and, after
    the sweep, calls `snapshot` (backend/game.go:695), which takes the
    same game's read lock (backend/game.go:41). Go's locks are not
    re-entrant, so in the program the detonation of an existing bomb in a
    registered match never gets past the sweep. The broadcast is never sent
    and the clean-up is never scheduled; the clean-up would itself take the
    lock (backend/game.go:702) and then call `snapshot` (backend/game.go:714).
    The lock stays held, so every later handler, timer and AI tick of that
    match blocks, the match end included. The chained detonations are
    separate goroutines (backend/game.go:590 and 651) that block the same way.
    No detonation ever completes in the program. `Blast`, `BlastEffects` and
    the detonation case of `Timers.Fire` state what a detonation does in the
    deadlock-free reading, where the locks are released in turn;
  - `sendMessage` calls `sendError` while holding the connection lock.

  The model also does not capture that a full queue then loses the reply.
- **Map iteration.** Each operation draws one iteration order per map.
  Go may draw a fresh order for each loop over the same map within one
  operation.
- **I/O at the edges:**
  - JSON encoding and decoding: a message arrives decoded, and a frame is
    its type plus a payload tag.
  - Logging, HTTP routing, the health endpoint, the CORS, logging and
    recovery middleware, and `RateLimitMiddleware`'s wrapping of `Allow`.
- **The database.** What its queries answer is an input (`Dispatch.World`):
  which lobbies have a row, the join's verdict and the single-player start's
  write error (`dbError`). The writes the join and the leave make are
  returned as `Dispatch.Query` values, and nothing reads them back.
- **The disconnect sweep's leave.** The `leaveLobby` that the disconnect
  sweep starts in a goroutine (backend/player_tracker.go:319-321) is not
  modelled. It runs while the session still exists, so by
  `Dispatch.LeaveWrite` it writes nothing whenever the session holds a
  connection.
- **The hub's broadcast channel** is never fed by the server. Its case is
  modelled, but no handler uses it. Deleting a connection under a read
  lock in that case is a concurrency issue and not modelled.
- **The tracker** is always present. The nil-tracker branches are left out.
- **The deep copies** made by `snapshot` and the match timer are left out.
  They only decouple the broadcast from later changes.
- **AI tickers.** `Ai.AiTick` is one tick. Starting and stopping tickers is
  the timer environment, and an AI turn of a finished match does nothing.
- **Fresh ids.**
  - UUIDs and random draws are arguments.
  - Properties that need distinct ids take `Orders.Injective` as a
    hypothesis, as `newUUID`'s output is distinct with overwhelming
    probability.
  - `Uuid.NewUuid` takes exactly 16 bytes of entropy or none.
- **Orphaned timers.** `Timers.Fire` models the timers of a dropped match
  as the program runs them (see the finding below). What they do to the
  dropped game object itself is left out, as nobody can reach that object
  any more; only their frames and the teardown they schedule are modelled.
- **The teardown's clearing.** `endGame` and `cleanupGame` also set the
  game object's players, bombs, explosions and powerups to nil
  (backend/game.go:950-953 and 966-969). The model's teardown only removes
  the match from the registry: once removed, the object is out of reach of
  every handler, and its remaining timers are stopped or ask `isActive`.
- **Strings.** Strings are Unicode scalar values. Go's `len` is their
  UTF-8 byte count (`Validation.Utf8Len`).
- Client.Lower: lowercases ASCII letters only, while `toLowerCase` also maps other cased letters of Unicode; the routing texts concerned are ASCII.
- **Float arithmetic.** The float multiplication in `awardPoints` is
  computed exactly in tenths (`Engine.TilePoints`). The multipliers 1.2 and
  1.6 times whole tens are exact in binary after truncation.
- **Ping-pong detonation.** A bomb whose chained detonation arrives after
  it already went off is a no-op, because the bomb id is gone. Re-detonation
  while the clean-up is pending is a fresh detonation of the same bomb,
  exactly as in Go.
- EngineFacts.PlaceBombFresh: stated for a capacity of at most one, the only capacity the code ever sets; with two or more, `bomb_<player>_<count>` could reuse the id of a bomb still lying on the board.
- BlastEffects.ExplodeMarks: holds for distinct fresh ids only, see above.
- BlastEffects.SettleAllExplosions: holds for distinct fresh ids only, see above.
- Timers.WaveThree: holds for distinct fresh ids only, see above.
- Lobby.GeneratePowerups: holds for distinct fresh ids only, see above.
- **Browser side.** Rendering, sound, the DOM, the on-screen buttons and the
  pixel workers are not modelled. The client's board and `Date.now()` are
  inputs.
- **Lobby pages.** The lobby list, lobby creation and lobby page scripts
  are not part of this model.

## Findings

| source | as written | input that shows it | evidently intended | confidence | as-written member | corrected member |
|---|---|---|---|---|---|---|
| backend/game.go:840-929 | The wave and match-end timers do not ask `isActive`. Two paths drop a live match of the lobby from the registry without calling `endGame`: a restart (backend/websocket.go:455-463) and the HTTP single-player start (backend/main.go:290, which reaches backend/lobby.go:352-358). So those two timers are never stopped. The drop in `startGame` (backend/lobby.go:456-462) is reached over the socket only when the lobby has no match, as `handleStartGame` returns the existing one first. | A restart 30 s into a match: 30 s later the old wave sends `powerupSpawn` with the dropped match's powerups to the lobby, and 90 s later the old match end sends a finished `gameState` to players of the new match (`Timers.OldTimersAfterRestart`, `Dispatch.OldWaveReachesLobby`). | A dropped match has its timers stopped, as `endGame` stops them, and none of them sends anything. | medium, not executed | Timers.Fire | Timers.FireStopped, proved by Timers.StoppedAfterRestart |
| backend/game.go:622-656 | A ray that clears a block runs on, and the `cell == 1` check after the effects can never be true, since a wall ended the ray at backend/game.go:611-613. | A bomb at the corner of the row `[0, 2, 2]` with range 2 clears both blocks (`BlastRays.RayPassesBlock`). | The check after the effects ends the ray at the block it cleared (`cell == 2`), so a ray clears at most one block. | low, not executed | Blast.RayWalk | BlastRays.RayWalkStopping, with BlastRays.StoppingIsPrefix |
| frontend/js/game.js:434-452 | When a player did not move, the fallback reads the direction of the new payload's player record. The server never sets that field, so the player faces 'down'. | A player who walked left and then stood still (`Client.StandingTurnsDown`) | A player who did not move keeps the facing it had in the previous payload. | medium, not executed | Client.InferFacing | Client.InferFacingKept |
| backend/websocket.go:357-358 | `handleLeaveLobby` calls `leaveLobby` before it unregisters the connection. `leaveLobby` returns without writing while the session holds any connection (backend/lobby.go:288-293), and the leaving connection is still one of them. The close of a connection takes the other order (backend/websocket.go:93-97). | A player who joined over one connection and leaves over it drops out of the tracker, but the lobby's `player_count` keeps counting it (`Dispatch.LeaveSkipsCount`). | The connection is unregistered first, so the player's last connection leaving writes the count of the sessions that remain. | medium, not executed | Dispatch.Run, shown by Dispatch.LeaveSkipsCount | Dispatch.LeaveCounted, proved by Dispatch.LeaveCountedRefreshes |

=== FILE: ai.dfy ===
/**
 The computer players of backend/game.go: the ticker interval and bomb
 chance of each tier, the danger and target tests, the move choice and one
 AI turn (`makeAIMove`). The random draws are parameters: `draw` stands for
 the `rand.Intn` index (taken modulo the list length) and `roll` for the
 `rand.Float64` value in [0, 1).
 */
module Ai {
  import opened Wrappers
  import opened Orders
  import opened Types
  import opened Engine
  import EngineFacts
  import opened Registry
  import Timers
  import Lobby

  /** The directions tried, in the order tried. */
  const Directions: seq<string> := ["up", "down", "left", "right"]

  /** Radius of the square in which another live player counts as a target. */
  const TargetRadius := 3

  /** `startAITicker`: milliseconds between turns; an unknown tier ticks once a second. */
  function TickInterval(difficulty: string): (ms: nat)
    ensures ms in {300, 600, 1000, 1500}
    ensures difficulty !in Difficulties ==> ms == 1000
  {
    if difficulty == AiEasy then 1500
    else if difficulty == AiMedium then 1000
    else if difficulty == AiHard then 600
    else if difficulty == AiChosenOne then 300
    else 1000
  }

  /** `getBombChance`: the probability of trying a bomb each turn. */
  function BombChance(difficulty: string): (c: real)
    ensures 0.0 < c < 1.0
    ensures difficulty !in Difficulties ==> c == 0.25
  {
    if difficulty == AiEasy then 0.15
    else if difficulty == AiMedium then 0.35
    else if difficulty == AiHard then 0.55
    else if difficulty == AiChosenOne then 0.75
    else 0.25
  }

  /** The tiers from easiest to hardest. */
  function Rank(difficulty: string): nat {
    if difficulty == AiEasy then 0
    else if difficulty == AiMedium then 1
    else if difficulty == AiHard then 2
    else 3
  }

  /** A harder tier moves strictly more often and bombs strictly more eagerly. */
  lemma TiersOrdered(a: string, b: string)
    requires a in Difficulties && b in Difficulties && Rank(a) < Rank(b)
    ensures TickInterval(b) < TickInterval(a)
    ensures BombChance(a) < BombChance(b)
  {
  }

  /** `isInBombRange`: a square of half-width `range` around the bomb, walls ignored. */
  predicate InBombRange(pos: Position, b: Bomb) {
    Abs(pos.col - b.position.col) <= b.range && Abs(pos.row - b.position.row) <= b.range
  }

  /** `isInDanger`: some bomb's square covers the cell. */
  predicate IsInDanger(g: Game, pos: Position) {
    exists id :: id in g.bombs && InBombRange(pos, g.bombs[id])
  }

  /** `hasTarget`: some live player, the asking one included, within 3 cells on both axes. */
  predicate HasTarget(g: Game, pos: Position) {
    exists id :: id in g.players && g.players[id].alive
      && Abs(pos.col - g.players[id].position.col) <= TargetRadius
      && Abs(pos.row - g.players[id].position.row) <= TargetRadius
  }

  /** The directions of `dirs` that `isValidMove` accepts, in order. */
  function ValidMoves(g: Game, pid: string, dirs: seq<string>): (r: seq<string>)
    requires IsGrid(g.board)
    ensures forall d :: d in r <==> d in dirs && IsValidMove(g, pid, d)
    ensures |r| <= |dirs|
  {
    if |dirs| == 0 then []
    else (if IsValidMove(g, pid, dirs[0]) then [dirs[0]] else []) + ValidMoves(g, pid, dirs[1..])
  }

  /** The filter goes direction by direction: the accepted directions keep the order they were listed in. */
  lemma {:induction false} ValidMovesConcat(g: Game, pid: string, a: seq<string>, b: seq<string>)
    requires IsGrid(g.board)
    ensures ValidMoves(g, pid, a + b) == ValidMoves(g, pid, a) + ValidMoves(g, pid, b)
    decreases |a|
  {
    if |a| > 0 {
      assert (a + b)[0] == a[0] && (a + b)[1..] == a[1..] + b;
      ValidMovesConcat(g, pid, a[1..], b);
    } else {
      assert a + b == b;
    }
  }

  /** `findSafeMoves`: the moves whose landing cell is out of every bomb's square. */
  function SafeMoves(g: Game, pos: Position, moves: seq<string>): (r: seq<string>)
    ensures forall m :: m in r <==> m in moves && !IsInDanger(g, GetNewPosition(pos, m))
  {
    if |moves| == 0 then []
    else (if !IsInDanger(g, GetNewPosition(pos, moves[0])) then [moves[0]] else []) + SafeMoves(g, pos, moves[1..])
  }

  /** `findTargetMoves`: the moves whose landing cell has a target near it. */
  function TargetMoves(g: Game, pos: Position, moves: seq<string>): (r: seq<string>)
    ensures forall m :: m in r <==> m in moves && HasTarget(g, GetNewPosition(pos, m))
  {
    if |moves| == 0 then []
    else (if HasTarget(g, GetNewPosition(pos, moves[0])) then [moves[0]] else []) + TargetMoves(g, pos, moves[1..])
  }

  /**
   `findBestMove`: in danger, a random safe move if there is one; otherwise
   a random move towards a target if there is one; otherwise any random
   valid move.
   */
  function FindBestMove(g: Game, pid: string, valid: seq<string>, draw: nat): (r: string)
    requires pid in g.players && |valid| > 0
    ensures r in valid
    ensures var pos := g.players[pid].position;
            IsInDanger(g, pos) && (exists m :: m in valid && !IsInDanger(g, GetNewPosition(pos, m))) ==>
              !IsInDanger(g, GetNewPosition(pos, r))
  {
    var pos := g.players[pid].position;
    var safe := SafeMoves(g, pos, valid);
    var targets := TargetMoves(g, pos, valid);
    if IsInDanger(g, pos) && |safe| > 0 then safe[draw % |safe|]
    else if HasTarget(g, pos) && |targets| > 0 then targets[draw % |targets|]
    else valid[draw % |valid|]
  }

  /**
   A live AI is its own target: one step from where it stands it is within
   3 cells of itself, so every listed direction is a target move.
   */
  lemma {:induction false} TargetMovesAll(g: Game, pid: string, moves: seq<string>)
    requires pid in g.players && g.players[pid].alive
    requires forall m :: m in moves ==> m in Directions
    ensures TargetMoves(g, g.players[pid].position, moves) == moves
    decreases |moves|
  {
    if |moves| > 0 {
      var pos := g.players[pid].position;
      var np := GetNewPosition(pos, moves[0]);
      assert moves[0] in Directions;
      assert Abs(np.col - pos.col) <= TargetRadius && Abs(np.row - pos.row) <= TargetRadius;
      assert HasTarget(g, np);
      TargetMovesAll(g, pid, moves[1..]);
    }
  }

  /**
   For a live AI the target branch never narrows the choice: the move is a
   random safe one when in danger with a way out, else a random valid one.
   */
  lemma BestMoveCollapses(g: Game, pid: string, valid: seq<string>, draw: nat)
    requires pid in g.players && g.players[pid].alive && |valid| > 0
    requires forall m :: m in valid ==> m in Directions
    ensures var pos := g.players[pid].position;
            var safe := SafeMoves(g, pos, valid);
            FindBestMove(g, pid, valid, draw) ==
              if IsInDanger(g, pos) && |safe| > 0 then safe[draw % |safe|] else valid[draw % |valid|]
  {
    var pos := g.players[pid].position;
    TargetMovesAll(g, pid, valid);
    assert HasTarget(g, pos) by {
      assert Abs(pos.col - pos.col) == 0;
    }
  }

  /** `shouldPlaceBomb`: a target nearby, or standing on a wall cell. */
  predicate ShouldPlaceBomb(g: Game, pid: string)
    requires pid in g.players && IsGrid(g.board)
  {
    var pos := g.players[pid].position;
    HasTarget(g, pos) || (InBounds(g.board, pos) && Cell(g.board, pos) == Wall)
  }

  /** A live AI always finds itself as a target, so the bomb test reduces to the chance roll. */
  lemma AlwaysShouldPlace(g: Game, pid: string)
    requires pid in g.players && g.players[pid].alive && IsGrid(g.board)
    ensures ShouldPlaceBomb(g, pid)
  {
    var pos := g.players[pid].position;
    assert Abs(pos.col - pos.col) == 0 && Abs(pos.row - pos.row) == 0;
  }

  /** The move half of a turn: the chosen valid move, or nothing when no direction is valid. */
  function AiMove(g: Game, pid: string, o: MapOrders, draw: nat, now: int): (r: Step)
    requires IsGrid(g.board) && pid in g.players && g.players[pid].alive
    ensures MoveFrame(g, r.game, pid) && r.game.bombs == g.bombs
    ensures |ValidMoves(g, pid, Directions)| == 0 ==> r == Step(g, [])
    ensures |ValidMoves(g, pid, Directions)| > 0 ==>
              exists m :: IsValidMove(g, pid, m) && r.game.players[pid].position == GetNewPosition(g.players[pid].position, m)
    ensures var pos := g.players[pid].position;
            IsInDanger(g, pos) && (exists m :: IsValidMove(g, pid, m) && !IsInDanger(g, GetNewPosition(pos, m))) ==>
              !IsInDanger(g, r.game.players[pid].position)
  {
    var valid := ValidMoves(g, pid, Directions);
    if |valid| == 0 then Step(g, [])
    else
      var m := FindBestMove(g, pid, valid, draw);
      ValidMoveRuns(g, pid, m, o, now);
      EscapeListed(g, pid);
      MovePlayer(g, pid, m, o, now).value
  }

  /** A valid move goes through: the mover alone steps onto the target cell. */
  lemma ValidMoveRuns(g: Game, pid: string, m: string, o: MapOrders, now: int)
    requires IsGrid(g.board) && pid in g.players && g.players[pid].alive && IsValidMove(g, pid, m)
    ensures var r := MovePlayer(g, pid, m, o, now);
            && r.Success? && MoveFrame(g, r.value.game, pid) && r.value.game.bombs == g.bombs
            && r.value.game.players[pid].position == GetNewPosition(g.players[pid].position, m)
  {
  }

  /** A valid escape from danger is among the valid moves of the four directions. */
  lemma EscapeListed(g: Game, pid: string)
    requires IsGrid(g.board) && pid in g.players
    ensures var pos := g.players[pid].position;
            IsInDanger(g, pos) && (exists m :: IsValidMove(g, pid, m) && !IsInDanger(g, GetNewPosition(pos, m))) ==>
              exists m :: m in ValidMoves(g, pid, Directions) && !IsInDanger(g, GetNewPosition(pos, m))
  {
    var pos := g.players[pid].position;
    if IsInDanger(g, pos) && (exists m :: IsValidMove(g, pid, m) && !IsInDanger(g, GetNewPosition(pos, m))) {
      var m' :| IsValidMove(g, pid, m') && !IsInDanger(g, GetNewPosition(pos, m'));
      assert m' in Directions;
    }
  }

  /**
   The bomb half of a turn, after the move `mv`: if the roll is under the
   tier's chance and the cell the AI now stands on is outside every bomb's
   square, it calls `placeBomb` there. Below capacity a bomb with its range
   appears on that cell; at capacity its last bomb in map order is sent off
   instead. Otherwise the move is the whole turn.
   */
  function AiBomb(mv: Step, pid: string, o: MapOrders, roll: real, now: int): (r: Step)
    requires IsGrid(mv.game.board) && pid in mv.game.players && mv.game.players[pid].alive
    ensures var g := mv.game;
            var p := g.players[pid];
            var owned := OwnedInOrder(g.bombs, o.bombs, pid);
            && (roll >= BombChance(p.aiDifficulty) || IsInDanger(g, p.position) ==> r == mv)
            && (roll < BombChance(p.aiDifficulty) && !IsInDanger(g, p.position) ==>
                  && (|owned| < p.maxBombs ==>
                        var id := BombId(pid, |owned|);
                        r == Step(g.(bombs := g.bombs[id := Bomb(id, pid, p.position, p.bombRange, now)]), mv.events))
                  && (|owned| >= p.maxBombs ==>
                        r == Step(g, mv.events + if |owned| > 0 then [Detonate(owned[|owned| - 1])] else [])))
  {
    var p := mv.game.players[pid];
    AlwaysShouldPlace(mv.game, pid);
    if roll < BombChance(p.aiDifficulty) && ShouldPlaceBomb(mv.game, pid) && !IsInDanger(mv.game, p.position) then
      var b := PlaceBomb(mv.game, pid, o.bombs, now).value;
      Step(b.game, mv.events + b.events)
    else mv
  }

  /** `makeAIMove` on the game: a dead or missing player does nothing; otherwise the move, then the bomb half. */
  function AiTurn(g: Game, pid: string, o: MapOrders, draw: nat, roll: real, now: int): (r: Step)
    requires IsGrid(g.board)
    ensures pid !in g.players || !g.players[pid].alive ==> r == Step(g, [])
    ensures pid in g.players && g.players[pid].alive ==>
              var mv := AiMove(g, pid, o, draw, now);
              pid in mv.game.players && mv.game.players[pid].alive && r == AiBomb(mv, pid, o, roll, now)
  {
    if pid !in g.players || !g.players[pid].alive then Step(g, [])
    else AiBomb(AiMove(g, pid, o, draw, now), pid, o, roll, now)
  }

  /** The bomb half keeps the match invariants. */
  lemma BombKeeps(mv: Step, pid: string, o: MapOrders, roll: real, now: int)
    requires Invariants(mv.game) && Enumerates(o.bombs, mv.game.bombs.Keys)
    requires pid in mv.game.players && mv.game.players[pid].alive
    ensures Invariants(AiBomb(mv, pid, o, roll, now).game)
  {
    var p := mv.game.players[pid];
    if roll < BombChance(p.aiDifficulty) && !IsInDanger(mv.game, p.position) {
      EngineFacts.PlaceKeeps(mv.game, pid, o.bombs, now);
    }
  }

  /** An AI turn keeps the match invariants. */
  lemma AiTurnKeeps(g: Game, pid: string, o: MapOrders, draw: nat, roll: real, now: int)
    requires Invariants(g) && Enumerates(o.bombs, g.bombs.Keys)
    ensures Invariants(AiTurn(g, pid, o, draw, roll, now).game)
  {
    if pid in g.players && g.players[pid].alive {
      var mv := AiMove(g, pid, o, draw, now);
      var valid := ValidMoves(g, pid, Directions);
      if |valid| > 0 {
        var m := FindBestMove(g, pid, valid, draw);
        EngineFacts.MoveKeeps(g, pid, m, o, now);
      }
      BombKeeps(mv, pid, o, roll, now);
    }
  }

  /**
   One tick of an AI's ticker. Tickers are stopped when the match timer
   fires, and a tick for a game no longer registered does nothing.
   */
  function AiTick(reg: Registry, gid: string, pid: string, o: MapOrders, draw: nat, roll: real, now: int): (r: Timers.Fired)
    requires Timers.Grids(reg)
    ensures !IsActive(reg, gid) || reg.games[gid].status != Playing ==> r == Timers.Fired(reg, [], [])
    ensures r.reg.games.Keys == reg.games.Keys && r.sent == []
    ensures forall id :: id in reg.games && id != gid ==> r.reg.games[id] == reg.games[id]
    ensures IsActive(reg, gid) && reg.games[gid].status == Playing ==>
              var s := AiTurn(reg.games[gid], pid, o, draw, roll, now);
              r.reg.games[gid] == s.game && r.events == s.events
  {
    if !IsActive(reg, gid) || reg.games[gid].status != Playing then Timers.Fired(reg, [], [])
    else
      var s := AiTurn(reg.games[gid], pid, o, draw, roll, now);
      Timers.Fired(Timers.Refile(reg, gid, s.game), s.events, [])
  }

  /** AI ticks keep every registered match sound. */
  lemma AiTickKeeps(reg: Registry, gid: string, pid: string, o: MapOrders, draw: nat, roll: real, now: int)
    requires Sound(reg)
    requires IsActive(reg, gid) ==> Enumerates(o.bombs, reg.games[gid].bombs.Keys)
    ensures Sound(AiTick(reg, gid, pid, o, draw, roll, now).reg)
  {
    if IsActive(reg, gid) && reg.games[gid].status == Playing {
      var g := reg.games[gid];
      AiTurnKeeps(g, pid, o, draw, roll, now);
      AiTurnFrame(g, pid, o, draw, roll, now);
      Lobby.FilingKeeps(reg, AiTurn(g, pid, o, draw, roll, now).game);
    }
  }

  /** An AI turn leaves the game's id and lobby alone. */
  lemma AiTurnFrame(g: Game, pid: string, o: MapOrders, draw: nat, roll: real, now: int)
    requires IsGrid(g.board)
    ensures var r := AiTurn(g, pid, o, draw, roll, now).game;
            r.id == g.id && r.lobbyId == g.lobbyId && r.status == g.status
  {
  }
}

=== FILE: background.dfy ===
/**
 The decorative level behind the menus (frontend/js/background.js): a
 15 by 15 template of walls, then a random fill of soft walls. A cell the
 fill leaves alone stays unset, which the renderer draws as nothing.
 `coin(row, col)` is the draw `Math.random() < 0.85` made for that cell.
 */
module Background {
  import opened Wrappers
  import opened Types
  import Lobby

  const Rows := 15
  const Cols := 15

  /** The cell codes of the client; the first three are the server's board codes. */
  const EmptyCode := 0
  const WallCode := 1
  const SoftWallCode := 2
  const BombCode := 3
  const ExplosionCode := 4

  /** The client's codes for empty, wall and soft wall are the server's `Empty`, `Wall` and `Block`. */
  lemma CodesAgree()
    ensures EmptyCode == Empty && WallCode == Wall && SoftWallCode == Block
    ensures BombCode !in {Empty, Wall, Block} && ExplosionCode !in {Empty, Wall, Block}
  {
  }

  /** A row of cells, `None` where the JavaScript array holds `null` or nothing. */
  type Grid = seq<seq<Option<int>>>

  predicate Square(g: Grid) {
    |g| == Rows && forall i :: 0 <= i < Rows ==> |g[i]| == Cols
  }

  /** The first loop: the border and the even-even cells are walls, the rest `null`. */
  function Template(): (t: Grid)
    ensures Square(t)
    ensures forall i, j :: 0 <= i < Rows && 0 <= j < Cols ==>
              (t[i][j] == Some(WallCode) || t[i][j] == None)
  {
    seq(Rows, row => seq(Cols, col =>
      if row == 0 || row == Rows - 1 || col == 0 || col == Cols - 1 then Some(WallCode)
      else if row % 2 == 0 && col % 2 == 0 then Some(WallCode)
      else None))
  }

  /**
   The second loop: a `null` template cell becomes a soft wall when its coin
   comes up and is otherwise left unset; a template wall is copied.
   */
  function Fill(t: Grid, coin: (int, int) -> bool): (cells: Grid)
    requires Square(t)
    ensures Square(cells)
  {
    seq(Rows, row requires 0 <= row < Rows => seq(Cols, col requires 0 <= col < Cols =>
      if t[row][col].None? && coin(row, col) then Some(SoftWallCode)
      else if t[row][col] == Some(WallCode) then Some(WallCode)
      else None))
  }

  /**
   `generateBackgroundLevel`: 15 by 15; a cell is a wall exactly on the border
   and where both indices are even; every other cell is a soft wall exactly
   when its coin came up, and unset otherwise.
   */
  function GenerateLevel(coin: (int, int) -> bool): (cells: Grid)
    ensures Square(cells)
    ensures forall i, j :: 0 <= i < Rows && 0 <= j < Cols ==>
              (cells[i][j] == Some(Wall) <==> Lobby.Border(i, j) || Lobby.Pillar(i, j))
    ensures forall i, j :: 0 <= i < Rows && 0 <= j < Cols && cells[i][j] != Some(Wall) ==>
              (cells[i][j] == Some(Block) <==> coin(i, j)) && (cells[i][j].None? <==> !coin(i, j))
  {
    Fill(Template(), coin)
  }

  /** The decoration shows the same walls as every board the server generates, whatever either's draws. */
  lemma WallsMatchServer(coin: (int, int) -> bool, serverCoin: (int, int) -> bool)
    ensures var cells := GenerateLevel(coin);
            var b := Lobby.GenerateBoard(serverCoin);
            forall q :: InBounds(b, q) ==> (cells[q.row][q.col] == Some(Wall) <==> Cell(b, q) == Wall)
  {
  }
}

=== FILE: blast.dfy ===
/**
 Bomb detonation (`explodeBombInternal` in backend/game.go). The centre cell
 and then the four rays are swept one cell at a time, in the order of the Go
 loops: each swept cell gets a hazard marker, a block there is cleared and
 counted and any powerup under it goes to the first live player standing on
 it, every live player on it is hit, and every other bomb on it is told to
 detonate. The tally then goes to `awardPoints`; clearing the hazards and
 the bomb 500 ms later is the `ClearHazards` event.
 */
module Blast {
  import opened Wrappers
  import opened Orders
  import opened Types
  import opened Engine

  // ------------------------------------------------------------- one cell

  /** A live player standing on `pos` is struck. */
  predicate Struck(p: Player, pos: Position) {
    p.alive && p.position == pos
  }

  /** The players after a hit on `pos`, and how many of the hits count as kills. */
  datatype Hits = Hits(players: map<string, Player>, kills: nat)

  /**
   Every struck player takes the hit; the kills are the unshielded struck
   players other than the bomb's owner.
   */
  function HitAt(players: map<string, Player>, pos: Position, owner: string): Hits {
    Hits(map id | id in players :: if Struck(players[id], pos) then Hit(players[id]) else players[id],
         |KillsAt(players, pos, owner)|)
  }

  lemma HitAtFacts(players: map<string, Player>, pos: Position, owner: string)
    ensures var r := HitAt(players, pos, owner);
            && r.players.Keys == players.Keys
            && (forall id :: id in players && !Struck(players[id], pos) ==> r.players[id] == players[id])
            && (forall id :: id in players && Struck(players[id], pos) ==> r.players[id] == Hit(players[id]))
            && r.kills == |KillsAt(players, pos, owner)|
  {
  }

  /** The struck players whose hit is a kill: no shield, not the owner. */
  function KillsAt(players: map<string, Player>, pos: Position, owner: string): set<string> {
    set id | id in players && Struck(players[id], pos) && !players[id].shield && players[id].id != owner
  }

  /** Entry `i` of `order` is a live player on `pos`, and no listed entry before it is. */
  predicate FirstStruck(players: map<string, Player>, order: seq<string>, pos: Position, i: int)
    requires 0 <= i < |order|
  {
    && order[i] in players && Struck(players[order[i]], pos)
    && forall j :: 0 <= j < i && order[j] in players ==> !Struck(players[order[j]], pos)
  }

  /** The id of the first live player on `pos` in iteration order. */
  function FirstAliveAt(players: map<string, Player>, order: seq<string>, pos: Position): (r: Option<string>)
    ensures r.Some? ==> exists k :: k in players && Struck(players[k], pos) && players[k].id == r.value
    ensures r.Some? ==> exists i :: 0 <= i < |order| && FirstStruck(players, order, pos, i) && players[order[i]].id == r.value
    ensures r.None? ==> forall i :: 0 <= i < |order| && order[i] in players ==> !Struck(players[order[i]], pos)
  {
    if |order| == 0 then None
    else if order[0] in players && Struck(players[order[0]], pos) then
      assert FirstStruck(players, order, pos, 0);
      Some(players[order[0]].id)
    else
      var rest := FirstAliveAt(players, order[1..], pos);
      assert rest.Some? ==> exists i :: 0 <= i < |order| && FirstStruck(players, order, pos, i) && players[order[i]].id == rest.value by {
        if rest.Some? {
          var i :| 0 <= i < |order[1..]| && FirstStruck(players, order[1..], pos, i) && players[order[1..][i]].id == rest.value;
          assert FirstStruck(players, order, pos, i + 1);
        }
      }
      rest
  }

  /** One uncovered powerup, if it lies on `pos`, goes to the first live player standing there. */
  function GrantOne(g: Game, pos: Position, id: string, players: seq<string>, now: int): Step {
    if id in g.powerups && g.powerups[id].position == pos then
      match FirstAliveAt(g.players, players, pos)
      case Some(pid) => CollectPowerup(g, pid, id, now)
      case None => Step(g, [])
    else Step(g, [])
  }

  lemma GrantOneFrame(g: Game, pos: Position, id: string, players: seq<string>, now: int)
    ensures GrantFrame(g, GrantOne(g, pos, id, players, now).game)
  {
    if id in g.powerups && g.powerups[id].position == pos && FirstAliveAt(g.players, players, pos).Some? {
      CollectWithinGrantFrame(g, FirstAliveAt(g.players, players, pos).value, id, now);
    }
  }

  /** Every powerup uncovered at `pos` is offered to the first live player standing there. */
  function GrantAt(g: Game, pos: Position, order: seq<string>, players: seq<string>, now: int): Step
    decreases |order|
  {
    if |order| == 0 then Step(g, [])
    else
      var s := GrantOne(g, pos, order[0], players, now);
      var rest := GrantAt(s.game, pos, order[1..], players, now);
      Step(rest.game, s.events + rest.events)
  }

  /** Uncovered powerups change only the powerups and the takers' effect fields. */
  lemma {:induction false} GrantAtFrame(g: Game, pos: Position, order: seq<string>, players: seq<string>, now: int)
    ensures GrantFrame(g, GrantAt(g, pos, order, players, now).game)
    decreases |order|
  {
    if |order| > 0 {
      var s := GrantOne(g, pos, order[0], players, now);
      GrantOneFrame(g, pos, order[0], players, now);
      GrantAtFrame(s.game, pos, order[1..], players, now);
      GrantFrameTrans(g, s.game, GrantAt(s.game, pos, order[1..], players, now).game);
    }
  }

  /** Only powerups and the powerup-related fields of players may differ. */
  predicate GrantFrame(g: Game, r: Game) {
    && r == g.(players := r.players, powerups := r.powerups)
    && r.players.Keys == g.players.Keys
    && (forall id :: id in g.players ==> SameBody(g.players[id], r.players[id]))
    && r.powerups.Keys <= g.powerups.Keys
  }

  lemma CollectWithinGrantFrame(g: Game, pid: string, puid: string, now: int)
    ensures GrantFrame(g, CollectPowerup(g, pid, puid, now).game)
  {
    var r := CollectPowerup(g, pid, puid, now).game;
    assert EffectFrame(g, r, pid);
  }

  lemma GrantFrameTrans(a: Game, b: Game, c: Game)
    requires GrantFrame(a, b) && GrantFrame(b, c)
    ensures GrantFrame(a, c)
  {
  }

  /** What a powerup can change on a player: effects, range and shield. */
  predicate SameBody(p: Player, q: Player) {
    q == p.(powerups := q.powerups, bombRange := q.bombRange, shield := q.shield)
  }

  /** Bombs other than `bid` lying on `pos`, in iteration order. */
  function ChainAt(bombs: map<string, Bomb>, order: seq<string>, pos: Position, bid: string): seq<string> {
    if |order| == 0 then []
    else
      var rest := ChainAt(bombs, order[1..], pos, bid);
      if order[0] in bombs && order[0] != bid && bombs[order[0]].position == pos then [order[0]] + rest else rest
  }

  /** The chained bombs are exactly the other listed bombs lying on `pos`. */
  lemma {:induction false} ChainAtFacts(bombs: map<string, Bomb>, order: seq<string>, pos: Position, bid: string)
    ensures forall x :: x in ChainAt(bombs, order, pos, bid) <==> x in order && x in bombs && x != bid && bombs[x].position == pos
  {
    if |order| > 0 {
      ChainAtFacts(bombs, order[1..], pos, bid);
      forall x ensures x in order <==> x == order[0] || x in order[1..] {
        assert order == [order[0]] + order[1..];
      }
    }
  }

  // ------------------------------------------------------------- the board walk

  /** A swept cell, and whether a block was found there (the centre is never checked for one). */
  datatype Visit = Visit(pos: Position, block: bool)

  /** The board after a walk and the cells it swept, in order. */
  datatype Walk = Walk(board: Board, visits: seq<Visit>)

  /**
   The board half of one ray loop from step `i` on: stop past the range, off
   the board or at a wall; otherwise sweep the cell, clearing a block.
   */
  function RayWalk(b: Board, c: Position, d: Dir, i: nat, range: int): (r: Walk)
    requires IsGrid(b)
    ensures IsGrid(r.board) && |r.board| == |b| && (|b| > 0 ==> |r.board[0]| == |b[0]|)
    decreases range - i
  {
    if i > range then Walk(b, [])
    else
      var pos := Shift(c, d, i);
      if !InBounds(b, pos) || Cell(b, pos) == Wall then Walk(b, [])
      else
        var blk := Cell(b, pos) == Block;
        var rest := RayWalk(if blk then SetCell(b, pos, Empty) else b, c, d, i + 1, range);
        Walk(rest.board, [Visit(pos, blk)] + rest.visits)
  }

  /** The centre, then the rays in the order of the direction table: up, down, left, right. */
  function CrossWalk(b: Board, c: Position, range: int): (r: Walk)
    requires IsGrid(b)
    ensures IsGrid(r.board) && |r.board| == |b| && (|b| > 0 ==> |r.board[0]| == |b[0]|)
  {
    var up := RayWalk(b, c, Up, 1, range);
    var down := RayWalk(up.board, c, Down, 1, range);
    var left := RayWalk(down.board, c, Left, 1, range);
    var right := RayWalk(left.board, c, Right, 1, range);
    Walk(right.board, [Visit(c, false)] + up.visits + down.visits + left.visits + right.visits)
  }

  /** The destroyed-tile tally: the swept cells whose block test found a block. */
  function Tiles(visits: seq<Visit>): nat {
    if |visits| == 0 then 0 else (if visits[0].block then 1 else 0) + Tiles(visits[1..])
  }

  // ------------------------------------------------------------- the effects

  /** The running effects of a detonation. */
  datatype Sweep = Sweep(game: Game, hazards: seq<string>, kills: nat, events: seq<Event>)

  /** Fixed inputs of one detonation; `ids` stands for the successive fresh UUIDs. */
  datatype Det = Det(bid: string, owner: string, o: MapOrders, ids: nat -> string, now: int)

  /**
   The effects at one swept cell: a hazard marker, the powerups under a
   cleared block handed out, the players on the cell hit, the other bombs
   there chained.
   */
  function Settle(s: Sweep, v: Visit, det: Det): (r: Sweep)
    ensures r.hazards == s.hazards + [det.ids(|s.hazards|)]
    ensures r.game.board == s.game.board && r.game.bombs == s.game.bombs
    ensures r.game.explosions == s.game.explosions[det.ids(|s.hazards|) := Explosion(det.ids(|s.hazards|), v.pos, det.now + HazardLifetime)]
  {
    var hid := det.ids(|s.hazards|);
    var g1 := s.game.(explosions := s.game.explosions[hid := Explosion(hid, v.pos, det.now + HazardLifetime)]);
    var granted := if v.block then GrantAt(g1, v.pos, det.o.powerups, det.o.players, det.now) else Step(g1, []);
    GrantAtFrame(g1, v.pos, det.o.powerups, det.o.players, det.now);
    var h := HitAt(granted.game.players, v.pos, det.owner);
    var g2 := granted.game.(players := h.players);
    var chain := ChainAt(g2.bombs, det.o.bombs, v.pos, det.bid);
    Sweep(g2, s.hazards + [hid], s.kills + h.kills, s.events + granted.events + Detonations(chain))
  }

  /** The effects of every swept cell, in sweep order. */
  function SettleAll(s: Sweep, visits: seq<Visit>, det: Det): (r: Sweep)
    ensures |r.hazards| == |s.hazards| + |visits|
    ensures r.game.board == s.game.board && r.game.bombs == s.game.bombs
    decreases |visits|
  {
    if |visits| == 0 then s else SettleAll(Settle(s, visits[0], det), visits[1..], det)
  }

  /**
   `explodeBombInternal` for a game that is still active. A missing bomb is a
   no-op. Otherwise the board walk and the per-cell effects run, the tally is
   scored, and the clean-up is scheduled 500 ms later. No effect reads or
   writes the board, so running the board walk first and the effects after it
   in the same cell order gives the state the interleaved Go loops give.
   */
  function Explode(g: Game, bid: string, o: MapOrders, ids: nat -> string, now: int): (r: Step)
    requires IsGrid(g.board)
    ensures bid !in g.bombs ==> r == Step(g, [])
    ensures bid in g.bombs ==> r.game.board == CrossWalk(g.board, g.bombs[bid].position, g.bombs[bid].range).board
    ensures bid in g.bombs ==> r.game.bombs == g.bombs
  {
    if bid !in g.bombs then Step(g, [])
    else
      var b := g.bombs[bid];
      var w := CrossWalk(g.board, b.position, b.range);
      var det := Det(bid, b.playerId, o, ids, now);
      var s := SettleAll(Sweep(g.(board := w.board), [], 0, []), w.visits, det);
      var chain := ChainExplosion(bid, b.playerId, Tiles(w.visits), s.kills);
      Step(AwardPoints(s.game, chain), s.events + [ClearHazards(bid, s.hazards, now + HazardLifetime)])
  }

  /** The deferred clean-up: the detonation's hazards and the bomb itself go. */
  function ClearBlast(g: Game, bid: string, hazards: seq<string>): (r: Game)
    ensures r.bombs == g.bombs - {bid}
    ensures r.explosions.Keys == g.explosions.Keys - (set h | h in hazards)
    ensures forall h :: h in r.explosions ==> r.explosions[h] == g.explosions[h]
    ensures r == g.(bombs := r.bombs, explosions := r.explosions)
  {
    g.(bombs := g.bombs - {bid}, explosions := g.explosions - (set h | h in hazards))
  }
}

=== FILE: blast_effects.dfy ===
/**
 What the per-cell effects of a detonation do to the match: one hazard
 marker per swept cell under the successive fresh ids, chained detonations
 for exactly the other bombs lying on swept cells, players away from every
 swept cell untouched, and the shape invariants of the match kept.
 */
module BlastEffects {
  import opened Orders
  import opened Types
  import opened Engine
  import opened Blast
  import BlastRays
  import opened Wrappers

  /** Players are filed under their own id. */
  predicate KeyIds(g: Game) {
    forall id :: id in g.players ==> g.players[id].id == id
  }

  /** A powerup pick-up or a hit keeps a player's identity and home, and leaves it alive. */
  predicate Keeps(p: Player, q: Player) {
    && q.id == p.id && q.spawnPosition == p.spawnPosition && q.maxBombs == p.maxBombs
    && (p.alive ==> q.alive)
    && (p.score >= 0 ==> q.score >= 0)
    && (q.position == p.position || q.position == p.spawnPosition)
  }

  /** Everything a sweep may do to the players, relative to the start state. */
  predicate PlayersKept(g: Game, r: Game) {
    && r.players.Keys == g.players.Keys
    && forall id :: id in g.players ==> Keeps(g.players[id], r.players[id])
  }

  lemma KeepsTrans(p: Player, q: Player, x: Player)
    requires Keeps(p, q) && Keeps(q, x)
    ensures Keeps(p, x)
  {
  }

  /** Only the struck players are changed by a hit, and none of them dies. */
  lemma HitKeeps(players: map<string, Player>, pos: Position, owner: string)
    ensures var h := HitAt(players, pos, owner);
            && h.players.Keys == players.Keys
            && (forall id :: id in players ==> Keeps(players[id], h.players[id]))
            && (forall id :: id in players && players[id].position != pos ==> h.players[id] == players[id])
  {
    HitAtFacts(players, pos, owner);
  }

  /** The first live player on a cell, under `KeyIds`, is filed under the id returned and stands there. */
  lemma FirstAliveStands(g: Game, order: seq<string>, pos: Position)
    requires KeyIds(g) && FirstAliveAt(g.players, order, pos).Some?
    ensures var pid := FirstAliveAt(g.players, order, pos).value;
            pid in g.players && g.players[pid].position == pos
  {
    var pid := FirstAliveAt(g.players, order, pos).value;
    var k :| k in g.players && Struck(g.players[k], pos) && g.players[k].id == pid;
  }

  lemma GrantOneKeeps(g: Game, pos: Position, id: string, players: seq<string>, now: int)
    requires KeyIds(g)
    ensures var r := GrantOne(g, pos, id, players, now).game;
            && PlayersKept(g, r) && KeyIds(r)
            && (forall x :: x in g.players ==> r.players[x].position == g.players[x].position)
            && (forall x :: x in g.players && g.players[x].position != pos ==> r.players[x] == g.players[x])
  {
    GrantOneFrame(g, pos, id, players, now);
    if id in g.powerups && g.powerups[id].position == pos && FirstAliveAt(g.players, players, pos).Some? {
      FirstAliveStands(g, players, pos);
    }
  }

  /** Handing out uncovered powerups only touches players on the cell, under `KeyIds`. */
  lemma {:induction false} GrantKeeps(g: Game, pos: Position, order: seq<string>, players: seq<string>, now: int)
    requires KeyIds(g)
    ensures var r := GrantAt(g, pos, order, players, now).game;
            && PlayersKept(g, r) && KeyIds(r)
            && (forall id :: id in g.players ==> r.players[id].position == g.players[id].position)
            && (forall id :: id in g.players && g.players[id].position != pos ==> r.players[id] == g.players[id])
    decreases |order|
  {
    if |order| > 0 {
      var s := GrantOne(g, pos, order[0], players, now);
      GrantOneKeeps(g, pos, order[0], players, now);
      GrantKeeps(s.game, pos, order[1..], players, now);
      var r := GrantAt(s.game, pos, order[1..], players, now).game;
      forall x | x in g.players ensures Keeps(g.players[x], r.players[x]) {
        KeepsTrans(g.players[x], s.game.players[x], r.players[x]);
      }
    }
  }

  // ------------------------------------------------------------- one cell

  /** The new events of one swept cell: pick-up expiries and the chained bombs lying there. */
  predicate CellEvent(e: Event, g: Game, pos: Position, bid: string) {
    e.ExpireEffect? || (e.Detonate? && e.bombId in g.bombs && e.bombId != bid && g.bombs[e.bombId].position == pos)
  }

  /**
   One swept cell: its hazard goes down under the next fresh id, only
   players standing on it change, the shape invariants hold, and the bombs
   chained are exactly the other listed bombs lying there.
   */
  lemma SettleFacts(s: Sweep, v: Visit, det: Det)
    requires KeyIds(s.game)
    ensures var r := Settle(s, v, det);
            && r.game == s.game.(players := r.game.players, powerups := r.game.powerups, explosions := r.game.explosions)
            && PlayersKept(s.game, r.game) && KeyIds(r.game)
            && (forall id :: id in s.game.players && s.game.players[id].position != v.pos ==> r.game.players[id] == s.game.players[id])
            && |r.events| >= |s.events| && r.events[..|s.events|] == s.events
            && (forall n :: |s.events| <= n < |r.events| ==> CellEvent(r.events[n], s.game, v.pos, det.bid))
            && (forall x :: x in det.o.bombs && x in s.game.bombs && x != det.bid && s.game.bombs[x].position == v.pos
                  ==> Detonate(x) in r.events)
  {
    SettleGame(s, v, det);
    SettleEvents(s, v, det);
  }

  /** The game half of `SettleFacts`. */
  lemma SettleGame(s: Sweep, v: Visit, det: Det)
    requires KeyIds(s.game)
    ensures var r := Settle(s, v, det);
            && r.game == s.game.(players := r.game.players, powerups := r.game.powerups, explosions := r.game.explosions)
            && PlayersKept(s.game, r.game) && KeyIds(r.game)
            && (forall id :: id in s.game.players && s.game.players[id].position != v.pos ==> r.game.players[id] == s.game.players[id])
  {
    var hid := det.ids(|s.hazards|);
    var g1 := s.game.(explosions := s.game.explosions[hid := Explosion(hid, v.pos, det.now + HazardLifetime)]);
    var granted := if v.block then GrantAt(g1, v.pos, det.o.powerups, det.o.players, det.now) else Step(g1, []);
    GrantAtFrame(g1, v.pos, det.o.powerups, det.o.players, det.now);
    GrantKeeps(g1, v.pos, det.o.powerups, det.o.players, det.now);
    HitKeeps(granted.game.players, v.pos, det.owner);
    var r := Settle(s, v, det);
    forall x | x in g1.players ensures Keeps(g1.players[x], r.game.players[x]) {
      KeepsTrans(g1.players[x], granted.game.players[x], r.game.players[x]);
    }
  }

  /** The event half of `SettleFacts`. */
  lemma SettleEvents(s: Sweep, v: Visit, det: Det)
    ensures var r := Settle(s, v, det);
            && |r.events| >= |s.events| && r.events[..|s.events|] == s.events
            && (forall n :: |s.events| <= n < |r.events| ==> CellEvent(r.events[n], s.game, v.pos, det.bid))
            && (forall x :: x in det.o.bombs && x in s.game.bombs && x != det.bid && s.game.bombs[x].position == v.pos
                  ==> Detonate(x) in r.events)
  {
    var hid := det.ids(|s.hazards|);
    var g1 := s.game.(explosions := s.game.explosions[hid := Explosion(hid, v.pos, det.now + HazardLifetime)]);
    var granted := if v.block then GrantAt(g1, v.pos, det.o.powerups, det.o.players, det.now) else Step(g1, []);
    GrantAtFrame(g1, v.pos, det.o.powerups, det.o.players, det.now);
    GrantEvents(g1, v.pos, det.o.powerups, det.o.players, det.now);
    var h := HitAt(granted.game.players, v.pos, det.owner);
    var g2 := granted.game.(players := h.players);
    var chain := ChainAt(g2.bombs, det.o.bombs, v.pos, det.bid);
    ChainAtFacts(g2.bombs, det.o.bombs, v.pos, det.bid);
    var r := Settle(s, v, det);
    assert r.events == s.events + granted.events + Detonations(chain);
    forall n | |s.events| <= n < |r.events| ensures CellEvent(r.events[n], s.game, v.pos, det.bid) {
      if n < |s.events| + |granted.events| {
        assert r.events[n] == granted.events[n - |s.events|];
      } else {
        assert r.events[n] in Detonations(chain);
      }
    }
  }

  lemma GrantOneEvents(g: Game, pos: Position, id: string, players: seq<string>, now: int)
    ensures forall e :: e in GrantOne(g, pos, id, players, now).events ==> e.ExpireEffect?
  {
  }

  /** A pick-up schedules nothing but effect expiries. */
  lemma {:induction false} GrantEvents(g: Game, pos: Position, order: seq<string>, players: seq<string>, now: int)
    ensures forall e :: e in GrantAt(g, pos, order, players, now).events ==> e.ExpireEffect?
    decreases |order|
  {
    if |order| > 0 {
      var s := GrantOne(g, pos, order[0], players, now);
      GrantOneEvents(g, pos, order[0], players, now);
      GrantEvents(s.game, pos, order[1..], players, now);
    }
  }

  // ------------------------------------------------------------- all cells

  /** The invariant of the effect replay after the first `|s.hazards| - |s0.hazards|` cells. */
  predicate Replayed(s0: Sweep, s: Sweep, cells: seq<Position>, det: Det) {
    && s.game.board == s0.game.board && s.game.bombs == s0.game.bombs
    && s.game == s0.game.(players := s.game.players, powerups := s.game.powerups, explosions := s.game.explosions)
    && PlayersKept(s0.game, s.game) && KeyIds(s.game)
    && (forall id :: id in s0.game.players && s0.game.players[id].position !in cells ==> s.game.players[id] == s0.game.players[id])
    && |s.events| >= |s0.events| && s.events[..|s0.events|] == s0.events
    && (forall n :: |s0.events| <= n < |s.events| ==>
          s.events[n].ExpireEffect? ||
          (s.events[n].Detonate? && s.events[n].bombId in s0.game.bombs && s.events[n].bombId != det.bid
           && s0.game.bombs[s.events[n].bombId].position in cells))
    && (forall x :: x in det.o.bombs && x in s0.game.bombs && x != det.bid && s0.game.bombs[x].position in cells
          ==> Detonate(x) in s.events)
  }

  /**
   The effect replay over a list of swept cells: players away from all of
   them are untouched, every chained detonation is of another bomb lying on
   one of them, and every listed other bomb lying on one of them is chained.
   */
  lemma {:induction false} SettleAllFacts(s: Sweep, visits: seq<Visit>, det: Det)
    requires KeyIds(s.game)
    ensures Replayed(s, SettleAll(s, visits, det), BlastRays.Positions(visits), det)
    decreases |visits|
  {
    var cells := BlastRays.Positions(visits);
    if |visits| == 0 {
      assert s.events[..|s.events|] == s.events;
    } else {
      var v := visits[0];
      var s1 := Settle(s, v, det);
      SettleFacts(s, v, det);
      SettleAllFacts(s1, visits[1..], det);
      var r := SettleAll(s1, visits[1..], det);
      var rest := BlastRays.Positions(visits[1..]);
      assert cells == [v.pos] + rest;
      assert forall q :: q in cells <==> q == v.pos || q in rest;
      ReplayStep(s, s1, r, v.pos, rest, det);
    }
  }

  lemma ReplayStep(s: Sweep, s1: Sweep, r: Sweep, pos: Position, rest: seq<Position>, det: Det)
    requires s1.game == s.game.(players := s1.game.players, powerups := s1.game.powerups, explosions := s1.game.explosions)
    requires PlayersKept(s.game, s1.game) && KeyIds(s1.game)
    requires forall id :: id in s.game.players && s.game.players[id].position != pos ==> s1.game.players[id] == s.game.players[id]
    requires |s1.events| >= |s.events| && s1.events[..|s.events|] == s.events
    requires forall n :: |s.events| <= n < |s1.events| ==> CellEvent(s1.events[n], s.game, pos, det.bid)
    requires forall x :: x in det.o.bombs && x in s.game.bombs && x != det.bid && s.game.bombs[x].position == pos
               ==> Detonate(x) in s1.events
    requires Replayed(s1, r, rest, det)
    ensures Replayed(s, r, [pos] + rest, det)
  {
    var cells := [pos] + rest;
    assert forall q :: q in cells <==> q == pos || q in rest;
    forall x | x in s.game.players ensures Keeps(s.game.players[x], r.game.players[x]) {
      KeepsTrans(s.game.players[x], s1.game.players[x], r.game.players[x]);
    }
    assert r.events[..|s.events|] == s.events by {
      assert r.events[..|s1.events|] == s1.events;
    }
    forall n | |s.events| <= n < |r.events|
      ensures r.events[n].ExpireEffect? ||
              (r.events[n].Detonate? && r.events[n].bombId in s.game.bombs && r.events[n].bombId != det.bid
               && s.game.bombs[r.events[n].bombId].position in cells)
    {
      if n < |s1.events| {
        assert r.events[n] == s1.events[n];
        assert CellEvent(s1.events[n], s.game, pos, det.bid);
      }
    }
    forall x | x in det.o.bombs && x in s.game.bombs && x != det.bid && s.game.bombs[x].position in cells
      ensures Detonate(x) in r.events
    {
      if s.game.bombs[x].position == pos {
        var i :| 0 <= i < |s1.events| && s1.events[i] == Detonate(x);
        assert r.events[i] == s1.events[i];
      }
    }
  }

  // ------------------------------------------------------------- hazard markers

  /** The hazard list after the replay: the old list, then the ids `ids(k)` for the next indices. */
  predicate HazardsFrom(s: Sweep, r: Sweep, det: Det) {
    && |r.hazards| >= |s.hazards| && r.hazards[..|s.hazards|] == s.hazards
    && forall m :: |s.hazards| <= m < |r.hazards| ==> r.hazards[m] == det.ids(m)
  }

  /** The replay appends the next fresh ids to the hazard list, one per cell. */
  lemma {:induction false} SettleAllHazards(s: Sweep, visits: seq<Visit>, det: Det)
    ensures HazardsFrom(s, SettleAll(s, visits, det), det)
    decreases |visits|
  {
    if |visits| == 0 {
      assert s.hazards[..|s.hazards|] == s.hazards;
    } else {
      var s1 := Settle(s, visits[0], det);
      SettleAllHazards(s1, visits[1..], det);
      HazardsStep(s, s1, SettleAll(s1, visits[1..], det), det);
    }
  }

  lemma HazardsStep(s: Sweep, s1: Sweep, r: Sweep, det: Det)
    requires s1.hazards == s.hazards + [det.ids(|s.hazards|)]
    requires HazardsFrom(s1, r, det)
    ensures HazardsFrom(s, r, det)
  {
    assert r.hazards[..|s.hazards|] == s1.hazards[..|s.hazards|];
  }

  /** For `n` cells from hazard index `k` on, the marker under id `ids(k + j)` covers cell `j` for 500 ms. */
  ghost predicate MarksNew(after: map<string, Explosion>, k: nat, cells: seq<Position>, det: Det) {
    forall m :: k <= m < k + |cells| ==>
      det.ids(m) in after && after[det.ids(m)] == Explosion(det.ids(m), cells[m - k], det.now + HazardLifetime)
  }

  /** Every marker under an id other than the new ones is left alone. */
  ghost predicate MarksKept(before: map<string, Explosion>, after: map<string, Explosion>, k: nat, n: nat, det: Det) {
    forall h :: h in before && (forall m :: k <= m < k + n ==> h != det.ids(m)) ==> h in after && after[h] == before[h]
  }

  /** No id but the old and the new ones appears. */
  ghost predicate MarksOnly(before: map<string, Explosion>, after: map<string, Explosion>, k: nat, n: nat, det: Det) {
    forall h :: h in after ==> h in before || exists m :: k <= m < k + n && h == det.ids(m)
  }

  /**
   With distinct fresh ids, the replay marks the n-th swept cell under the
   n-th new id for 500 ms, leaves every other marker alone, and adds no
   other id.
   */
  lemma {:induction false} SettleAllExplosions(s: Sweep, visits: seq<Visit>, det: Det)
    requires Injective(det.ids)
    ensures var e := SettleAll(s, visits, det).game.explosions;
            && MarksNew(e, |s.hazards|, BlastRays.Positions(visits), det)
            && MarksKept(s.game.explosions, e, |s.hazards|, |visits|, det)
            && MarksOnly(s.game.explosions, e, |s.hazards|, |visits|, det)
    decreases |visits|
  {
    if |visits| > 0 {
      var k := |s.hazards|;
      var s1 := Settle(s, visits[0], det);
      SettleAllExplosions(s1, visits[1..], det);
      var rest := BlastRays.Positions(visits[1..]);
      assert BlastRays.Positions(visits) == [visits[0].pos] + rest;
      MarksStep(s.game.explosions, s1.game.explosions, SettleAll(s1, visits[1..], det).game.explosions, k, visits[0].pos, rest, det);
    }
  }

  /** One more marked cell in front of a replay that already marks the rest. */
  lemma MarksStep(e0: map<string, Explosion>, e1: map<string, Explosion>, e2: map<string, Explosion>, k: nat, pos: Position, rest: seq<Position>, det: Det)
    requires Injective(det.ids)
    requires e1 == e0[det.ids(k) := Explosion(det.ids(k), pos, det.now + HazardLifetime)]
    requires MarksNew(e2, k + 1, rest, det) && MarksKept(e1, e2, k + 1, |rest|, det) && MarksOnly(e1, e2, k + 1, |rest|, det)
    ensures MarksNew(e2, k, [pos] + rest, det) && MarksKept(e0, e2, k, |rest| + 1, det) && MarksOnly(e0, e2, k, |rest| + 1, det)
  {
    NewStep(e1, e2, k, pos, rest, det);
    KeptStep(e0, e1, e2, k, |rest|, det);
    OnlyStep(e0, e1, e2, k, |rest|, det);
  }

  lemma NewStep(e1: map<string, Explosion>, e2: map<string, Explosion>, k: nat, pos: Position, rest: seq<Position>, det: Det)
    requires Injective(det.ids)
    requires det.ids(k) in e1 && e1[det.ids(k)] == Explosion(det.ids(k), pos, det.now + HazardLifetime)
    requires MarksNew(e2, k + 1, rest, det) && MarksKept(e1, e2, k + 1, |rest|, det)
    ensures MarksNew(e2, k, [pos] + rest, det)
  {
    var cells := [pos] + rest;
    forall m | k <= m < k + |cells|
      ensures det.ids(m) in e2 && e2[det.ids(m)] == Explosion(det.ids(m), cells[m - k], det.now + HazardLifetime)
    {
      if m == k {
        forall m' | k + 1 <= m' < k + 1 + |rest| ensures det.ids(k) != det.ids(m') {
        }
      } else {
        assert cells[m - k] == rest[m - (k + 1)];
      }
    }
  }

  lemma KeptStep(e0: map<string, Explosion>, e1: map<string, Explosion>, e2: map<string, Explosion>, k: nat, n: nat, det: Det)
    requires forall h :: h in e0 && h != det.ids(k) ==> h in e1 && e1[h] == e0[h]
    requires MarksKept(e1, e2, k + 1, n, det)
    ensures MarksKept(e0, e2, k, n + 1, det)
  {
    forall h | h in e0 && (forall m :: k <= m < k + n + 1 ==> h != det.ids(m))
      ensures h in e2 && e2[h] == e0[h]
    {
      assert h != det.ids(k);
    }
  }

  lemma OnlyStep(e0: map<string, Explosion>, e1: map<string, Explosion>, e2: map<string, Explosion>, k: nat, n: nat, det: Det)
    requires e1.Keys == e0.Keys + {det.ids(k)}
    requires MarksOnly(e1, e2, k + 1, n, det)
    ensures MarksOnly(e0, e2, k, n + 1, det)
  {
    forall h | h in e2 && h !in e0 ensures exists m :: k <= m < k + n + 1 && h == det.ids(m) {
      if h == det.ids(k) {
      }
    }
  }

  // ------------------------------------------------------------- the swept cells

  /** Steps i..k of a ray as a list and as a region are the same cells. */
  lemma RayStepsOnRay(c: Position, d: Dir, i: int, k: int)
    ensures forall q :: q in BlastRays.RaySteps(c, d, i, k) <==> BlastRays.OnRay(q, c, d, i, k)
  {
    forall q | BlastRays.OnRay(q, c, d, i, k) ensures q in BlastRays.RaySteps(c, d, i, k) {
      var n := match d
        case Up => c.row - q.row - i
        case Down => q.row - c.row - i
        case Left => c.col - q.col - i
        case Right => q.col - c.col - i;
      assert BlastRays.RaySteps(c, d, i, k)[n] == q;
    }
  }

  /** The cells a detonation at `c` sweeps: the centre, and each ray up to the step it reaches on `b`. */
  predicate Swept(b: Board, c: Position, range: int, q: Position)
    requires IsGrid(b)
  {
    q == c || BlastRays.OnCross(q, c, BlastRays.Reach(b, c, Up, range, 1), BlastRays.Reach(b, c, Down, range, 1),
                                BlastRays.Reach(b, c, Left, range, 1), BlastRays.Reach(b, c, Right, range, 1))
  }

  /** The cells the walk lists are exactly the swept region. */
  lemma SweptCells(b: Board, c: Position, range: int)
    requires IsGrid(b)
    ensures forall q :: q in BlastRays.Positions(CrossWalk(b, c, range).visits) <==> Swept(b, c, range, q)
  {
    BlastRays.CrossCells(b, c, range);
    RayStepsOnRay(c, Up, 1, BlastRays.Reach(b, c, Up, range, 1));
    RayStepsOnRay(c, Down, 1, BlastRays.Reach(b, c, Down, range, 1));
    RayStepsOnRay(c, Left, 1, BlastRays.Reach(b, c, Left, range, 1));
    RayStepsOnRay(c, Right, 1, BlastRays.Reach(b, c, Right, range, 1));
  }

  // ------------------------------------------------------------- the detonation

  /** The sweep state the detonation starts its effect replay from. */
  function Start(g: Game, bid: string): Sweep
    requires IsGrid(g.board) && bid in g.bombs
  {
    Sweep(g.(board := CrossWalk(g.board, g.bombs[bid].position, g.bombs[bid].range).board), [], 0, [])
  }

  function DetOf(g: Game, bid: string, o: MapOrders, ids: nat -> string, now: int): Det
    requires bid in g.bombs
  {
    Det(bid, g.bombs[bid].playerId, o, ids, now)
  }

  /** The cells a detonation of `bid` sweeps, in sweep order. */
  function Cells(g: Game, bid: string): seq<Position>
    requires IsGrid(g.board) && bid in g.bombs
  {
    BlastRays.Positions(CrossWalk(g.board, g.bombs[bid].position, g.bombs[bid].range).visits)
  }

  /** The detonation's state after its effect replay, before scoring. */
  function Swept0(g: Game, bid: string, o: MapOrders, ids: nat -> string, now: int): Sweep
    requires IsGrid(g.board) && bid in g.bombs
  {
    SettleAll(Start(g, bid), CrossWalk(g.board, g.bombs[bid].position, g.bombs[bid].range).visits, DetOf(g, bid, o, ids, now))
  }

  /** The detonation as the replay, then scoring, then the scheduled clean-up. */
  lemma ExplodeUnfold(g: Game, bid: string, o: MapOrders, ids: nat -> string, now: int)
    requires IsGrid(g.board) && bid in g.bombs
    ensures var s := Swept0(g, bid, o, ids, now);
            var w := CrossWalk(g.board, g.bombs[bid].position, g.bombs[bid].range);
            Explode(g, bid, o, ids, now) ==
              Step(AwardPoints(s.game, ChainExplosion(bid, g.bombs[bid].playerId, Tiles(w.visits), s.kills)),
                   s.events + [ClearHazards(bid, s.hazards, now + HazardLifetime)])
  {
  }

  /**
   Hazards: the last event clears, 500 ms on, exactly the hazards laid: one
   per swept cell (`SweptCells` says which), under the successive fresh ids.
   */
  lemma ExplodeHazards(g: Game, bid: string, o: MapOrders, ids: nat -> string, now: int)
    requires IsGrid(g.board) && bid in g.bombs
    ensures var r := Explode(g, bid, o, ids, now);
            && |r.events| >= 1 && r.events[|r.events| - 1].ClearHazards?
            && r.events[|r.events| - 1].bombId == bid && r.events[|r.events| - 1].dueAt == now + HazardLifetime
            && |r.events[|r.events| - 1].hazardIds| == |Cells(g, bid)|
            && (forall n :: 0 <= n < |Cells(g, bid)| ==> r.events[|r.events| - 1].hazardIds[n] == ids(n))
  {
    var w := CrossWalk(g.board, g.bombs[bid].position, g.bombs[bid].range);
    ExplodeUnfold(g, bid, o, ids, now);
    SettleAllHazards(Start(g, bid), w.visits, DetOf(g, bid, o, ids, now));
  }

  /**
   Markers: with distinct fresh ids, the n-th id marks the n-th swept cell
   for 500 ms, every marker not under a new id is left alone, and no other
   id appears.
   */
  lemma ExplodeMarks(g: Game, bid: string, o: MapOrders, ids: nat -> string, now: int)
    requires IsGrid(g.board) && bid in g.bombs && Injective(ids)
    ensures var e := Explode(g, bid, o, ids, now).game.explosions;
            var cells := Cells(g, bid);
            && (forall n :: 0 <= n < |cells| ==> ids(n) in e && e[ids(n)] == Explosion(ids(n), cells[n], now + HazardLifetime))
            && (forall h :: h in g.explosions && (forall n :: 0 <= n < |cells| ==> h != ids(n)) ==> h in e && e[h] == g.explosions[h])
            && (forall h :: h in e ==> h in g.explosions || exists n :: 0 <= n < |cells| && h == ids(n))
  {
    var w := CrossWalk(g.board, g.bombs[bid].position, g.bombs[bid].range);
    ExplodeUnfold(g, bid, o, ids, now);
    SettleAllExplosions(Start(g, bid), w.visits, DetOf(g, bid, o, ids, now));
  }

  /**
   Chains: with an order listing every bomb, the detonation is told to set
   off exactly the other bombs lying on swept cells; its other events are
   pick-up expiries and, last, the hazard clean-up.
   */
  lemma ExplodeChains(g: Game, bid: string, o: MapOrders, ids: nat -> string, now: int)
    requires WellFormed(g) && bid in g.bombs && Enumerates(o.bombs, g.bombs.Keys)
    ensures var r := Explode(g, bid, o, ids, now);
            && (forall x :: Detonate(x) in r.events <==>
                  x in g.bombs && x != bid && Swept(g.board, g.bombs[bid].position, g.bombs[bid].range, g.bombs[x].position))
            && (forall n :: 0 <= n < |r.events| - 1 ==> r.events[n].Detonate? || r.events[n].ExpireEffect?)
  {
    var w := CrossWalk(g.board, g.bombs[bid].position, g.bombs[bid].range);
    var det := DetOf(g, bid, o, ids, now);
    var s := Swept0(g, bid, o, ids, now);
    var r := Explode(g, bid, o, ids, now);
    ExplodeUnfold(g, bid, o, ids, now);
    SettleAllFacts(Start(g, bid), w.visits, det);
    SweptCells(g.board, g.bombs[bid].position, g.bombs[bid].range);
    assert r.events == s.events + [ClearHazards(bid, s.hazards, now + HazardLifetime)];
    forall x | Detonate(x) in r.events
      ensures x in g.bombs && x != bid && Swept(g.board, g.bombs[bid].position, g.bombs[bid].range, g.bombs[x].position)
    {
      var n :| 0 <= n < |r.events| && r.events[n] == Detonate(x);
      assert n < |s.events|;
      assert s.events[n] == Detonate(x);
    }
    forall n | 0 <= n < |r.events| - 1 ensures r.events[n].Detonate? || r.events[n].ExpireEffect? {
      assert r.events[n] == s.events[n];
    }
  }

  /**
   Bystanders: a player standing off every swept cell is untouched, except
   that the owner, when it is one, gains the points for the blocks on the
   rays and 250 per kill (`ExplodeHazards` says which cells are swept).
   */
  lemma ExplodeSpares(g: Game, bid: string, o: MapOrders, ids: nat -> string, now: int)
    requires WellFormed(g) && bid in g.bombs
    ensures var r := Explode(g, bid, o, ids, now);
            var owner := g.bombs[bid].playerId;
            && r.game.players.Keys == g.players.Keys
            && (forall id :: id in g.players && id != owner && g.players[id].position !in Cells(g, bid)
                  ==> r.game.players[id] == g.players[id])
  {
    var b := g.bombs[bid];
    var w := CrossWalk(g.board, b.position, b.range);
    var s := Swept0(g, bid, o, ids, now);
    ExplodeUnfold(g, bid, o, ids, now);
    ReplayOffCells(Start(g, bid), w.visits, DetOf(g, bid, o, ids, now));
    SparesCore(g, s.game, ChainExplosion(bid, b.playerId, Tiles(w.visits), s.kills), Cells(g, bid));
  }

  /** The players as a sweep step strikes them: after the powerups under a cleared block were handed out. */
  function PlayersAtHit(s: Sweep, v: Visit, det: Det): map<string, Player> {
    var hid := det.ids(|s.hazards|);
    var g1 := s.game.(explosions := s.game.explosions[hid := Explosion(hid, v.pos, det.now + HazardLifetime)]);
    (if v.block then GrantAt(g1, v.pos, det.o.powerups, det.o.players, det.now) else Step(g1, [])).game.players
  }

  /**
   The kills of a sweep, cell by cell: on each swept cell, the unshielded
   players other than the owner standing there when the sweep reaches it.
   */
  function KillsAlong(s: Sweep, visits: seq<Visit>, det: Det): nat
    decreases |visits|
  {
    if |visits| == 0 then 0
    else |KillsAt(PlayersAtHit(s, visits[0], det), visits[0].pos, det.owner)| + KillsAlong(Settle(s, visits[0], det), visits[1..], det)
  }

  /** The sweep's tally adds up the kills of every swept cell. */
  lemma {:induction false} SettleAllKills(s: Sweep, visits: seq<Visit>, det: Det)
    ensures SettleAll(s, visits, det).kills == s.kills + KillsAlong(s, visits, det)
    decreases |visits|
  {
    if |visits| > 0 {
      assert Settle(s, visits[0], det).kills == s.kills + |KillsAt(PlayersAtHit(s, visits[0], det), visits[0].pos, det.owner)|;
      SettleAllKills(Settle(s, visits[0], det), visits[1..], det);
    }
  }

  /**
   The owner's reward: standing off the swept cells, it gains the points
   for the blocks on the four rays plus 250 for each kill on the swept cells.
   */
  lemma ExplodeReward(g: Game, bid: string, o: MapOrders, ids: nat -> string, now: int)
    requires WellFormed(g) && bid in g.bombs
    requires g.bombs[bid].playerId in g.players && g.players[g.bombs[bid].playerId].position !in Cells(g, bid)
    ensures var r := Explode(g, bid, o, ids, now);
            var b := g.bombs[bid];
            var p := g.players[b.playerId];
            && b.playerId in r.game.players
            && (var kills := KillsAlong(Start(g, bid), CrossWalk(g.board, b.position, b.range).visits, DetOf(g, bid, o, ids, now));
                r.game.players[b.playerId] ==
                  p.(score := p.score + TilePoints(CrossBlocks(g.board, b.position, b.range)) + KillPoints * kills))
  {
    var b := g.bombs[bid];
    var s := Swept0(g, bid, o, ids, now);
    SettleAllKills(Start(g, bid), CrossWalk(g.board, b.position, b.range).visits, DetOf(g, bid, o, ids, now));
    ExplodeUnfold(g, bid, o, ids, now);
    RewardCore(g, bid, o, ids, now);
    var p := g.players[b.playerId];
    assert Explode(g, bid, o, ids, now).game.players[b.playerId] ==
      p.(score := p.score + TilePoints(CrossBlocks(g.board, b.position, b.range)) + KillPoints * s.kills);
  }

  /** `ExplodeReward` on the replay and scoring, before the clean-up is scheduled. */
  lemma RewardCore(g: Game, bid: string, o: MapOrders, ids: nat -> string, now: int)
    requires WellFormed(g) && bid in g.bombs
    requires g.bombs[bid].playerId in g.players && g.players[g.bombs[bid].playerId].position !in Cells(g, bid)
    ensures var b := g.bombs[bid];
            var s := Swept0(g, bid, o, ids, now);
            var w := CrossWalk(g.board, b.position, b.range);
            var r := AwardPoints(s.game, ChainExplosion(bid, b.playerId, Tiles(w.visits), s.kills));
            var p := g.players[b.playerId];
            && b.playerId in r.players
            && r.players[b.playerId] == p.(score := p.score + TilePoints(CrossBlocks(g.board, b.position, b.range)) + KillPoints * s.kills)
  {
    var b := g.bombs[bid];
    var w := CrossWalk(g.board, b.position, b.range);
    var s := Swept0(g, bid, o, ids, now);
    ReplayOffCells(Start(g, bid), w.visits, DetOf(g, bid, o, ids, now));
    BlastRays.CrossTiles(g.board, b.position, b.range);
    SparesCore(g, s.game, ChainExplosion(bid, b.playerId, Tiles(w.visits), s.kills), Cells(g, bid));
  }

  /** The player half of `SettleAllFacts`: players away from every listed cell are untouched. */
  lemma ReplayOffCells(s: Sweep, visits: seq<Visit>, det: Det)
    requires KeyIds(s.game)
    ensures var r := SettleAll(s, visits, det);
            && r.game.players.Keys == s.game.players.Keys
            && forall id :: id in s.game.players && s.game.players[id].position !in BlastRays.Positions(visits)
                 ==> r.game.players[id] == s.game.players[id]
  {
    SettleAllFacts(s, visits, det);
  }

  /** Scoring after the replay: off the swept cells only the owner's score moves. */
  lemma SparesCore(g: Game, g1: Game, chain: ChainExplosion, cells: seq<Position>)
    requires g1.players.Keys == g.players.Keys
    requires forall id :: id in g.players && g.players[id].position !in cells ==> g1.players[id] == g.players[id]
    ensures var r := AwardPoints(g1, chain);
            && r.players.Keys == g.players.Keys
            && (forall id :: id in g.players && id != chain.playerId && g.players[id].position !in cells ==> r.players[id] == g.players[id])
            && (chain.playerId in g.players && g.players[chain.playerId].position !in cells ==>
                  r.players[chain.playerId] == g.players[chain.playerId].(score :=
                    g.players[chain.playerId].score + TilePoints(chain.tilesDestroyed) + KillPoints * chain.playersKilled))
  {
  }

  /** The blocks on the four rays of a detonation, each ray up to the step it reaches. */
  function CrossBlocks(b: Board, c: Position, range: int): nat
    requires IsGrid(b)
  {
    BlastRays.RayBlocks(b, c, Up, 1, BlastRays.Reach(b, c, Up, range, 1))
    + BlastRays.RayBlocks(b, c, Down, 1, BlastRays.Reach(b, c, Down, range, 1))
    + BlastRays.RayBlocks(b, c, Left, 1, BlastRays.Reach(b, c, Left, range, 1))
    + BlastRays.RayBlocks(b, c, Right, 1, BlastRays.Reach(b, c, Right, range, 1))
  }

  /** A detonation keeps the match invariants. */
  lemma ExplodeKeeps(g: Game, bid: string, o: MapOrders, ids: nat -> string, now: int)
    requires Invariants(g) && bid in g.bombs
    ensures Invariants(Explode(g, bid, o, ids, now).game)
  {
    var b := g.bombs[bid];
    var w := CrossWalk(g.board, b.position, b.range);
    var s := Swept0(g, bid, o, ids, now);
    ExplodeUnfold(g, bid, o, ids, now);
    SettleAllFacts(Start(g, bid), w.visits, DetOf(g, bid, o, ids, now));
    ReplayKeeps(g, Start(g, bid).game, s.game, ChainExplosion(bid, b.playerId, Tiles(w.visits), s.kills));
  }

  /** A detonation leaves the match's identity and status alone. */
  lemma ExplodeFrame(g: Game, bid: string, o: MapOrders, ids: nat -> string, now: int)
    requires KeyIds(g) && IsGrid(g.board)
    ensures var r := Explode(g, bid, o, ids, now).game;
            r.id == g.id && r.lobbyId == g.lobbyId && r.status == g.status
  {
    if bid in g.bombs {
      ExplodeUnfold(g, bid, o, ids, now);
      SettleAllFacts(Start(g, bid), CrossWalk(g.board, g.bombs[bid].position, g.bombs[bid].range).visits, DetOf(g, bid, o, ids, now));
    }
  }

  /** The invariants survive a new board of the same shape, the sweep's player changes, and scoring. */
  lemma ReplayKeeps(g: Game, g0: Game, g1: Game, chain: ChainExplosion)
    requires Invariants(g)
    requires g0 == g.(board := g0.board) && IsGrid(g0.board) && |g0.board| == |g.board|
    requires |g.board| > 0 ==> |g0.board[0]| == |g.board[0]|
    requires g1.bombs == g0.bombs && g1.board == g0.board && PlayersKept(g0, g1) && KeyIds(g1)
    ensures Invariants(AwardPoints(g1, chain))
  {
    var r := AwardPoints(g1, chain);
    assert r.players.Keys == g.players.Keys && r.bombs == g.bombs;
    forall id | id in g.players
      ensures Keeps(g.players[id], r.players[id]) && r.players[id].score >= 0
    {
      assert Keeps(g0.players[id], g1.players[id]);
    }
    PlayersOnNewBoard(g, r);
  }

  /** Invariants of a successor whose players are kept and whose board has the same shape. */
  lemma PlayersOnNewBoard(g: Game, r: Game)
    requires Invariants(g) && IsGrid(r.board) && |r.board| == |g.board|
    requires |g.board| > 0 ==> |r.board[0]| == |g.board[0]|
    requires r.players.Keys == g.players.Keys && r.bombs == g.bombs
    requires forall id :: id in g.players ==> Keeps(g.players[id], r.players[id]) && r.players[id].score >= 0
    ensures Invariants(r)
  {
    assert forall q :: InBounds(g.board, q) ==> InBounds(r.board, q);
    forall q | q in r.players ensures |Owned(r.bombs, q)| <= r.players[q].maxBombs {
      assert Owned(r.bombs, q) == Owned(g.bombs, q);
    }
  }
}

=== FILE: blast_rays.dfy ===
/**
 The shape of a detonation, defined directly on the board the bomb went off
 on, and the proof that the cell-by-cell sweep of `Blast` produces it: each
 ray covers steps 1..k, k at most the range, stopping before the first step
 off the board or onto a wall; every block on those steps is cleared and
 counted; nothing else on the board changes.
 */
module BlastRays {
  import opened Types
  import opened Engine
  import opened Blast

  /** How far a ray of `range` gets from step `i` on, judged on board `b`. */
  function Reach(b: Board, c: Position, d: Dir, range: int, i: nat): int
    requires IsGrid(b)
    decreases range - i
  {
    if i > range || !InBounds(b, Shift(c, d, i)) || Cell(b, Shift(c, d, i)) == Wall then i - 1
    else Reach(b, c, d, range, i + 1)
  }

  /**
   A ray reaches k <= range steps (none for a range below 1), every one of
   them on the board and not a wall, and stops short of the range only at
   the edge of the board or at a wall.
   */
  lemma {:induction false} ReachFacts(b: Board, c: Position, d: Dir, range: int, i: nat)
    requires IsGrid(b) && i >= 1
    ensures var k := Reach(b, c, d, range, i);
            && i - 1 <= k && (k >= i ==> k <= range)
            && (forall j :: i <= j <= k ==> InBounds(b, Shift(c, d, j)) && Cell(b, Shift(c, d, j)) != Wall)
            && (k < range ==> !InBounds(b, Shift(c, d, k + 1)) || Cell(b, Shift(c, d, k + 1)) == Wall)
    decreases range - i
  {
    if !(i > range || !InBounds(b, Shift(c, d, i)) || Cell(b, Shift(c, d, i)) == Wall) {
      ReachFacts(b, c, d, range, i + 1);
    }
  }

  /** `q` is step j of ray `d` from `c` for some lo <= j <= hi. */
  predicate OnRay(q: Position, c: Position, d: Dir, lo: int, hi: int) {
    match d
    case Up => q.col == c.col && c.row - hi <= q.row <= c.row - lo
    case Down => q.col == c.col && c.row + lo <= q.row <= c.row + hi
    case Left => q.row == c.row && c.col - hi <= q.col <= c.col - lo
    case Right => q.row == c.row && c.col + lo <= q.col <= c.col + hi
  }

  /** `q` is step j of ray `d` from `c` for some j >= lo. */
  predicate OnRayFrom(q: Position, c: Position, d: Dir, lo: int) {
    match d
    case Up => q.col == c.col && q.row <= c.row - lo
    case Down => q.col == c.col && c.row + lo <= q.row
    case Left => q.row == c.row && q.col <= c.col - lo
    case Right => q.row == c.row && c.col + lo <= q.col
  }

  /** Steps i..k of a ray, nearest first. */
  function RaySteps(c: Position, d: Dir, i: int, k: int): (r: seq<Position>)
    ensures |r| == if k < i then 0 else k - i + 1
    ensures forall n :: 0 <= n < |r| ==> r[n] == Shift(c, d, i + n)
    decreases k - i
  {
    if k < i then [] else [Shift(c, d, i)] + RaySteps(c, d, i + 1, k)
  }

  /** Number of blocks on steps i..k. */
  function RayBlocks(b: Board, c: Position, d: Dir, i: int, k: int): nat
    requires IsGrid(b)
    decreases k - i
  {
    if k < i then 0
    else (if InBounds(b, Shift(c, d, i)) && Cell(b, Shift(c, d, i)) == Block then 1 else 0) + RayBlocks(b, c, d, i + 1, k)
  }

  /** Two boards of the same shape that agree on every cell of the ray from step `i` on. */
  ghost predicate AgreeOnRay(b: Board, b2: Board, c: Position, d: Dir, i: int)
    requires IsGrid(b) && IsGrid(b2)
  {
    && |b| == |b2| && (|b| > 0 ==> |b[0]| == |b2[0]|)
    && forall q :: InBounds(b, q) && OnRayFrom(q, c, d, i) ==> Cell(b, q) == Cell(b2, q)
  }

  lemma {:induction false} ReachAgrees(b: Board, b2: Board, c: Position, d: Dir, range: int, i: nat)
    requires IsGrid(b) && IsGrid(b2) && i >= 1 && AgreeOnRay(b, b2, c, d, i)
    ensures Reach(b, c, d, range, i) == Reach(b2, c, d, range, i)
    decreases range - i
  {
    var p := Shift(c, d, i);
    assert InBounds(b, p) <==> InBounds(b2, p);
    if i <= range && InBounds(b, p) {
      assert OnRayFrom(p, c, d, i);
      assert Cell(b, p) == Cell(b2, p);
      if Cell(b, p) != Wall {
        ReachAgrees(b, b2, c, d, range, i + 1);
      }
    }
  }

  lemma {:induction false} BlocksAgree(b: Board, b2: Board, c: Position, d: Dir, i: int, k: int)
    requires IsGrid(b) && IsGrid(b2) && i >= 1 && AgreeOnRay(b, b2, c, d, i)
    ensures RayBlocks(b, c, d, i, k) == RayBlocks(b2, c, d, i, k)
    decreases k - i
  {
    if i <= k {
      var p := Shift(c, d, i);
      assert OnRayFrom(p, c, d, i);
      BlocksAgree(b, b2, c, d, i + 1, k);
    }
  }

  /** The board after a sweep of steps i..k of one ray: blocks there become empty. */
  ghost predicate ClearedAlong(before: Board, after: Board, c: Position, d: Dir, i: int, k: int)
    requires IsGrid(before) && IsGrid(after)
  {
    && |after| == |before| && (|before| > 0 ==> |after[0]| == |before[0]|)
    && forall q :: InBounds(before, q) ==>
         Cell(after, q) == if OnRay(q, c, d, i, k) && Cell(before, q) == Block then Empty else Cell(before, q)
  }

  /** The swept cells of a walk, in order. */
  function Positions(vs: seq<Visit>): (r: seq<Position>)
    ensures |r| == |vs| && forall n :: 0 <= n < |vs| ==> r[n] == vs[n].pos
  {
    if |vs| == 0 then [] else [vs[0].pos] + Positions(vs[1..])
  }

  /** Every block flag of a walk records what the original board held there. */
  ghost predicate FlagsTrue(b: Board, vs: seq<Visit>)
    requires IsGrid(b)
  {
    forall n :: 0 <= n < |vs| ==> InBounds(b, vs[n].pos) && (vs[n].block <==> Cell(b, vs[n].pos) == Block)
  }

  /** One ray sweeps exactly steps i..Reach, nearest first. */
  lemma {:induction false} RayWalkCells(b: Board, c: Position, d: Dir, i: nat, range: int)
    requires IsGrid(b) && i >= 1
    ensures Positions(RayWalk(b, c, d, i, range).visits) == RaySteps(c, d, i, Reach(b, c, d, range, i))
    decreases range - i
  {
    var p := Shift(c, d, i);
    if i <= range && InBounds(b, p) && Cell(b, p) != Wall {
      var b1 := if Cell(b, p) == Block then SetCell(b, p, Empty) else b;
      RayStep(b, c, d, i, range);
      RayWalkCells(b1, c, d, i + 1, range);
      var k := Reach(b, c, d, range, i);
      var rest := RayWalk(b1, c, d, i + 1, range);
      assert RayWalk(b, c, d, i, range).visits[1..] == rest.visits;
      assert RaySteps(c, d, i, k) == [p] + RaySteps(c, d, i + 1, k);
    }
  }

  /** The tally of one ray is the number of blocks on its swept steps. */
  lemma RayWalkTiles(b: Board, c: Position, d: Dir, i: nat, range: int)
    requires IsGrid(b) && i >= 1
    ensures Tiles(RayWalk(b, c, d, i, range).visits) == RayBlocks(b, c, d, i, Reach(b, c, d, range, i))
  {
    RayWalkCells(b, c, d, i, range);
    RayWalkFlags(b, c, d, i, range);
    TilesCount(b, RayWalk(b, c, d, i, range).visits, c, d, i, Reach(b, c, d, range, i));
  }

  /** Flags that record the board, on the cells of steps i..k, count that stretch's blocks. */
  lemma {:induction false} TilesCount(b: Board, vs: seq<Visit>, c: Position, d: Dir, i: int, k: int)
    requires IsGrid(b) && FlagsTrue(b, vs) && Positions(vs) == RaySteps(c, d, i, k)
    ensures Tiles(vs) == RayBlocks(b, c, d, i, k)
    decreases |vs|
  {
    if k >= i {
      assert vs[0].pos == Shift(c, d, i);
      assert Positions(vs[1..]) == RaySteps(c, d, i + 1, k);
      TilesCount(b, vs[1..], c, d, i + 1, k);
    }
  }

  /** One ray clears exactly the blocks on its swept steps. */
  lemma {:induction false} RayWalkBoard(b: Board, c: Position, d: Dir, i: nat, range: int)
    requires IsGrid(b) && i >= 1
    ensures ClearedAlong(b, RayWalk(b, c, d, i, range).board, c, d, i, Reach(b, c, d, range, i))
    decreases range - i
  {
    var p := Shift(c, d, i);
    if i <= range && InBounds(b, p) && Cell(b, p) != Wall {
      var b1 := if Cell(b, p) == Block then SetCell(b, p, Empty) else b;
      RayStep(b, c, d, i, range);
      ReachFacts(b, c, d, range, i);
      RayWalkBoard(b1, c, d, i + 1, range);
      ClearedCompose(b, b1, RayWalk(b1, c, d, i + 1, range).board, c, d, i, Reach(b, c, d, range, i));
    }
  }

  /** The block flags of one ray record the board the walk started on. */
  lemma {:induction false} RayWalkFlags(b: Board, c: Position, d: Dir, i: nat, range: int)
    requires IsGrid(b) && i >= 1
    ensures FlagsTrue(b, RayWalk(b, c, d, i, range).visits)
    ensures forall n :: 0 <= n < |RayWalk(b, c, d, i, range).visits| ==> OnRayFrom(RayWalk(b, c, d, i, range).visits[n].pos, c, d, i)
    decreases range - i
  {
    var p := Shift(c, d, i);
    if i <= range && InBounds(b, p) && Cell(b, p) != Wall {
      var b1 := if Cell(b, p) == Block then SetCell(b, p, Empty) else b;
      SetCellAgrees(b, p, c, d, i);
      RayWalkFlags(b1, c, d, i + 1, range);
      var r := RayWalk(b, c, d, i, range);
      var rest := RayWalk(b1, c, d, i + 1, range);
      forall n | 0 <= n < |r.visits|
        ensures InBounds(b, r.visits[n].pos) && (r.visits[n].block <==> Cell(b, r.visits[n].pos) == Block)
        ensures OnRayFrom(r.visits[n].pos, c, d, i)
      {
        if n > 0 {
          assert r.visits[n] == rest.visits[n - 1];
        }
      }
    }
  }

  /** One step of a ray: the rest of the ray sees the same reach after the step's cell is swept. */
  lemma RayStep(b: Board, c: Position, d: Dir, i: nat, range: int)
    requires IsGrid(b) && i >= 1 && i <= range
    requires InBounds(b, Shift(c, d, i)) && Cell(b, Shift(c, d, i)) != Wall
    ensures var p := Shift(c, d, i);
            var b1 := if Cell(b, p) == Block then SetCell(b, p, Empty) else b;
            && AgreeOnRay(b, b1, c, d, i + 1)
            && Reach(b, c, d, range, i) == Reach(b1, c, d, range, i + 1)
  {
    var p := Shift(c, d, i);
    SetCellAgrees(b, p, c, d, i);
    ReachAgrees(b, if Cell(b, p) == Block then SetCell(b, p, Empty) else b, c, d, range, i + 1);
  }

  lemma SetCellAgrees(b: Board, p: Position, c: Position, d: Dir, i: int)
    requires IsGrid(b) && InBounds(b, p) && p == Shift(c, d, i)
    ensures AgreeOnRay(b, if Cell(b, p) == Block then SetCell(b, p, Empty) else b, c, d, i + 1)
  {
  }

  lemma ClearedCompose(b: Board, b1: Board, b2: Board, c: Position, d: Dir, i: int, k: int)
    requires IsGrid(b) && IsGrid(b1) && IsGrid(b2) && i >= 1 && k >= i
    requires InBounds(b, Shift(c, d, i))
    requires |b1| == |b| && |b1[0]| == |b[0]|
    requires forall q :: InBounds(b, q) ==>
               Cell(b1, q) == if q == Shift(c, d, i) && Cell(b, q) == Block then Empty else Cell(b, q)
    requires ClearedAlong(b1, b2, c, d, i + 1, k)
    ensures ClearedAlong(b, b2, c, d, i, k)
  {
  }

  // ------------------------------------------------------------- the cross

  /** Blocks on one ray are the only cells it can change; other rays see the original board. */
  lemma ClearedKeepsOtherRays(b: Board, b1: Board, c: Position, d: Dir, k: int, d2: Dir)
    requires IsGrid(b) && IsGrid(b1) && d != d2 && ClearedAlong(b, b1, c, d, 1, k)
    ensures AgreeOnRay(b, b1, c, d2, 1)
  {
  }

  lemma AgreeTrans(b: Board, b1: Board, b2: Board, c: Position, d: Dir)
    requires IsGrid(b) && IsGrid(b1) && IsGrid(b2)
    requires AgreeOnRay(b, b1, c, d, 1) && AgreeOnRay(b1, b2, c, d, 1)
    ensures AgreeOnRay(b, b2, c, d, 1)
  {
  }

  /**
   Walking ray `d` over a board that agrees with `b` along the ray sweeps what
   a walk over `b` would: the same cells, flags and tally, judged on `b`.
   */
  lemma RayOverCells(b: Board, bx: Board, c: Position, d: Dir, range: int)
    requires IsGrid(b) && IsGrid(bx) && AgreeOnRay(b, bx, c, d, 1)
    ensures Positions(RayWalk(bx, c, d, 1, range).visits) == RaySteps(c, d, 1, Reach(b, c, d, range, 1))
  {
    ReachAgrees(b, bx, c, d, range, 1);
    RayWalkCells(bx, c, d, 1, range);
  }

  lemma RayOverTiles(b: Board, bx: Board, c: Position, d: Dir, range: int)
    requires IsGrid(b) && IsGrid(bx) && AgreeOnRay(b, bx, c, d, 1)
    ensures Tiles(RayWalk(bx, c, d, 1, range).visits) == RayBlocks(b, c, d, 1, Reach(b, c, d, range, 1))
  {
    ReachAgrees(b, bx, c, d, range, 1);
    RayWalkTiles(bx, c, d, 1, range);
    BlocksAgree(b, bx, c, d, 1, Reach(b, c, d, range, 1));
  }

  lemma RayOverBoard(b: Board, bx: Board, c: Position, d: Dir, range: int)
    requires IsGrid(b) && IsGrid(bx) && AgreeOnRay(b, bx, c, d, 1)
    ensures ClearedAlong(bx, RayWalk(bx, c, d, 1, range).board, c, d, 1, Reach(b, c, d, range, 1))
  {
    ReachAgrees(b, bx, c, d, range, 1);
    RayWalkBoard(bx, c, d, 1, range);
  }

  lemma RayOverFlags(b: Board, bx: Board, c: Position, d: Dir, range: int)
    requires IsGrid(b) && IsGrid(bx) && AgreeOnRay(b, bx, c, d, 1)
    ensures FlagsTrue(b, RayWalk(bx, c, d, 1, range).visits)
  {
    RayWalkFlags(bx, c, d, 1, range);
    var w := RayWalk(bx, c, d, 1, range);
    forall n | 0 <= n < |w.visits|
      ensures InBounds(b, w.visits[n].pos) && (w.visits[n].block <==> Cell(b, w.visits[n].pos) == Block)
    {
      assert OnRayFrom(w.visits[n].pos, c, d, 1);
    }
  }

  /** Steps 1..k on each of the four rays. */
  predicate OnCross(q: Position, c: Position, ku: int, kd: int, kl: int, kr: int) {
    OnRay(q, c, Up, 1, ku) || OnRay(q, c, Down, 1, kd) || OnRay(q, c, Left, 1, kl) || OnRay(q, c, Right, 1, kr)
  }

  /** Each ray of the cross walk starts on a board that still agrees with the original along that ray. */
  lemma CrossRays(b: Board, c: Position, range: int)
    requires IsGrid(b)
    ensures var up := RayWalk(b, c, Up, 1, range);
            var down := RayWalk(up.board, c, Down, 1, range);
            var left := RayWalk(down.board, c, Left, 1, range);
            && AgreeOnRay(b, b, c, Up, 1)
            && AgreeOnRay(b, up.board, c, Down, 1)
            && AgreeOnRay(b, down.board, c, Left, 1)
            && AgreeOnRay(b, left.board, c, Right, 1)
  {
    var up := RayWalk(b, c, Up, 1, range);
    var down := RayWalk(up.board, c, Down, 1, range);
    var left := RayWalk(down.board, c, Left, 1, range);
    var ku, kd := Reach(b, c, Up, range, 1), Reach(b, c, Down, range, 1);
    var kl := Reach(b, c, Left, range, 1);
    assert AgreeOnRay(b, b, c, Up, 1);
    RayOverBoard(b, b, c, Up, range);
    ClearedKeepsOtherRays(b, up.board, c, Up, ku, Down);
    RayOverBoard(b, up.board, c, Down, range);
    ClearedKeepsOtherRays(b, up.board, c, Up, ku, Left);
    ClearedKeepsOtherRays(up.board, down.board, c, Down, kd, Left);
    AgreeTrans(b, up.board, down.board, c, Left);
    RayOverBoard(b, down.board, c, Left, range);
    ClearedKeepsOtherRays(b, up.board, c, Up, ku, Right);
    ClearedKeepsOtherRays(up.board, down.board, c, Down, kd, Right);
    ClearedKeepsOtherRays(down.board, left.board, c, Left, kl, Right);
    AgreeTrans(b, up.board, down.board, c, Right);
    AgreeTrans(b, down.board, left.board, c, Right);
  }

  /** The cross walk sweeps the centre, then steps 1..Reach of the up, down, left and right rays. */
  lemma CrossCells(b: Board, c: Position, range: int)
    requires IsGrid(b)
    ensures var w := CrossWalk(b, c, range);
            && w.visits[0] == Visit(c, false)
            && Positions(w.visits) == [c] + RaySteps(c, Up, 1, Reach(b, c, Up, range, 1))
                 + RaySteps(c, Down, 1, Reach(b, c, Down, range, 1))
                 + RaySteps(c, Left, 1, Reach(b, c, Left, range, 1))
                 + RaySteps(c, Right, 1, Reach(b, c, Right, range, 1))
  {
    CrossRays(b, c, range);
    var up := RayWalk(b, c, Up, 1, range);
    var down := RayWalk(up.board, c, Down, 1, range);
    var left := RayWalk(down.board, c, Left, 1, range);
    var right := RayWalk(left.board, c, Right, 1, range);
    RayOverCells(b, b, c, Up, range);
    RayOverCells(b, up.board, c, Down, range);
    RayOverCells(b, down.board, c, Left, range);
    RayOverCells(b, left.board, c, Right, range);
    var w := CrossWalk(b, c, range);
    assert w.visits == [Visit(c, false)] + up.visits + down.visits + left.visits + right.visits;
    assert Positions([Visit(c, false)]) == [c];
    PositionsAppend5([Visit(c, false)], up.visits, down.visits, left.visits, right.visits);
  }

  /** The tally of a detonation counts the blocks on the swept ray steps of the original board. */
  lemma CrossTiles(b: Board, c: Position, range: int)
    requires IsGrid(b)
    ensures Tiles(CrossWalk(b, c, range).visits)
              == RayBlocks(b, c, Up, 1, Reach(b, c, Up, range, 1)) + RayBlocks(b, c, Down, 1, Reach(b, c, Down, range, 1))
               + RayBlocks(b, c, Left, 1, Reach(b, c, Left, range, 1)) + RayBlocks(b, c, Right, 1, Reach(b, c, Right, range, 1))
  {
    CrossRays(b, c, range);
    var up := RayWalk(b, c, Up, 1, range);
    var down := RayWalk(up.board, c, Down, 1, range);
    var left := RayWalk(down.board, c, Left, 1, range);
    var right := RayWalk(left.board, c, Right, 1, range);
    RayOverTiles(b, b, c, Up, range);
    RayOverTiles(b, up.board, c, Down, range);
    RayOverTiles(b, down.board, c, Left, range);
    RayOverTiles(b, left.board, c, Right, range);
    var w := CrossWalk(b, c, range);
    assert w.visits == [Visit(c, false)] + up.visits + down.visits + left.visits + right.visits;
    assert Tiles([Visit(c, false)]) == 0;
    TilesAppend5([Visit(c, false)], up.visits, down.visits, left.visits, right.visits);
  }

  /** The block flags of the ray cells describe the original board. */
  lemma CrossFlags(b: Board, c: Position, range: int)
    requires IsGrid(b)
    ensures FlagsTrue(b, CrossWalk(b, c, range).visits[1..])
  {
    RaysFlags(b, c, range);
    CrossTail(b, c, range);
  }

  /** The walk's list after the centre is the four rays' lists in order. */
  lemma CrossTail(b: Board, c: Position, range: int)
    requires IsGrid(b)
    ensures var up := RayWalk(b, c, Up, 1, range);
            var down := RayWalk(up.board, c, Down, 1, range);
            var left := RayWalk(down.board, c, Left, 1, range);
            var right := RayWalk(left.board, c, Right, 1, range);
            CrossWalk(b, c, range).visits[1..] == up.visits + down.visits + left.visits + right.visits
  {
    var up := RayWalk(b, c, Up, 1, range);
    var down := RayWalk(up.board, c, Down, 1, range);
    var left := RayWalk(down.board, c, Left, 1, range);
    var right := RayWalk(left.board, c, Right, 1, range);
    DropHead(Visit(c, false), up.visits, down.visits, left.visits, right.visits);
  }

  lemma RaysFlags(b: Board, c: Position, range: int)
    requires IsGrid(b)
    ensures var up := RayWalk(b, c, Up, 1, range);
            var down := RayWalk(up.board, c, Down, 1, range);
            var left := RayWalk(down.board, c, Left, 1, range);
            var right := RayWalk(left.board, c, Right, 1, range);
            FlagsTrue(b, up.visits + down.visits + left.visits + right.visits)
  {
    CrossRays(b, c, range);
    var up := RayWalk(b, c, Up, 1, range);
    var down := RayWalk(up.board, c, Down, 1, range);
    var left := RayWalk(down.board, c, Left, 1, range);
    var right := RayWalk(left.board, c, Right, 1, range);
    RayOverFlags(b, b, c, Up, range);
    RayOverFlags(b, up.board, c, Down, range);
    RayOverFlags(b, down.board, c, Left, range);
    RayOverFlags(b, left.board, c, Right, range);
    FlagsAppend4(b, up.visits, down.visits, left.visits, right.visits);
  }

  lemma DropHead(x: Visit, v1: seq<Visit>, v2: seq<Visit>, v3: seq<Visit>, v4: seq<Visit>)
    ensures ([x] + v1 + v2 + v3 + v4)[1..] == v1 + v2 + v3 + v4
  {
    assert [x] + v1 + v2 + v3 + v4 == [x] + (v1 + v2 + v3 + v4);
  }

  /**
   After the walk exactly the blocks on the swept ray steps are gone; walls,
   empty cells and every cell off the cross are unchanged.
   */
  lemma CrossBoardShape(b: Board, c: Position, range: int)
    requires IsGrid(b)
    ensures var w := CrossWalk(b, c, range);
            var ku, kd := Reach(b, c, Up, range, 1), Reach(b, c, Down, range, 1);
            var kl, kr := Reach(b, c, Left, range, 1), Reach(b, c, Right, range, 1);
            forall q :: InBounds(b, q) ==>
              Cell(w.board, q) == if OnCross(q, c, ku, kd, kl, kr) && Cell(b, q) == Block then Empty else Cell(b, q)
  {
    CrossRays(b, c, range);
    var up := RayWalk(b, c, Up, 1, range);
    var down := RayWalk(up.board, c, Down, 1, range);
    var left := RayWalk(down.board, c, Left, 1, range);
    var right := RayWalk(left.board, c, Right, 1, range);
    RayOverBoard(b, b, c, Up, range);
    RayOverBoard(b, up.board, c, Down, range);
    RayOverBoard(b, down.board, c, Left, range);
    RayOverBoard(b, left.board, c, Right, range);
    CrossBoard(b, up.board, down.board, left.board, right.board, c,
      Reach(b, c, Up, range, 1), Reach(b, c, Down, range, 1), Reach(b, c, Left, range, 1), Reach(b, c, Right, range, 1));
  }

  lemma CrossBoard(b: Board, b1: Board, b2: Board, b3: Board, b4: Board, c: Position, ku: int, kd: int, kl: int, kr: int)
    requires IsGrid(b) && IsGrid(b1) && IsGrid(b2) && IsGrid(b3) && IsGrid(b4)
    requires ClearedAlong(b, b1, c, Up, 1, ku) && ClearedAlong(b1, b2, c, Down, 1, kd)
    requires ClearedAlong(b2, b3, c, Left, 1, kl) && ClearedAlong(b3, b4, c, Right, 1, kr)
    ensures forall q :: InBounds(b, q) ==>
              Cell(b4, q) == if OnCross(q, c, ku, kd, kl, kr) && Cell(b, q) == Block then Empty else Cell(b, q)
  {
  }

  lemma PositionsAppend(a: seq<Visit>, b: seq<Visit>)
    ensures Positions(a + b) == Positions(a) + Positions(b)
  {
  }

  lemma PositionsAppend5(a: seq<Visit>, b: seq<Visit>, c: seq<Visit>, d: seq<Visit>, e: seq<Visit>)
    ensures Positions(a + b + c + d + e) == Positions(a) + Positions(b) + Positions(c) + Positions(d) + Positions(e)
  {
    PositionsAppend(a, b);
    PositionsAppend(a + b, c);
    PositionsAppend(a + b + c, d);
    PositionsAppend(a + b + c + d, e);
  }

  lemma {:induction false} TilesAppend(a: seq<Visit>, b: seq<Visit>)
    ensures Tiles(a + b) == Tiles(a) + Tiles(b)
    decreases |a|
  {
    if |a| > 0 {
      assert (a + b)[1..] == a[1..] + b;
      TilesAppend(a[1..], b);
    } else {
      assert a + b == b;
    }
  }

  lemma TilesAppend5(a: seq<Visit>, b: seq<Visit>, c: seq<Visit>, d: seq<Visit>, e: seq<Visit>)
    ensures Tiles(a + b + c + d + e) == Tiles(a) + Tiles(b) + Tiles(c) + Tiles(d) + Tiles(e)
  {
    TilesAppend(a, b);
    TilesAppend(a + b, c);
    TilesAppend(a + b + c, d);
    TilesAppend(a + b + c + d, e);
  }

  lemma FlagsAppend4(b: Board, v1: seq<Visit>, v2: seq<Visit>, v3: seq<Visit>, v4: seq<Visit>)
    requires IsGrid(b) && FlagsTrue(b, v1) && FlagsTrue(b, v2) && FlagsTrue(b, v3) && FlagsTrue(b, v4)
    ensures FlagsTrue(b, v1 + v2 + v3 + v4)
  {
    var all := v1 + v2 + v3 + v4;
    forall n | 0 <= n < |all|
      ensures InBounds(b, all[n].pos) && (all[n].block <==> Cell(b, all[n].pos) == Block)
    {
      if n < |v1| { assert all[n] == v1[n]; }
      else if n < |v1| + |v2| { assert all[n] == v2[n - |v1|]; }
      else if n < |v1| + |v2| + |v3| { assert all[n] == v3[n - |v1| - |v2|]; }
      else { assert all[n] == v4[n - |v1| - |v2| - |v3|]; }
    }
  }

  // ------------------------------------------------------- stopping at a block

  /**
   A ray on one row, as the sweep runs it: from the corner going right with
   range 2 over two blocks, it clears both, since clearing a block does not
   end the ray.
   */
  lemma RayPassesBlock()
    ensures var w := RayWalk([[Empty, Block, Block]], Position(0, 0), Right, 1, 2);
            && w.visits == [Visit(Position(0, 1), true), Visit(Position(0, 2), true)]
            && Tiles(w.visits) == 2
            && w.board == [[Empty, Empty, Empty]]
  {
    var b := [[Empty, Block, Block]];
    var b1 := SetCell(b, Position(0, 1), Empty);
    assert b[0][1 := Empty] == [Empty, Empty, Block];
    assert b1 == [[Empty, Empty, Block]];
    var b2 := SetCell(b1, Position(0, 2), Empty);
    assert b1[0][2 := Empty] == [Empty, Empty, Empty];
    assert b2 == [[Empty, Empty, Empty]];
    assert RayWalk(b2, Position(0, 0), Right, 3, 2) == Walk(b2, []);
    var vs := [Visit(Position(0, 1), true), Visit(Position(0, 2), true)];
    assert vs[1..][1..] == [];
    assert Tiles(vs[1..]) == 1;
  }

  /**
   The ray as the wall check after the cell's effects suggests it was meant:
   it clears the first block it meets and ends there.
   */
  function RayWalkStopping(b: Board, c: Position, d: Dir, i: nat, range: int): (r: Walk)
    requires IsGrid(b)
    ensures IsGrid(r.board) && |r.board| == |b| && (|b| > 0 ==> |r.board[0]| == |b[0]|)
    ensures Tiles(r.visits) <= 1
    ensures forall n :: 0 <= n < |r.visits| - 1 ==> !r.visits[n].block
    decreases range - i
  {
    if i > range then Walk(b, [])
    else
      var pos := Shift(c, d, i);
      if !InBounds(b, pos) || Cell(b, pos) == Wall then Walk(b, [])
      else if Cell(b, pos) == Block then Walk(SetCell(b, pos, Empty), [Visit(pos, true)])
      else
        var rest := RayWalkStopping(b, c, d, i + 1, range);
        Walk(rest.board, [Visit(pos, false)] + rest.visits)
  }

  /**
   The stopping ray sweeps a prefix of the cells the program's ray sweeps,
   ending at the first block when there is one.
   */
  lemma {:induction false} StoppingIsPrefix(b: Board, c: Position, d: Dir, i: nat, range: int)
    requires IsGrid(b)
    ensures RayWalkStopping(b, c, d, i, range).visits <= RayWalk(b, c, d, i, range).visits
    decreases range - i
  {
    if i <= range {
      var pos := Shift(c, d, i);
      if InBounds(b, pos) && Cell(b, pos) != Wall && Cell(b, pos) != Block {
        StoppingIsPrefix(b, c, d, i + 1, range);
        var s := RayWalkStopping(b, c, d, i + 1, range).visits;
        var w := RayWalk(b, c, d, i + 1, range).visits;
        assert [Visit(pos, false)] + s <= [Visit(pos, false)] + w;
      }
    }
  }

  /** With no block in reach the stopping ray and the program's ray are the same. */
  lemma {:induction false} StoppingAgrees(b: Board, c: Position, d: Dir, i: nat, range: int)
    requires IsGrid(b)
    requires Tiles(RayWalk(b, c, d, i, range).visits) == 0
    ensures RayWalkStopping(b, c, d, i, range) == RayWalk(b, c, d, i, range)
    decreases range - i
  {
    if i <= range {
      var pos := Shift(c, d, i);
      if InBounds(b, pos) && Cell(b, pos) != Wall {
        var w := RayWalk(b, c, d, i, range).visits;
        assert w[0] == Visit(pos, Cell(b, pos) == Block);
        if Cell(b, pos) != Block {
          assert w[1..] == RayWalk(b, c, d, i + 1, range).visits;
          StoppingAgrees(b, c, d, i + 1, range);
        }
      }
    }
  }
}

=== FILE: client.dfy ===
/**
 The browser side of a match (frontend/js/game.js): which way a sprite
 faces, the checks and cooldowns in front of the move and bomb messages,
 the keyboard mapping, the clock text and where an error message ends up.
 The socket's open state, the countdown flag, the last `gameState` payload
 and `Date.now()` are inputs; rendering, sound and the DOM are not modelled.
 */
module Client {
  import opened Wrappers
  import opened Types
  import Engine
  import Decimal
  import opened Validation

  // ------------------------------------------------------------- facing

  /** The sprite direction for a step from `before` to `after`, if the position changed. */
  function StepFacing(before: Position, after: Position): (d: Option<Dir>)
  {
    var dRow := after.row - before.row;
    var dCol := after.col - before.col;
    if dRow < 0 then Some(Up)
    else if dRow > 0 then Some(Down)
    else if dCol < 0 then Some(Left)
    else if dCol > 0 then Some(Right)
    else None
  }

  /**
   The `gameState` handler's facing rule as written. The fallback reads the
   direction of the NEW payload's player, and the server's player record has
   no direction field, so a player who did not move faces down. `before` is
   the player's position in the previous payload, if any.
   */
  function InferFacing(before: Option<Position>, after: Position): (d: Dir)
    ensures before.None? ==> d == Down
    ensures before.Some? && before.value == after ==> d == Down
  {
    if before.Some? then
      match StepFacing(before.value, after)
      case Some(d) => d
      case None => Down
    else Down
  }

  /**
   The evidently intended rule: a player who did not move keeps the facing
   the previous payload was given; without one, down.
   */
  function InferFacingKept(before: Option<(Position, Dir)>, after: Position): (d: Dir)
    ensures before.None? ==> d == Down
    ensures before.Some? && before.value.0 == after ==> d == before.value.1
  {
    if before.Some? then
      match StepFacing(before.value.0, after)
      case Some(d) => d
      case None => before.value.1
    else Down
  }

  /** A move or a dash of any positive length in direction `d` is drawn facing `d`. */
  lemma FacingFollowsStep(p: Position, d: Dir, i: int, previous: Dir)
    requires i >= 1
    ensures InferFacing(Some(p), Shift(p, d, i)) == d
    ensures InferFacingKept(Some((p, previous)), Shift(p, d, i)) == d
  {
  }

  /** A step that changes both coordinates is drawn vertically. */
  lemma VerticalWins(p: Position, q: Position)
    requires p.row != q.row
    ensures InferFacing(Some(p), q) == (if q.row < p.row then Up else Down)
  {
  }

  /** As written, a player who walked left and then stood still turns to face down. */
  lemma StandingTurnsDown(p: Position)
    ensures InferFacing(Some(Shift(p, Left, 1)), Shift(p, Left, 1)) == Down
    ensures InferFacingKept(Some((Shift(p, Left, 1), Left)), Shift(p, Left, 1)) == Left
  {
  }

  // ----------------------------------------------------- outgoing messages

  const MoveCooldown := 150
  const BombCooldown := 200

  /** The messages the keyboard sends. */
  datatype Out = MoveOut(dir: Dir, playerId: string) | BombOut(playerId: string) | DetonateOut | DashOut(dir: Dir)

  /** A message and the `Date.now()` it went out at. */
  datatype Sent = Sent(msg: Out, at: int)

  /**
   The page's mutable state: whether the socket is open, whether the start
   countdown runs, the two throttle stamps, the last arrow pressed
   (`playerDirection`), and what has been sent.
   */
  datatype Client = Client(open: bool, countdown: bool, lastMove: int, lastBomb: int, facing: Dir, sent: seq<Sent>)

  /** The page as loaded: both throttle stamps zero and facing down. */
  function Loaded(open: bool, countdown: bool): Client {
    Client(open, countdown, 0, 0, Down, [])
  }

  /** The local player is in the last payload and alive. */
  predicate Alive(view: Option<Game>, pid: string) {
    view.Some? && pid in view.value.players && view.value.players[pid].alive
  }

  /**
   `movePlayer`'s board check on the last payload: the target is inside the
   board, holds code 0, and holds no bomb of another player. A cell past the
   end of a short row reads as `undefined`, which is not 0.
   */
  predicate MoveAllowed(g: Game, pid: string, d: Dir)
    requires pid in g.players
  {
    var np := Shift(g.players[pid].position, d, 1);
    && 0 <= np.row < |g.board| && 0 <= np.col < |g.board[0]|
    && np.col < |g.board[np.row]| && g.board[np.row][np.col] == 0
    && (forall id :: id in g.bombs && g.bombs[id].position == np ==> g.bombs[id].playerId == pid)
  }

  /** On any board the server could send, the client's check is the server's `isValidMove`. */
  lemma PreCheckIsServerCheck(g: Game, pid: string, d: Dir)
    requires IsGrid(g.board) && pid in g.players
    ensures MoveAllowed(g, pid, d) <==> Engine.IsValidMove(g, pid, DirName(d))
  {
    assert ParseDir(DirName(d)) == Some(d);
  }

  /**
   `movePlayer`: a move goes out only with the socket open, the player alive,
   at least 150 ms since the last move sent and the board check passed; only
   a sent move restamps the throttle.
   */
  function MovePressed(c: Client, view: Option<Game>, pid: string, d: Dir, now: int): (r: Client)
    ensures r == c || r == c.(lastMove := now, sent := c.sent + [Sent(MoveOut(d, pid), now)])
    ensures r != c <==> c.open && Alive(view, pid) && now - c.lastMove >= MoveCooldown && MoveAllowed(view.value, pid, d)
  {
    if !c.open || !Alive(view, pid) then c
    else if now - c.lastMove < MoveCooldown then c
    else if !MoveAllowed(view.value, pid, d) then c
    else c.(lastMove := now, sent := c.sent + [Sent(MoveOut(d, pid), now)])
  }

  /** `placeBomb`: with the socket open and the player alive, at most one bomb message per 200 ms. */
  function BombPressed(c: Client, view: Option<Game>, pid: string, now: int): (r: Client)
    ensures r == c || r == c.(lastBomb := now, sent := c.sent + [Sent(BombOut(pid), now)])
    ensures r != c <==> c.open && Alive(view, pid) && now - c.lastBomb >= BombCooldown
  {
    if !c.open || !Alive(view, pid) then c
    else if now - c.lastBomb < BombCooldown then c
    else c.(lastBomb := now, sent := c.sent + [Sent(BombOut(pid), now)])
  }

  // ------------------------------------------------------------- keyboard

  datatype Action = Press(dir: Dir) | BombKey | Detonate | DashKey

  /** The `handleKeyDown` switch: arrows and WASD in either case, space, r or R, and the three Shift names. */
  function ActionOf(key: string): (a: Option<Action>)
    ensures a == Some(Press(Up)) <==> key in {"ArrowUp", "w", "W"}
    ensures a == Some(Press(Down)) <==> key in {"ArrowDown", "s", "S"}
    ensures a == Some(Press(Left)) <==> key in {"ArrowLeft", "a", "A"}
    ensures a == Some(Press(Right)) <==> key in {"ArrowRight", "d", "D"}
    ensures a == Some(BombKey) <==> key == " "
    ensures a == Some(Detonate) <==> key in {"r", "R"}
    ensures a == Some(DashKey) <==> key in {"Shift", "ShiftLeft", "ShiftRight"}
  {
    if key in {"ArrowUp", "w", "W"} then Some(Press(Up))
    else if key in {"ArrowDown", "s", "S"} then Some(Press(Down))
    else if key in {"ArrowLeft", "a", "A"} then Some(Press(Left))
    else if key in {"ArrowRight", "d", "D"} then Some(Press(Right))
    else if key == " " then Some(BombKey)
    else if key in {"r", "R"} then Some(Detonate)
    else if key in {"Shift", "ShiftLeft", "ShiftRight"} then Some(DashKey)
    else None
  }

  /**
   `handleKeyDown`: nothing happens while the countdown runs or for an
   unmapped key. An arrow records its direction even when the move is held
   back; Shift dashes in the last recorded direction; remote detonation and
   dash have no throttle.
   */
  function KeyDown(c: Client, view: Option<Game>, pid: string, key: string, now: int): (r: Client)
    ensures c.countdown || ActionOf(key).None? ==> r == c
    ensures r.open == c.open && r.countdown == c.countdown
    ensures |c.sent| <= |r.sent| <= |c.sent| + 1 && r.sent[..|c.sent|] == c.sent
    ensures |r.sent| > |c.sent| ==> r.sent[|c.sent|].at == now
    ensures !c.countdown && ActionOf(key).Some? && ActionOf(key).value.Press? ==>
              var d := ActionOf(key).value.dir;
              && r.facing == d
              && (|r.sent| > |c.sent| <==> c.open && Alive(view, pid) && now - c.lastMove >= MoveCooldown && MoveAllowed(view.value, pid, d))
              && (|r.sent| > |c.sent| ==> r.sent[|c.sent|].msg == MoveOut(d, pid))
    ensures !c.countdown && key == " " ==>
              && (|r.sent| > |c.sent| <==> c.open && Alive(view, pid) && now - c.lastBomb >= BombCooldown)
              && (|r.sent| > |c.sent| ==> r.sent[|c.sent|].msg == BombOut(pid))
    ensures !c.countdown && key in {"r", "R"} ==> r.sent == if c.open then c.sent + [Sent(DetonateOut, now)] else c.sent
    ensures !c.countdown && key in {"Shift", "ShiftLeft", "ShiftRight"} ==>
              r.sent == if c.open then c.sent + [Sent(DashOut(c.facing), now)] else c.sent
  {
    Act(c, view, pid, ActionOf(key), now)
  }

  /** What one mapped key does; `None` is a key the switch does not list. */
  function Act(c: Client, view: Option<Game>, pid: string, a: Option<Action>, now: int): (r: Client)
    ensures c.countdown || a.None? ==> r == c
    ensures r.open == c.open && r.countdown == c.countdown
    ensures |c.sent| <= |r.sent| <= |c.sent| + 1 && r.sent[..|c.sent|] == c.sent
    ensures |r.sent| > |c.sent| ==> r.sent[|c.sent|].at == now
    ensures !c.countdown && a.Some? && a.value.Press? ==>
              && r.facing == a.value.dir
              && (|r.sent| > |c.sent| <==> c.open && Alive(view, pid) && now - c.lastMove >= MoveCooldown && MoveAllowed(view.value, pid, a.value.dir))
              && (|r.sent| > |c.sent| ==> r.sent[|c.sent|].msg == MoveOut(a.value.dir, pid))
    ensures !c.countdown && a == Some(BombKey) ==>
              && (|r.sent| > |c.sent| <==> c.open && Alive(view, pid) && now - c.lastBomb >= BombCooldown)
              && (|r.sent| > |c.sent| ==> r.sent[|c.sent|].msg == BombOut(pid))
    ensures !c.countdown && a == Some(Detonate) ==> r.sent == if c.open then c.sent + [Sent(DetonateOut, now)] else c.sent
    ensures !c.countdown && a == Some(DashKey) ==> r.sent == if c.open then c.sent + [Sent(DashOut(c.facing), now)] else c.sent
  {
    if c.countdown then c
    else match a
      case None => c
      case Some(Press(d)) => MovePressed(c.(facing := d), view, pid, d, now)
      case Some(BombKey) => BombPressed(c, view, pid, now)
      case Some(Detonate) => if c.open then c.(sent := c.sent + [Sent(DetonateOut, now)]) else c
      case Some(DashKey) => if c.open then c.(sent := c.sent + [Sent(DashOut(c.facing), now)]) else c
  }

  /** Shift right after an arrow dashes the way that arrow pointed, whether or not the move itself went out. */
  lemma DashFollowsArrow(c: Client, view: Option<Game>, pid: string, arrow: string, shift: string, t1: int, t2: int, d: Dir)
    requires !c.countdown && c.open
    requires ActionOf(arrow) == Some(Press(d)) && ActionOf(shift) == Some(DashKey)
    ensures var c2 := KeyDown(c, view, pid, arrow, t1);
            KeyDown(c2, view, pid, shift, t2).sent == c2.sent + [Sent(DashOut(d), t2)]
  {
  }

  /**
   The throttle invariant: any two move messages lie at least 150 ms apart,
   any two bomb messages at least 200 ms apart, and none is later than its
   throttle stamp.
   */
  predicate Spaced(c: Client) {
    SpacedLog(c.sent, c.lastMove, c.lastBomb)
  }

  predicate SpacedLog(sent: seq<Sent>, lastMove: int, lastBomb: int) {
    && (forall i, j :: 0 <= i < j < |sent| && sent[i].msg.MoveOut? && sent[j].msg.MoveOut? ==>
          sent[j].at - sent[i].at >= MoveCooldown)
    && (forall i, j :: 0 <= i < j < |sent| && sent[i].msg.BombOut? && sent[j].msg.BombOut? ==>
          sent[j].at - sent[i].at >= BombCooldown)
    && (forall i :: 0 <= i < |sent| && sent[i].msg.MoveOut? ==> sent[i].at <= lastMove)
    && (forall i :: 0 <= i < |sent| && sent[i].msg.BombOut? ==> sent[i].at <= lastBomb)
  }

  /** A sent move is stamped with its own time, at least 150 ms after every earlier move. */
  lemma MoveKeepsSpaced(c: Client, view: Option<Game>, pid: string, d: Dir, now: int)
    requires Spaced(c)
    ensures Spaced(MovePressed(c, view, pid, d, now))
  {
    var r := MovePressed(c, view, pid, d, now);
    if r != c {
      assert r.lastMove == now && now - c.lastMove >= MoveCooldown;
    }
  }

  /** A sent bomb is stamped with its own time, at least 200 ms after every earlier bomb. */
  lemma BombKeepsSpaced(c: Client, view: Option<Game>, pid: string, now: int)
    requires Spaced(c)
    ensures Spaced(BombPressed(c, view, pid, now))
  {
    var r := BombPressed(c, view, pid, now);
    if r != c {
      assert r.lastBomb == now && now - c.lastBomb >= BombCooldown;
    }
  }

  /** Every key press keeps the throttle invariant, whatever the clock does. */
  lemma KeyKeepsSpaced(c: Client, view: Option<Game>, pid: string, key: string, now: int)
    requires Spaced(c)
    ensures Spaced(KeyDown(c, view, pid, key, now))
  {
    ActKeepsSpaced(c, view, pid, ActionOf(key), now);
  }

  lemma ActKeepsSpaced(c: Client, view: Option<Game>, pid: string, a: Option<Action>, now: int)
    requires Spaced(c)
    ensures Spaced(Act(c, view, pid, a, now))
  {
    if !c.countdown && a.Some? {
      match a.value
      case Press(d) => MoveKeepsSpaced(c.(facing := d), view, pid, d, now);
      case BombKey => BombKeepsSpaced(c, view, pid, now);
      case Detonate => if c.open { UnthrottledKeepsSpaced(c, Sent(DetonateOut, now)); }
      case DashKey => if c.open { UnthrottledKeepsSpaced(c, Sent(DashOut(c.facing), now)); }
    }
  }

  /** Detonation and dash messages are outside both throttles. */
  lemma UnthrottledKeepsSpaced(c: Client, x: Sent)
    requires Spaced(c) && !x.msg.MoveOut? && !x.msg.BombOut?
    ensures Spaced(c.(sent := c.sent + [x]))
  {
  }

  /** One key press of a session: the key, the payload shown then, and the clock. */
  datatype Press = KeyPress(key: string, view: Option<Game>, now: int)

  function Replay(c: Client, pid: string, presses: seq<Press>): (r: Client)
    decreases |presses|
  {
    if |presses| == 0 then c
    else Replay(KeyDown(c, presses[0].view, pid, presses[0].key, presses[0].now), pid, presses[1..])
  }

  /** From a freshly loaded page, any run of key presses sends moves 150 ms and bombs 200 ms apart. */
  lemma {:induction false} SessionSpaced(c: Client, pid: string, presses: seq<Press>)
    requires Spaced(c)
    ensures Spaced(Replay(c, pid, presses))
    decreases |presses|
  {
    if |presses| > 0 {
      KeyKeepsSpaced(c, presses[0].view, pid, presses[0].key, presses[0].now);
      SessionSpaced(KeyDown(c, presses[0].view, pid, presses[0].key, presses[0].now), pid, presses[1..]);
    }
  }

  lemma LoadedSpaced(open: bool, countdown: bool)
    ensures Spaced(Loaded(open, countdown))
  {
  }

  // ---------------------------------------------------------------- clock

  const MatchSeconds := 120

  /** Whole seconds left of the two-minute match; `Math.floor` of a quotient by a positive divisor. */
  function Remaining(startTime: int, now: int): (r: nat)
    ensures now >= startTime ==> r <= MatchSeconds
    ensures r == 0 <==> now - startTime >= MatchSeconds * 1000
    ensures r > 0 ==> r * 1000 >= MatchSeconds * 1000 - (now - startTime) > (r - 1) * 1000
  {
    var elapsed := (now - startTime) / 1000;
    if MatchSeconds - elapsed > 0 then MatchSeconds - elapsed else 0
  }

  /** `seconds.toString().padStart(2, '0')` for a value below sixty. */
  function Pad2(n: nat): (s: string)
    requires n < 60
    ensures |s| == 2 && Decimal.AllDigits(s) && Decimal.ParseNat(s) == n
  {
    var t := Decimal.NatToString(n);
    Decimal.ParseNatToString(n);
    if n < 10 then "0" + t else t
  }

  /** The `m:ss` text of the timer: minutes without padding, seconds as two digits. */
  function ClockText(remaining: nat): (s: string)
    ensures |s| >= 4 && s[|s| - 3] == ':'
    ensures s[..|s| - 3] == Decimal.NatToString(remaining / 60) && s[|s| - 2..] == Pad2(remaining % 60)
  {
    var m := Decimal.NatToString(remaining / 60);
    var s := m + ":" + Pad2(remaining % 60);
    assert s[..|m|] == m;
    s
  }

  /** The timer shown for a match that started at `startTime`. */
  function Clock(startTime: int, now: int): (s: string)
    ensures |s| >= 4 && s[|s| - 3] == ':'
    ensures Decimal.AllDigits(s[..|s| - 3]) && Decimal.AllDigits(s[|s| - 2..])
  {
    ClockText(Remaining(startTime, now))
  }

  /** The number of seconds an `m:ss` text stands for, if it has that shape. */
  function ReadClock(s: string): (r: Option<nat>)
  {
    if |s| < 4 || s[|s| - 3] != ':' then None
    else
      ReadSplit(s[..|s| - 3], s[|s| - 2..])
  }

  /** The seconds that minute digits `m` and second digits `ss` stand for, if both are digits. */
  function ReadSplit(m: string, ss: string): Option<nat> {
    if Decimal.AllDigits(m) && Decimal.AllDigits(ss) then Some(60 * Decimal.ParseNat(m) + Decimal.ParseNat(ss))
    else None
  }

  /** The timer text reads back as the seconds left. */
  lemma ClockReadsBack(startTime: int, now: int)
    ensures ReadClock(Clock(startTime, now)) == Some(Remaining(startTime, now))
  {
    TextReadsBack(Remaining(startTime, now));
  }

  /** Any `m:ss` text of the timer reads back as its number of seconds. */
  lemma TextReadsBack(n: nat)
    ensures ReadClock(ClockText(n)) == Some(n)
  {
    var m, ss := Decimal.NatToString(n / 60), Pad2(n % 60);
    Decimal.ParseNatToString(n / 60);
    ReadParts(m, ss);
    assert ClockText(n) == m + ":" + ss;
  }

  /** Minutes, a colon and two second digits read as their seconds. */
  lemma ReadParts(m: string, ss: string)
    requires 1 <= |m| && Decimal.AllDigits(m) && |ss| == 2 && Decimal.AllDigits(ss)
    ensures ReadClock(m + ":" + ss) == Some(60 * Decimal.ParseNat(m) + Decimal.ParseNat(ss))
  {
    Split(m, ss);
  }

  /** The colon of `m:ss` sits three from the end, between the two parts. */
  lemma Split(m: string, ss: string)
    requires |ss| == 2
    ensures var s := m + ":" + ss;
            |s| == |m| + 3 && s[|s| - 3] == ':' && s[..|s| - 3] == m && s[|s| - 2..] == ss
  {
    var s := m + ":" + ss;
    assert s[..|m|] == m && s[|m| + 1..] == ss;
  }

  // --------------------------------------------------------------- errors

  /** Text without capital ASCII letters lowercases to itself. */
  lemma LowerFixed(s: string)
    requires forall i :: 0 <= i < |s| ==> !('A' <= s[i] <= 'Z')
    ensures Lower(s) == s
  {
  }

  /** Where an `error` message goes on the match page. */
  datatype Routing = ToMenu | Toast | Hidden | Modal

  /** ASCII lowercasing; `toLowerCase` also maps the other cased letters of Unicode. */
  function Lower(s: string): (r: string)
    ensures |r| == |s|
  {
    seq(|s|, i requires 0 <= i < |s| => if 'A' <= s[i] <= 'Z' then (s[i] as int + 32) as char else s[i])
  }

  /**
   The `error` case of the message handler: "lobby not found" leaves for the
   menu, anything mentioning "dash" in any case is a toast, "invalid move" is
   swallowed, and the rest opens the error modal; the conditions are checked in that order.
   */
  function Route(text: string): (r: Routing)
    ensures r == ToMenu <==> Contains(text, "lobby not found")
    ensures r == Toast <==> !Contains(text, "lobby not found") && Contains(Lower(text), "dash")
    ensures r == Hidden <==> !Contains(text, "lobby not found") && !Contains(Lower(text), "dash") && Contains(text, "invalid move")
    ensures r == Modal <==> !Contains(text, "lobby not found") && !Contains(Lower(text), "dash") && !Contains(text, "invalid move")
  {
    if Contains(text, "lobby not found") then ToMenu
    else if Contains(Lower(text), "dash") then Toast
    else if !Contains(text, "invalid move") then Modal
    else Hidden
  }

  /** `t` cannot occur in `s` when one of its characters never does. */
  lemma Absent(s: string, t: string, k: nat)
    requires k < |t|
    requires forall i :: 0 <= i < |s| ==> s[i] != t[k]
    ensures !Contains(s, t)
  {
    forall i | 0 <= i <= |s| - |t| ensures !(t <= s[i..]) {
      assert s[i..][k] != t[k];
    }
  }

  /** A refused step from the server is never shown. */
  lemma BadStepHidden()
    ensures Route("invalid move") == Hidden
  {
    assert "invalid move" <= "invalid move"[0..];
    LowerFixed("invalid move");
    Absent("invalid move", "dash", 3);
  }

  /** The server's dash refusals show as a toast. */
  lemma DashRefusalsToast()
    ensures Route("dash on cooldown") == Toast && Route("no available dash target") == Toast
  {
    CooldownToast();
    NoTargetToast();
  }

  lemma CooldownToast()
    ensures Route("dash on cooldown") == Toast
  {
    LowerFixed("dash on cooldown");
    assert "dash" <= Lower("dash on cooldown")[0..];
    Absent("dash on cooldown", "lobby not found", 2);
  }

  lemma NoTargetToast()
    ensures Route("no available dash target") == Toast
  {
    LowerFixed("no available dash target");
    assert "dash" <= Lower("no available dash target")[13..];
    Absent("no available dash target", "lobby not found", 10);
  }

  /**
   Every refusal of the server's dash reaches the player: the cooldown and a
   blocked path show as a toast, a dead or unknown player and a bad
   direction open the modal, and none is swallowed.
   */
  lemma DashErrorsRouted(g: Game, pid: string, dir: string, o: Engine.MapOrders, now: int)
    requires IsGrid(g.board) && Engine.Dash(g, pid, dir, o, now).Failure?
    ensures var e := Engine.Dash(g, pid, dir, o, now).error;
            && Route(e) != Hidden
            && (Route(e) == Toast <==> e == "dash on cooldown" || e == "no available dash target")
  {
    var e := DashFailure(g, pid, dir, o, now);
    if e == "dash on cooldown" || e == "no available dash target" {
      DashRefusalsToast();
    } else if e == "player not found or not alive" {
      NotAliveModal();
    } else {
      BadDirectionModal();
    }
  }

  /** The server's dash fails with one of four texts. */
  lemma DashFailure(g: Game, pid: string, dir: string, o: Engine.MapOrders, now: int) returns (e: string)
    requires IsGrid(g.board) && Engine.Dash(g, pid, dir, o, now).Failure?
    ensures e == Engine.Dash(g, pid, dir, o, now).error
    ensures e in {"player not found or not alive", "dash on cooldown", "invalid direction", "no available dash target"}
  {
    e := Engine.Dash(g, pid, dir, o, now).error;
  }

  lemma NotAliveModal()
    ensures Route("player not found or not alive") == Modal
  {
    var e := "player not found or not alive";
    NotAliveLower();
    Absent(e, "lobby not found", 2);
    Absent(e, "dash", 2);
    Absent(e, "invalid move", 8);
  }

  lemma NotAliveLower()
    ensures Lower("player not found or not alive") == "player not found or not alive"
  {
    LowerFixed("player not found or not alive");
  }

  lemma BadDirectionModal()
    ensures Route("invalid direction") == Modal
  {
    var e := "invalid direction";
    LowerFixed(e);
    Absent(e, "lobby not found", 2);
    Absent(e, "dash", 2);
    Absent(e, "invalid move", 8);
  }

  /** A missing lobby returns to the menu; the parser's direction error opens the modal. */
  lemma OtherErrorsRouted()
    ensures Route("lobby not found") == ToMenu
    ensures Route("invalid direction: north") == Modal
  {
    assert "lobby not found" <= "lobby not found"[0..];
    LowerFixed("invalid direction: north");
    Absent("invalid direction: north", "lobby not found", 2);
    Absent("invalid direction: north", "dash", 2);
    Absent("invalid direction: north", "invalid move", 8);
  }
}

=== FILE: decimal.dfy ===
/**
 Decimal text of integers, as Go's `%d` verb and JavaScript's
 `Number.prototype.toString` print them, together with the parser that
 inverts it.
 */
module Decimal {

  predicate IsDigit(c: char) {
    '0' <= c <= '9'
  }

  predicate AllDigits(s: string) {
    forall i :: 0 <= i < |s| ==> IsDigit(s[i])
  }

  function DigitChar(d: nat): (c: char)
    requires d < 10
    ensures IsDigit(c) && c as int - '0' as int == d
  {
    "0123456789"[d]
  }

  function DigitValue(c: char): (d: nat)
    requires IsDigit(c)
    ensures d < 10
  {
    c as int - '0' as int
  }

  /** Shortest decimal numeral of `n`: digits only, no leading zero. */
  function NatToString(n: nat): (s: string)
    ensures 1 <= |s| && AllDigits(s)
    ensures s[0] == '0' <==> n == 0
    ensures n < 10 <==> |s| == 1
  {
    if n < 10 then [DigitChar(n)] else NatToString(n / 10) + [DigitChar(n % 10)]
  }

  /** Value of a string of decimal digits (the empty string reads as 0). */
  function ParseNat(s: string): nat
    requires AllDigits(s)
  {
    if |s| == 0 then 0 else 10 * ParseNat(s[..|s| - 1]) + DigitValue(s[|s| - 1])
  }

  /** Printing then parsing gives the number back. */
  lemma {:induction false} ParseNatToString(n: nat)
    ensures ParseNat(NatToString(n)) == n
  {
    var s := NatToString(n);
    if n >= 10 {
      assert s[..|s| - 1] == NatToString(n / 10);
      ParseNatToString(n / 10);
    }
  }

  /** `%d` of a Go integer: a minus sign for negative values. */
  function IntToString(i: int): (s: string)
    ensures 1 <= |s|
    ensures i < 0 <==> s[0] == '-'
    ensures i >= 0 ==> AllDigits(s)
  {
    if i < 0 then "-" + NatToString(-i) else NatToString(i)
  }
}

=== FILE: dispatch.dfy ===
/**
 Message handling of backend/websocket.go: a checked command acts on the
 hub, the session tracker and the match registry. What the database
 answers and the clock are inputs (`World`); a start's roster and the
 requester's name are read from the tracker, as `getPlayersForLobby` and
 `GetPlayerSession` read them.
 */
module Dispatch {
  import opened Wrappers
  import opened Types
  import opened Engine
  import opened Registry
  import Lobby
  import Timers
  import Tracker
  import opened Orders
  import opened Sockets
  import opened Messages
  import opened Validation

  /** The server state a message can change. */
  datatype Server = Server(hub: Hub, tracker: Tracker.Tracker, reg: Registry)

  /**
   What the handlers read from outside: the registry's, the tracker's and
   the in-game map orders, the lobbies with a database row, what the join's
   queries return, a write error of the single-player start, the draws for
   a new match and the clock.
   */
  datatype World = World(
    gameOrder: seq<string>,
    sessionOrder: seq<string>,
    o: MapOrders,
    lobbyRows: set<string>,
    joinError: Option<string>,
    dbError: Option<string>,
    draws: Lobby.Draws,
    now: int)

  /** A write to a lobby's row: the join's, or the player count `leaveLobby` sets. */
  datatype Query = Joins(lobbyId: string, playerId: string) | Leaves(lobbyId: string, count: nat)

  datatype Handled = Handled(server: Server, events: seq<Event>, queries: seq<Query>)

  function ErrorFrame(text: string): Frame {
    Frame("error", Text(text))
  }

  /** `sendMessage` onto the handling connection. */
  function Reply(s: Server, self: string, f: Frame): Server {
    s.(hub := Send(s.hub, self, f))
  }

  /** The only effect of a refused message: the error frame back to the sender. */
  function Refuse(s: Server, self: string, text: string): Handled {
    Handled(Reply(s, self, ErrorFrame(text)), [], [])
  }

  /** `broadcastLobbyUpdate`: a lobby without a database row gets nothing. */
  function LobbyUpdate(s: Server, lobbyId: string, w: World): Server {
    if lobbyId in w.lobbyRows then s.(hub := BroadcastToLobby(s.hub, lobbyId, Frame("lobbyUpdate", LobbyOf(lobbyId))).hub)
    else s
  }

  /** The match state to everyone in the lobby. */
  function GameState(s: Server, lobbyId: string, gid: string): Server {
    s.(hub := BroadcastToLobby(s.hub, lobbyId, Frame("gameState", GameOf(gid))).hub)
  }

  /** One of the four in-game actions on the match that seats the player. */
  function Play(g: Game, pid: string, c: Command, w: World): (r: Result<Step, string>)
    requires IsGrid(g.board) && (c.Move? || c.PlaceBomb? || c.RemoteDetonate? || c.Dash?)
  {
    match c
    case Move(d) => MovePlayer(g, pid, d, w.o, w.now)
    case PlaceBomb => Engine.PlaceBomb(g, pid, w.o.bombs, w.now)
    case RemoteDetonate => Success(Engine.RemoteDetonate(g, pid, w.o.bombs))
    case Dash(d) => Engine.Dash(g, pid, d, w.o, w.now)
  }

  /** `handleMove`, `handlePlaceBomb`, `handleRemoteDetonate` and `handleDash`. */
  function InGame(s: Server, self: string, c: Command, w: World): (r: Handled)
    requires self in s.hub.conns && Timers.Grids(s.reg)
    requires c.Move? || c.PlaceBomb? || c.RemoteDetonate? || c.Dash?
  {
    var pid := s.hub.conns[self].playerId;
    match GameByPlayer(s.reg, w.gameOrder, pid)
    case None => Refuse(s, self, "Game not found")
    case Some(gid) =>
      var g := s.reg.games[gid];
      match Play(g, pid, c, w)
      case Failure(e) => Refuse(s, self, e)
      case Success(step) =>
        Handled(GameState(s.(reg := Timers.Refile(s.reg, gid, step.game)), g.lobbyId, gid), step.events, [])
  }

  /** A roster entry carries a session's id, name and AI flag. */
  function MemberOf(x: Tracker.Session): Lobby.Member {
    Lobby.Member(x.playerId, x.playerName, x.isAI)
  }

  /**
   `getPlayersForLobby`: the tracker's sessions of the lobby, each cut down
   to a roster entry. Every entry comes from a session of the lobby, and
   with a full iteration order every such session is on the roster.
   */
  function Roster(t: Tracker.Tracker, lobbyId: string, order: seq<string>): (r: seq<Lobby.Member>)
    ensures |r| == |Tracker.LobbyPlayers(t, lobbyId, order)|
    ensures forall m :: m in r ==> exists id :: id in t.sessions && t.sessions[id].lobbyId == lobbyId && MemberOf(t.sessions[id]) == m
    ensures Enumerates(order, t.sessions.Keys) ==>
              forall id :: id in t.sessions && t.sessions[id].lobbyId == lobbyId ==> MemberOf(t.sessions[id]) in r
  {
    var ss := Tracker.LobbyPlayers(t, lobbyId, order);
    var r := seq(|ss|, i requires 0 <= i < |ss| => MemberOf(ss[i]));
    assert forall m :: m in r ==> exists id :: id in t.sessions && t.sessions[id].lobbyId == lobbyId && MemberOf(t.sessions[id]) == m by {
      forall m | m in r ensures exists id :: id in t.sessions && t.sessions[id].lobbyId == lobbyId && MemberOf(t.sessions[id]) == m {
        var i :| 0 <= i < |r| && r[i] == m;
        assert ss[i] in ss;
      }
    }
    assert Enumerates(order, t.sessions.Keys) ==>
             forall id :: id in t.sessions && t.sessions[id].lobbyId == lobbyId ==> MemberOf(t.sessions[id]) in r by {
      if Enumerates(order, t.sessions.Keys) {
        forall id | id in t.sessions && t.sessions[id].lobbyId == lobbyId ensures MemberOf(t.sessions[id]) in r {
          var i :| 0 <= i < |ss| && ss[i] == t.sessions[id];
          assert r[i] == MemberOf(t.sessions[id]);
        }
      }
    }
    r
  }

  /** The name a start gives a requester missing from the roster: its session's, when it has one. */
  function SessionName(t: Tracker.Tracker, pid: string): (r: Option<string>)
    ensures r.Some? <==> pid in t.sessions
    ensures r.Some? ==> r.value == t.sessions[pid].playerName
  {
    if pid in t.sessions then Some(t.sessions[pid].playerName) else None
  }

  /**
   `leaveLobby`: while the player's session still holds a connection nothing
   is written; otherwise the lobby's row takes the number of sessions the
   tracker lists for the lobby.
   */
  function LeaveWrite(t: Tracker.Tracker, lobbyId: string, pid: string, order: seq<string>): (r: seq<Query>)
    ensures r == [] <==> pid in t.sessions && t.sessions[pid].sockets != {}
    ensures r != [] ==> r == [Leaves(lobbyId, |Tracker.LobbyPlayers(t, lobbyId, order)|)]
  {
    if pid in t.sessions && t.sessions[pid].sockets != {} then []
    else [Leaves(lobbyId, |Tracker.LobbyPlayers(t, lobbyId, order)|)]
  }

  /** The outcome of a start: its error back to the sender, or the new match to the lobby. */
  function Started(s: Server, self: string, lobbyId: string, st: Lobby.Started): Handled {
    match st.result
    case Failure(e) => Refuse(s.(reg := st.reg), self, e)
    case Success(gid) => Handled(GameState(s.(reg := st.reg), lobbyId, gid), st.events, [])
  }

  /** `handleJoinLobby` once the payload passed: bind the connection, track the session, join. */
  function Join(s: Server, self: string, lobbyId: string, pid: string, name: string, w: World): (r: Handled)
    requires self in s.hub.conns
  {
    var c := s.hub.conns[self].(lobbyId := lobbyId, playerId := pid);
    var tracked := Tracker.Register(s.tracker, pid, lobbyId, name, self, false, w.now);
    var bound := Server(Hub(s.hub.conns[self := c]), tracked, s.reg);
    match w.joinError
    case Some(e) =>
      var t := if Contains(e, "lobby not found") || Contains(e, "lobby is full") then Tracker.Unregister(tracked, pid, self) else tracked;
      Handled(Reply(bound.(tracker := t), self, ErrorFrame(e)), [], [Joins(lobbyId, pid)])
    case None => Handled(LobbyUpdate(bound, lobbyId, w), [], [Joins(lobbyId, pid)])
  }

  /** `handleRestartGame`: the lobby's match is dropped, then a new one is started as `startGame` does. */
  function Restart(s: Server, self: string, lobbyId: string, pid: string, w: World): (r: Handled)
    requires self in s.hub.conns
  {
    var cleared := match GameByLobby(s.reg, w.gameOrder, lobbyId)
                   case Some(gid) => Cleanup(s.reg, gid)
                   case None => s.reg;
    Started(s, self, lobbyId, Lobby.StartGame(cleared, lobbyId, pid, Roster(s.tracker, lobbyId, w.sessionOrder),
                                              SessionName(s.tracker, pid), w.draws, w.now))
  }

  /** A checked command acts on the server. */
  function Run(s: Server, self: string, c: Command, w: World): (r: Handled)
    requires self in s.hub.conns && Timers.Grids(s.reg)
  {
    match c
    case JoinLobby(lobbyId, pid, name) => Join(s, self, lobbyId, pid, name, w)
    case JoinGame(lobbyId) =>
      (match GameByLobby(s.reg, w.gameOrder, lobbyId)
       case Some(gid) => Handled(Reply(s, self, Frame("gameState", GameOf(gid))), [], [])
       case None => Refuse(s, self, "Game not found"))
    case StartGame(lobbyId, pid) =>
      (match GameByLobby(s.reg, w.gameOrder, lobbyId)
       case Some(gid) => Handled(GameState(s, lobbyId, gid), [], [])
       case None =>
         Started(s, self, lobbyId, Lobby.StartGame(s.reg, lobbyId, pid, Roster(s.tracker, lobbyId, w.sessionOrder),
                                                   SessionName(s.tracker, pid), w.draws, w.now)))
    case StartSinglePlayer(lobbyId, pid) =>
      (match GameByLobby(s.reg, w.gameOrder, lobbyId)
       case Some(gid) => Handled(Reply(s, self, Frame("gameState", GameOf(gid))), [], [])
       case None =>
         var lobby := if lobbyId in w.lobbyRows then Some(Roster(s.tracker, lobbyId, w.sessionOrder)) else None;
         Started(s, self, lobbyId, Lobby.StartSinglePlayer(s.reg, lobbyId, pid, lobby, SessionName(s.tracker, pid), w.dbError, w.draws, w.now)))
    case LeaveLobby(lobbyId, pid) =>
      var written := LeaveWrite(s.tracker, lobbyId, pid, w.sessionOrder);
      var left := LobbyUpdate(s.(tracker := Tracker.Unregister(s.tracker, pid, self)), lobbyId, w);
      Handled(Reply(left, self, Frame("left", Text("Successfully left lobby"))), [], written)
    case Move(_) => InGame(s, self, c, w)
    case PlaceBomb => InGame(s, self, c, w)
    case RemoteDetonate => InGame(s, self, c, w)
    case Dash(_) => InGame(s, self, c, w)
    case RestartGame(lobbyId, pid) => Restart(s, self, lobbyId, pid, w)
    case UpdatePlayerName(pid, name) =>
      var named := s.(tracker := Tracker.UpdateName(s.tracker, pid, name, w.now));
      var told := if s.hub.conns[self].lobbyId != "" then LobbyUpdate(named, s.hub.conns[self].lobbyId, w) else named;
      Handled(Reply(told, self, Frame("playerNameUpdated", Text("Player name updated successfully"))), [], [])
    case RequestLobbyUpdate(lobbyId) => Handled(LobbyUpdate(s, lobbyId, w), [], [])
    case RequestPlayerInfo(pid) =>
      if pid in s.tracker.sessions then
        Handled(Reply(s, self, Frame("playerInfo", PlayerInfo(s.tracker.sessions[pid].playerName))), [], [])
      else Refuse(s, self, "Player not found")
    case Ping =>
      var pid := s.hub.conns[self].playerId;
      var beat := if pid != "" then s.(tracker := Tracker.UpdateHeartbeat(s.tracker, pid, w.now)) else s;
      Handled(Reply(beat, self, Frame("pong", Text("pong"))), [], [])
  }

  /** `handleMessage` on the connection `self`. */
  function Handle(s: Server, self: string, m: Message, w: World): (r: Handled)
    requires self in s.hub.conns && Timers.Grids(s.reg)
  {
    match Parse(m)
    case Failure(e) => Refuse(s, self, e)
    case Success(c) => Run(s, self, c, w)
  }

  /** A message of a type `handleMessage` does not know gets the error frame and changes nothing else. */
  lemma UnknownTypeRefused(s: Server, self: string, m: Message, w: World)
    requires self in s.hub.conns && Timers.Grids(s.reg)
    requires forall k: Tag :: TagName(k) != m.msgType
    ensures Handle(s, self, m, w) == Refuse(s, self, "Unknown message type: " + m.msgType)
  {
  }

  /** A message its handler's checks refuse leaves the tracker, the registry and every other queue alone. */
  lemma RefusalOnlyReplies(s: Server, self: string, m: Message, w: World)
    requires self in s.hub.conns && Timers.Grids(s.reg)
    requires Parse(m).Failure?
    ensures var r := Handle(s, self, m, w);
            && r.server.tracker == s.tracker && r.server.reg == s.reg && r.events == [] && r.queries == []
            && r.server.hub.conns.Keys == s.hub.conns.Keys
            && (forall id :: id in s.hub.conns && id != self ==> r.server.hub.conns[id] == s.hub.conns[id])
            && r.server.hub.conns[self] == Offer(s.hub.conns[self], ErrorFrame(Parse(m).error))
  {
  }

  /** A move in a direction outside the four words is refused with the validator's error before any game is looked at. */
  lemma BadMoveRefused(s: Server, self: string, p: Json, d: string, w: World)
    requires self in s.hub.conns && Timers.Grids(s.reg)
    requires p.JObj? && "direction" in p.fields && p.fields["direction"] == JStr(d) && ParseDir(d).None?
    ensures Handle(s, self, Message("move", p), w) == Refuse(s, self, "invalid direction: " + d)
  {
    MoveChecked(p, d);
  }

  /**
   A join binds the connection to the lobby and the player and tracks the
   session. When the database says the lobby is missing or full, the
   tracking is undone, so a player new to the tracker leaves no trace.
   */
  lemma JoinTracks(s: Server, self: string, lobbyId: string, pid: string, name: string, w: World)
    requires self in s.hub.conns
    ensures var r := Join(s, self, lobbyId, pid, name, w);
            && self in r.server.hub.conns
            && r.server.hub.conns[self].lobbyId == lobbyId && r.server.hub.conns[self].playerId == pid
            && r.server.reg == s.reg && r.events == [] && r.queries == [Joins(lobbyId, pid)]
    ensures var r := Join(s, self, lobbyId, pid, name, w);
            w.joinError.None? ==> r.server.tracker == Tracker.Register(s.tracker, pid, lobbyId, name, self, false, w.now)
    ensures var r := Join(s, self, lobbyId, pid, name, w);
            (&& w.joinError.Some? && Contains(w.joinError.value, "lobby is full")
             && pid !in s.tracker.sessions && pid !in s.tracker.heartbeats) ==> r.server.tracker == s.tracker
  {
    if w.joinError.Some? && Contains(w.joinError.value, "lobby is full") && pid !in s.tracker.sessions && pid !in s.tracker.heartbeats {
      Tracker.RegisterUnregister(s.tracker, pid, lobbyId, name, self, false, w.now);
    }
  }

  /**
   A player new to the tracker whose join the database accepts is on the
   roster of every later start in that lobby, under the name it joined with.
   */
  lemma JoinedOnRoster(s: Server, self: string, lobbyId: string, pid: string, name: string, w: World, order: seq<string>)
    requires self in s.hub.conns && w.joinError.None? && pid !in s.tracker.sessions
    requires Enumerates(order, Join(s, self, lobbyId, pid, name, w).server.tracker.sessions.Keys)
    ensures var t := Join(s, self, lobbyId, pid, name, w).server.tracker;
            && Lobby.Member(pid, name, false) in Roster(t, lobbyId, order)
            && SessionName(t, pid) == Some(name)
  {
    JoinTracks(s, self, lobbyId, pid, name, w);
    var t := Join(s, self, lobbyId, pid, name, w).server.tracker;
    assert t.sessions[pid].lobbyId == lobbyId && MemberOf(t.sessions[pid]) == Lobby.Member(pid, name, false);
  }

  /**
   `handleLeaveLobby` asks `leaveLobby` before it unregisters the connection,
   so a player leaving from its only connection, the one it joined with,
   drops out of the tracker while nothing is written to the lobby's row.
   */
  lemma LeaveSkipsCount(s: Server, self: string, lobbyId: string, pid: string, w: World)
    requires self in s.hub.conns && Timers.Grids(s.reg)
    requires pid in s.tracker.sessions && s.tracker.sessions[pid].sockets == {self}
    ensures var r := Run(s, self, LeaveLobby(lobbyId, pid), w);
            r.queries == [] && pid !in r.server.tracker.sessions
  {
  }

  /** `handleLeaveLobby` with the connection unregistered before `leaveLobby`, the order the connection's close takes. */
  function LeaveCounted(s: Server, self: string, lobbyId: string, pid: string, w: World): (r: Handled)
    requires self in s.hub.conns
    ensures r.server.tracker == Tracker.Unregister(s.tracker, pid, self)
    ensures r.events == []
  {
    var t := Tracker.Unregister(s.tracker, pid, self);
    var left := LobbyUpdate(s.(tracker := t), lobbyId, w);
    Handled(Reply(left, self, Frame("left", Text("Successfully left lobby"))), [], LeaveWrite(t, lobbyId, pid, w.sessionOrder))
  }

  /**
   Leaving in that order writes the lobby's row exactly when the player has
   no connection left, and then writes the count of the sessions the tracker
   still lists for the lobby, which no longer include the player's.
   */
  lemma LeaveCountedRefreshes(s: Server, self: string, lobbyId: string, pid: string, w: World)
    requires self in s.hub.conns
    ensures var r := LeaveCounted(s, self, lobbyId, pid, w);
            r.queries != [] <==> pid !in r.server.tracker.sessions
    ensures var r := LeaveCounted(s, self, lobbyId, pid, w);
            r.queries != [] ==> r.queries == [Leaves(lobbyId, |Tracker.LobbyPlayers(r.server.tracker, lobbyId, w.sessionOrder)|)]
    ensures var r := LeaveCounted(s, self, lobbyId, pid, w);
            pid in s.tracker.sessions && s.tracker.sessions[pid].sockets == {self} ==> |r.queries| == 1
  {
  }

  /**
   `startGame` on a lobby that already has a match sends that match to the
   lobby and creates nothing.
   */
  lemma StartReusesMatch(s: Server, self: string, lobbyId: string, pid: string, w: World, gid: string)
    requires self in s.hub.conns && Timers.Grids(s.reg)
    requires GameByLobby(s.reg, w.gameOrder, lobbyId) == Some(gid)
    ensures Run(s, self, StartGame(lobbyId, pid), w) == Handled(GameState(s, lobbyId, gid), [], [])
  {
  }

  /** `startSinglePlayer` on a lobby that already has a match sends that match to the asker only and creates nothing. */
  lemma SingleReusesMatch(s: Server, self: string, lobbyId: string, pid: string, w: World, gid: string)
    requires self in s.hub.conns && Timers.Grids(s.reg)
    requires GameByLobby(s.reg, w.gameOrder, lobbyId) == Some(gid)
    ensures Run(s, self, StartSinglePlayer(lobbyId, pid), w) == Handled(Reply(s, self, Frame("gameState", GameOf(gid))), [], [])
  {
  }

  /**
   `restartGame` always drops the lobby's match first: with players the new
   match is then the lobby's only one; with an empty roster the start is
   refused and the first match found stays dropped.
   */
  lemma RestartReplaces(s: Server, self: string, lobbyId: string, pid: string, w: World)
    requires self in s.hub.conns
    ensures var r := Restart(s, self, lobbyId, pid, w);
            |Roster(s.tracker, lobbyId, w.sessionOrder)| > 0 ==> Lobby.Replaced(s.reg, r.server.reg, lobbyId, w.draws.gameId) && r.events == Lobby.MatchTimers(lobbyId, w.now)
    ensures var r := Restart(s, self, lobbyId, pid, w);
            |Roster(s.tracker, lobbyId, w.sessionOrder)| == 0 && GameByLobby(s.reg, w.gameOrder, lobbyId).Some? ==>
              && r.server.reg == Cleanup(s.reg, GameByLobby(s.reg, w.gameOrder, lobbyId).value)
              && r == Refuse(s.(reg := r.server.reg), self, "no players in lobby")
  {
    var cleared := match GameByLobby(s.reg, w.gameOrder, lobbyId)
                   case Some(gid) => Cleanup(s.reg, gid)
                   case None => s.reg;
    var roster := Roster(s.tracker, lobbyId, w.sessionOrder);
    if |roster| > 0 {
      var st := Lobby.StartGame(cleared, lobbyId, pid, roster, SessionName(s.tracker, pid), w.draws, w.now);
      assert Lobby.Replaced(cleared, st.reg, lobbyId, w.draws.gameId);
      ReplacedThroughCleanup(s.reg, cleared, st.reg, lobbyId, w.draws.gameId, GameByLobby(s.reg, w.gameOrder, lobbyId));
    }
  }

  /** Removing one of the lobby's games before a replacement changes nothing about the outcome. */
  lemma ReplacedThroughCleanup(reg: Registry, cleared: Registry, r: Registry, lobbyId: string, gid: string, first: Option<string>)
    requires first.Some? ==> first.value in reg.games && reg.games[first.value].lobbyId == lobbyId && cleared == Cleanup(reg, first.value)
    requires first.None? ==> cleared == reg
    requires Lobby.Replaced(cleared, r, lobbyId, gid)
    ensures Lobby.Replaced(reg, r, lobbyId, gid)
  {
  }

  /** In-game commands leave the sessions and the set of matches alone, and without a match they are refused. */
  lemma InGameFrame(s: Server, self: string, c: Command, w: World)
    requires self in s.hub.conns && Timers.Grids(s.reg)
    requires c.Move? || c.PlaceBomb? || c.RemoteDetonate? || c.Dash?
    ensures var r := InGame(s, self, c, w);
            && r.server.tracker == s.tracker && r.queries == []
            && r.server.reg.games.Keys == s.reg.games.Keys
            && (GameByPlayer(s.reg, w.gameOrder, s.hub.conns[self].playerId).None? ==> r == Refuse(s, self, "Game not found"))
  {
  }

  /** Every match but the one seating the player is left as it was. */
  lemma InGameOthers(s: Server, self: string, c: Command, w: World)
    requires self in s.hub.conns && Timers.Grids(s.reg)
    requires c.Move? || c.PlaceBomb? || c.RemoteDetonate? || c.Dash?
    ensures var r := InGame(s, self, c, w);
            forall id :: id in s.reg.games && Some(id) != GameByPlayer(s.reg, w.gameOrder, s.hub.conns[self].playerId) ==>
              r.server.reg.games[id] == s.reg.games[id]
  {
  }

  // ---------------------------------------------------------------- timers

  /** Every frame a timer sent, in order, to its lobby. */
  function Deliver(h: Hub, sent: seq<Timers.Broadcast>): (r: Hub)
    ensures r.conns.Keys == h.conns.Keys
    ensures sent == [] ==> r == h
    ensures |sent| == 1 ==> r == BroadcastToLobby(h, sent[0].lobbyId, sent[0].frame).hub
    decreases |sent|
  {
    if |sent| == 0 then h
    else Deliver(BroadcastToLobby(h, sent[0].lobbyId, sent[0].frame).hub, sent[1..])
  }

  /**
   A timer of the game object `gid` fires: the registry takes its work and
   its frames reach the lobby. The sessions and the set of connections stay,
   and a sound registry stays sound.
   */
  function Tick(s: Server, gid: string, e: Event, env: Timers.Env): (r: Handled)
    requires Timers.Grids(s.reg)
    ensures var f := Timers.Fire(s.reg, gid, e, env);
            r == Handled(Server(Deliver(s.hub, f.sent), s.tracker, f.reg), f.events, [])
    ensures r.server.tracker == s.tracker && r.server.hub.conns.Keys == s.hub.conns.Keys
    ensures Sound(s.reg) ==> Sound(r.server.reg)
  {
    var f := Timers.Fire(s.reg, gid, e, env);
    if Sound(s.reg) then
      Timers.FireKeeps(s.reg, gid, e, env);
      Handled(Server(Deliver(s.hub, f.sent), s.tracker, f.reg), f.events, [])
    else
      Handled(Server(Deliver(s.hub, f.sent), s.tracker, f.reg), f.events, [])
  }

  /**
   After a restart, the wave of the replaced match still fires: the new
   registry stays as it is, and every connection of the lobby with room
   receives the old match's powerups, while the lobby plays the new match.
   */
  lemma OldWaveReachesLobby(s: Server, lobbyId: string, requester: string, roster: seq<Lobby.Member>,
                            requesterName: Option<string>, draws: Lobby.Draws, now: int, stale: string,
                            due: int, env: Timers.Env)
    requires Sound(s.reg) && |roster| > 0
    requires stale in s.reg.games && s.reg.games[stale].lobbyId == lobbyId && stale != draws.gameId
    ensures var restarted := s.(reg := Lobby.StartGame(s.reg, lobbyId, requester, roster, requesterName, draws, now).reg);
            Timers.Grids(restarted.reg) &&
            var r := Tick(restarted, stale, PowerupWave(lobbyId, due), env).server;
            && r.reg == restarted.reg
            && r.hub.conns.Keys == s.hub.conns.Keys
            && forall id :: id in s.hub.conns && s.hub.conns[id].lobbyId == lobbyId && HasRoom(s.hub.conns[id]) ==>
                 r.hub.conns[id].queue == s.hub.conns[id].queue + [Frame("powerupSpawn", PowerupsOf(stale))]
  {
    Timers.OldTimersAfterRestart(s.reg, lobbyId, requester, roster, requesterName, draws, now, stale, PowerupWave(lobbyId, due), env);
  }
}

=== FILE: engine.dfy ===
/**
 Player actions of the match engine (backend/game.go): moving and pushing
 bombs, dashing, placing and remotely detonating bombs, collecting and
 expiring powerups, respawning, scoring and end-of-match winner selection.

 Each action is a pure transition from one `Game` to the next. Work the Go
 code hands to goroutines or timers (`go g.explodeBomb`, the sleep before
 `expirePowerup`) comes back as `Event`s for the environment to fire later.
 */
module Engine {
  import opened Wrappers
  import opened Orders
  import opened Types
  import Decimal

  const DashCooldown := 7000
  const HazardLifetime := 500
  const KillPoints := 250
  const RespawnPenalty := 100

  /** Deferred work produced by a transition. */
  datatype Event =
    | Detonate(bombId: string)
    | ExpireEffect(playerId: string, kind: string, dueAt: int)
    | ClearHazards(bombId: string, hazardIds: seq<string>, dueAt: int)
    | Teardown(gameId: string, dueAt: int)
    | PowerupWave(lobbyId: string, dueAt: int)
    | MatchEnd(lobbyId: string, dueAt: int)

  /** A successor state and the work it scheduled. */
  datatype Step = Step(game: Game, events: seq<Event>)

  /** The iteration orders of the game's maps during one operation. */
  datatype MapOrders = MapOrders(players: seq<string>, bombs: seq<string>, powerups: seq<string>)

  predicate OrdersFor(o: MapOrders, g: Game) {
    && Enumerates(o.players, g.players.Keys)
    && Enumerates(o.bombs, g.bombs.Keys)
    && Enumerates(o.powerups, g.powerups.Keys)
  }

  function Max(a: int, b: int): int {
    if a >= b then a else b
  }

  // ------------------------------------------------------------- player state

  /** `respawnPlayer` on one record: back to spawn, never marked dead. */
  function Respawn(p: Player): (r: Player)
    ensures r.alive && !r.shield && r.bombCount == 0
    ensures r.position == p.spawnPosition
    ensures 0 <= r.score && r.score >= p.score - RespawnPenalty && (p.score >= RespawnPenalty ==> r.score == p.score - RespawnPenalty)
    ensures p.score <= RespawnPenalty ==> r.score == 0
    ensures r == p.(score := r.score, position := r.position, alive := true, bombCount := 0, shield := false)
  {
    p.(score := Max(0, p.score - RespawnPenalty), position := p.spawnPosition, alive := true, bombCount := 0, shield := false)
  }

  /** The blast rule for one hit player: a shield absorbs it, otherwise respawn. */
  function Hit(p: Player): Player {
    if p.shield then p.(shield := false) else Respawn(p)
  }

  /** `respawnPlayer`: a no-op for an unknown id. */
  function RespawnPlayer(g: Game, pid: string): (r: Game)
    ensures pid !in g.players ==> r == g
    ensures pid in g.players ==> r == g.(players := g.players[pid := Respawn(g.players[pid])])
  {
    if pid in g.players then g.(players := g.players[pid := Respawn(g.players[pid])]) else g
  }

  // ------------------------------------------------------------- powerups

  /** Level 2 effects last 10 seconds, every other level 30. */
  function EffectDuration(level: int): int {
    if level == 2 then 10000 else 30000
  }

  /** Everything but the powerups and one player's effect fields stays put. */
  predicate EffectFrame(g: Game, r: Game, pid: string) {
    && r.id == g.id && r.lobbyId == g.lobbyId && r.board == g.board
    && r.bombs == g.bombs && r.explosions == g.explosions
    && r.status == g.status && r.startTime == g.startTime && r.endTime == g.endTime && r.winner == g.winner
    && r.players.Keys == g.players.Keys
    && (forall id :: id in g.players && id != pid ==> r.players[id] == g.players[id])
    && (pid in g.players ==>
         var p := g.players[pid];
         var q := r.players[pid];
         q == p.(powerups := q.powerups, bombRange := q.bombRange, shield := q.shield))
  }

  /**
   `collectPowerup`: a player holding any effect cannot take a second
   non-shield powerup; otherwise the effect is recorded, applied, the powerup
   leaves the board and its expiry is scheduled.
   */
  function CollectPowerup(g: Game, pid: string, puid: string, now: int): (r: Step)
    ensures EffectFrame(g, r.game, pid)
    ensures r.game.powerups.Keys <= g.powerups.Keys
    ensures forall id :: id in r.game.powerups ==> r.game.powerups[id] == g.powerups[id]
    ensures (puid !in g.powerups || pid !in g.players
             || (|g.players[pid].powerups| >= 1 && g.powerups[puid].kind != ShieldKind)) ==> r == Step(g, [])
    ensures puid in g.powerups && pid in g.players
            && !(|g.players[pid].powerups| >= 1 && g.powerups[puid].kind != ShieldKind) ==>
              var pu := g.powerups[puid];
              var p := g.players[pid];
              var q := r.game.players[pid];
              var due := now + EffectDuration(pu.level);
              && r.game.powerups == g.powerups - {puid}
              && q.powerups == p.powerups[pu.kind := PlayerPowerup(pu.kind, pu.level, due)]
              && q.bombRange == (if pu.kind == BombRangeKind then (if pu.level == 1 then 2 else 3) else p.bombRange)
              && q.shield == (pu.kind == ShieldKind || p.shield)
              && r.events == [ExpireEffect(pid, pu.kind, due)]
  {
    if puid !in g.powerups || pid !in g.players then Step(g, [])
    else
      var pu := g.powerups[puid];
      var p := g.players[pid];
      if |p.powerups| >= 1 && pu.kind != ShieldKind then Step(g, [])
      else
        var due := now + EffectDuration(pu.level);
        Step(g.(players := g.players[pid := Apply(p, pu, due)], powerups := g.powerups - {puid}), [ExpireEffect(pid, pu.kind, due)])
  }

  /** The player after taking powerup `pu` with an effect running until `due`. */
  function Apply(p: Player, pu: Powerup, due: int): (q: Player)
    ensures q.powerups == p.powerups[pu.kind := PlayerPowerup(pu.kind, pu.level, due)]
    ensures q.bombRange == (if pu.kind == BombRangeKind then (if pu.level == 1 then 2 else 3) else p.bombRange)
    ensures q.shield == (pu.kind == ShieldKind || p.shield)
    ensures q == p.(powerups := q.powerups, bombRange := q.bombRange, shield := q.shield)
  {
    var p1 := p.(powerups := p.powerups[pu.kind := PlayerPowerup(pu.kind, pu.level, due)]);
    if pu.kind == BombRangeKind then p1.(bombRange := if pu.level == 1 then 2 else 3)
    else if pu.kind == ShieldKind then p1.(shield := true)
    else p1
  }

  /**
   What a pickup run over the ids `order` at `pos` does: only the player's
   effects change, only listed powerups lying at `pos` are taken, a listed
   one at `pos` stays only when the player was absent or already held an
   effect and it is no shield, and effects are only ever added.
   */
  predicate Collected(g: Game, r: Game, pid: string, pos: Position, order: seq<string>) {
    && EffectFrame(g, r, pid)
    && r.powerups.Keys <= g.powerups.Keys
    && (forall id :: id in r.powerups ==> r.powerups[id] == g.powerups[id])
    && (forall id :: id in g.powerups && id !in r.powerups ==> g.powerups[id].position == pos && id in order)
    && (forall id :: id in r.powerups && r.powerups[id].position == pos && id in order ==>
          pid !in g.players || (|r.players[pid].powerups| >= 1 && r.powerups[id].kind != ShieldKind))
    && (pid in g.players ==> g.players[pid].powerups.Keys <= r.players[pid].powerups.Keys)
  }

  /** One round of the pickup loop. */
  lemma CollectOne(g: Game, pid: string, pos: Position, id: string, now: int)
    ensures var s := if id in g.powerups && g.powerups[id].position == pos then CollectPowerup(g, pid, id, now) else Step(g, []);
            Collected(g, s.game, pid, pos, [id])
  {
  }

  /** Two pickup runs in a row are one run over both lists. */
  lemma CollectJoin(g: Game, s: Game, r: Game, pid: string, pos: Position, a: seq<string>, b: seq<string>)
    requires Collected(g, s, pid, pos, a) && Collected(s, r, pid, pos, b)
    ensures Collected(g, r, pid, pos, a + b)
  {
  }

  /**
   The pickup loop run after a player lands on `pos`: every powerup at `pos`,
   visited in `order`, is offered to the player.
   */
  function CollectAt(g: Game, pid: string, pos: Position, order: seq<string>, now: int): (r: Step)
    ensures Collected(g, r.game, pid, pos, order)
    decreases |order|
  {
    if |order| == 0 then Step(g, [])
    else
      var id := order[0];
      var s := if id in g.powerups && g.powerups[id].position == pos then CollectPowerup(g, pid, id, now) else Step(g, []);
      var rest := CollectAt(s.game, pid, pos, order[1..], now);
      CollectOne(g, pid, pos, id, now);
      CollectJoin(g, s.game, rest.game, pid, pos, [id], order[1..]);
      assert [id] + order[1..] == order;
      Step(rest.game, s.events + rest.events)
  }

  /**
   `expirePowerup` on the game: the effect entry goes and the boost it gave
   is reset (range back to 1, shield off). Unknown players are ignored.
   */
  function ExpirePowerup(g: Game, pid: string, kind: string): (r: Game)
    ensures EffectFrame(g, r, pid) && r.powerups == g.powerups
    ensures pid !in g.players ==> r == g
    ensures pid in g.players ==>
              var p := g.players[pid];
              var q := r.players[pid];
              && q.powerups == p.powerups - {kind}
              && q.bombRange == (if kind == BombRangeKind then 1 else p.bombRange)
              && q.shield == (if kind == ShieldKind then false else p.shield)
  {
    if pid !in g.players then g
    else
      var p := g.players[pid];
      var p1 := p.(powerups := p.powerups - {kind});
      var p2 :=
        if kind == BombRangeKind then p1.(bombRange := 1)
        else if kind == ShieldKind then p1.(shield := false)
        else p1;
      g.(players := g.players[pid := p2])
  }

  // ------------------------------------------------------------- movement

  /** `getNewPosition`: one step, or no step for an unknown direction. */
  function GetNewPosition(pos: Position, dir: string): (r: Position)
    ensures ParseDir(dir).None? ==> r == pos
    ensures ParseDir(dir).Some? ==> r == Shift(pos, ParseDir(dir).value, 1)
  {
    match ParseDir(dir)
    case Some(d) => Shift(pos, d, 1)
    case None => pos
  }

  /** `isValidMove`: in bounds, empty terrain, and no bomb of another player. */
  predicate IsValidMove(g: Game, pid: string, dir: string)
    requires IsGrid(g.board)
  {
    && pid in g.players
    && ParseDir(dir).Some?
    && var np := Shift(g.players[pid].position, ParseDir(dir).value, 1);
    && InBounds(g.board, np)
    && Cell(g.board, np) == Empty
    && (forall id :: id in g.bombs && g.bombs[id].position == np ==> g.bombs[id].playerId == pid)
  }

  /** First bomb at `pos` in iteration order. */
  function FirstBombAt(bombs: map<string, Bomb>, order: seq<string>, pos: Position): (r: Option<string>)
    ensures r.Some? ==> r.value in bombs && bombs[r.value].position == pos && r.value in order
    ensures r.None? ==> forall i :: 0 <= i < |order| && order[i] in bombs ==> bombs[order[i]].position != pos
  {
    if |order| == 0 then None
    else if order[0] in bombs && bombs[order[0]].position == pos then Some(order[0])
    else FirstBombAt(bombs, order[1..], pos)
  }

  /** Nothing but player `pid`'s position and effects and the powerups differ. */
  predicate MoveFrame(g: Game, r: Game, pid: string) {
    && r.id == g.id && r.lobbyId == g.lobbyId && r.board == g.board && r.explosions == g.explosions
    && r.status == g.status && r.startTime == g.startTime && r.endTime == g.endTime && r.winner == g.winner
    && r.players.Keys == g.players.Keys
    && (forall id :: id in g.players && id != pid ==> r.players[id] == g.players[id])
    && (pid in g.players ==>
         var p := g.players[pid];
         var q := r.players[pid];
         q == p.(position := q.position, powerups := q.powerups, bombRange := q.bombRange, shield := q.shield, lastDash := q.lastDash))
    && r.powerups.Keys <= g.powerups.Keys
    && (forall id :: id in r.powerups ==> r.powerups[id] == g.powerups[id])
  }

  /**
   `movePlayer`. Onto empty terrain the move always succeeds, bomb or not.
   Onto any other cell it succeeds only as a push of a bomb lying there into
   the empty, bomb-free cell beyond; everything else is "invalid move".
   */
  function MovePlayer(g: Game, pid: string, dir: string, o: MapOrders, now: int): (r: Result<Step, string>)
    requires IsGrid(g.board)
    ensures pid !in g.players ==> r == Failure("player not found")
    ensures pid in g.players && !g.players[pid].alive ==> r == Failure("player not alive")
    ensures pid in g.players && g.players[pid].alive && ParseDir(dir).None? ==> r == Failure("invalid direction")
    ensures pid in g.players && g.players[pid].alive && ParseDir(dir).Some? ==>
              var np := Shift(g.players[pid].position, ParseDir(dir).value, 1);
              && (!InBounds(g.board, np) ==> r == Failure("invalid move"))
              && (InBounds(g.board, np) && Cell(g.board, np) == Empty ==>
                    r.Success? && r.value.game.bombs == g.bombs)
    ensures r.Failure? ==> r.error in {"player not found", "player not alive", "invalid direction", "invalid move"}
    ensures r.Success? ==>
              && pid in g.players && MoveFrame(g, r.value.game, pid)
              && r.value.game.players[pid].position == Shift(g.players[pid].position, ParseDir(dir).value, 1)
              && r.value.game.players[pid].lastDash == g.players[pid].lastDash
  {
    if pid !in g.players then Failure("player not found")
    else
      var p := g.players[pid];
      if !p.alive then Failure("player not alive")
      else match ParseDir(dir)
        case None => Failure("invalid direction")
        case Some(d) =>
          var np := Shift(p.position, d, 1);
          if !InBounds(g.board, np) then Failure("invalid move")
          else if Cell(g.board, np) == Empty then
            Success(Land(g, pid, p.(position := np), o.powerups, now))
          else match FirstBombAt(g.bombs, o.bombs, np)
            case None => Failure("invalid move")
            case Some(bid) =>
              var pp := Shift(np, d, 1);
              if !InBounds(g.board, pp) || Cell(g.board, pp) != Empty || BombAt(g, pp) then Failure("invalid move")
              else
                var pushed := g.(bombs := g.bombs[bid := g.bombs[bid].(position := pp)]);
                Success(Land(pushed, pid, p.(position := np), o.powerups, now))
  }

  /**
   Putting player `pid` down as `p1` (a new position or dash time) and
   running the pickup loop on its cell.
   */
  function Land(g: Game, pid: string, p1: Player, order: seq<string>, now: int): (r: Step)
    requires pid in g.players
    requires p1 == g.players[pid].(position := p1.position, lastDash := p1.lastDash)
    ensures MoveFrame(g, r.game, pid) && r.game.bombs == g.bombs
    ensures r.game.players[pid].position == p1.position && r.game.players[pid].lastDash == p1.lastDash
  {
    var s := CollectAt(g.(players := g.players[pid := p1]), pid, p1.position, order, now);
    EffectAfterUpdate(g, pid, p1, s.game);
    s
  }

  // ------------------------------------------------------------- dash

  /** A dash may pass a cell that is on the board, empty terrain and bomb-free. */
  predicate DashClear(g: Game, p: Position)
    requires IsGrid(g.board)
  {
    InBounds(g.board, p) && Cell(g.board, p) == Empty && !BombAt(g, p)
  }

  function Abs(x: int): nat {
    if x < 0 then -x else x
  }

  /** Past this many steps every ray has left the board. */
  function DashBound(g: Game, cur: Position): nat {
    Abs(cur.row) + Abs(cur.col) + |g.board| + (if |g.board| > 0 then |g.board[0]| else 0)
  }

  /**
   The dash scan from step `i` on: the last step `k` such that every step
   from `i` to `k` is clear, with step `k + 1` not clear.
   */
  function DashReach(g: Game, cur: Position, d: Dir, i: nat): (k: nat)
    requires IsGrid(g.board) && i >= 1
    ensures i - 1 <= k
    ensures forall j :: i <= j <= k ==> DashClear(g, Shift(cur, d, j))
    ensures !DashClear(g, Shift(cur, d, k + 1))
    decreases DashBound(g, cur) - i
  {
    if DashClear(g, Shift(cur, d, i)) then DashReach(g, cur, d, i + 1) else i - 1
  }

  /** `dest` is `k >= 1` steps out, every step up to it is clear and the next is not. */
  ghost predicate DashLanding(g: Game, from: Position, d: Dir, dest: Position)
    requires IsGrid(g.board)
  {
    exists k :: k >= 1 && dest == Shift(from, d, k) && ClearRun(g, from, d, k) && !DashClear(g, Shift(from, d, k + 1))
  }

  /** Steps 1 to `k` from `from` are all clear. */
  predicate ClearRun(g: Game, from: Position, d: Dir, k: int)
    requires IsGrid(g.board)
  {
    forall j :: 1 <= j <= k ==> DashClear(g, Shift(from, d, j))
  }

  /** A live player whose last dash, if any, was at least the cooldown ago. */
  predicate DashReady(g: Game, pid: string, now: int) {
    && pid in g.players && g.players[pid].alive
    && !(g.players[pid].lastDash.Some? && now - g.players[pid].lastDash.value < DashCooldown)
  }

  /**
   `dash`: the cooldown is checked before the direction. A ready player with
   a direction word dashes exactly when the first step is on the board, empty
   terrain and free of bombs; it lands on the furthest cell of the clear run
   and only then is the dash time reset.
   */
  function Dash(g: Game, pid: string, dir: string, o: MapOrders, now: int): (r: Result<Step, string>)
    requires IsGrid(g.board)
    ensures (pid !in g.players || !g.players[pid].alive) ==> r == Failure("player not found or not alive")
    ensures (pid in g.players && g.players[pid].alive && g.players[pid].lastDash.Some?
             && now - g.players[pid].lastDash.value < DashCooldown) ==> r == Failure("dash on cooldown")
    ensures r.Success? || r.error in {"player not found or not alive", "dash on cooldown", "invalid direction", "no available dash target"}
    ensures DashReady(g, pid, now) && ParseDir(dir).None? ==> r == Failure("invalid direction")
    ensures DashReady(g, pid, now) && ParseDir(dir).Some? ==>
              && (r.Success? <==> DashClear(g, Shift(g.players[pid].position, ParseDir(dir).value, 1)))
              && (r.Failure? ==> r == Failure("no available dash target"))
    ensures r.Success? ==>
              && pid in g.players && ParseDir(dir).Some?
              && var p := g.players[pid];
              && var d := ParseDir(dir).value;
              && MoveFrame(g, r.value.game, pid)
              && var q := r.value.game.players[pid];
              && r.value.game.bombs == g.bombs
              && q.lastDash == Some(now)
              && DashLanding(g, p.position, d, q.position)
  {
    if pid !in g.players || !g.players[pid].alive then Failure("player not found or not alive")
    else
      var p := g.players[pid];
      if p.lastDash.Some? && now - p.lastDash.value < DashCooldown then Failure("dash on cooldown")
      else match ParseDir(dir)
        case None => Failure("invalid direction")
        case Some(d) =>
          var k := DashReach(g, p.position, d, 1);
          if k == 0 then Failure("no available dash target")
          else
            var dest := Shift(p.position, d, k);
            assert DashLanding(g, p.position, d, dest) by {
              assert ClearRun(g, p.position, d, k);
            }
            Success(Land(g, pid, p.(position := dest, lastDash := Some(now)), o.powerups, now))
  }

  /** Collecting after updating one player's position or dash time stays within the move frame. */
  lemma EffectAfterUpdate(g: Game, pid: string, p1: Player, r: Game)
    requires pid in g.players
    requires p1 == g.players[pid].(position := p1.position, lastDash := p1.lastDash)
    requires EffectFrame(g.(players := g.players[pid := p1]), r, pid)
    requires r.powerups.Keys <= g.powerups.Keys
    requires forall id :: id in r.powerups ==> r.powerups[id] == g.powerups[id]
    ensures MoveFrame(g, r, pid) && r.bombs == g.bombs
    ensures r.players[pid].position == p1.position && r.players[pid].lastDash == p1.lastDash
  {
  }

  // ------------------------------------------------------------- bombs

  /** The ids of `pid`'s bombs, in iteration order. */
  function OwnedInOrder(bombs: map<string, Bomb>, order: seq<string>, pid: string): (r: seq<string>)
    ensures forall i :: 0 <= i < |r| ==> r[i] in bombs && bombs[r[i]].playerId == pid && r[i] in order
    ensures forall id :: id in Owned(bombs, pid) && id in order ==> id in r
    ensures Distinct(order) ==> Distinct(r)
  {
    if |order| == 0 then []
    else
      var rest := OwnedInOrder(bombs, order[1..], pid);
      if order[0] in bombs && bombs[order[0]].playerId == pid then
        assert order[0] !in rest ==> Distinct(order) ==> Distinct([order[0]] + rest);
        [order[0]] + rest
      else rest
  }

  /** `bomb_<pid>_<n>`, the id a new bomb gets. */
  function BombId(pid: string, n: nat): string {
    "bomb_" + pid + "_" + Decimal.NatToString(n)
  }

  /**
   `placeBomb`. Below capacity a bomb appears under the player with the
   player's current range; at capacity nothing is added and the last owned
   bomb in iteration order is sent off to detonate.
   */
  function PlaceBomb(g: Game, pid: string, order: seq<string>, now: int): (r: Result<Step, string>)
    ensures (pid !in g.players || !g.players[pid].alive) <==> r == Failure("player not found or not alive")
    ensures r.Success? ==>
              && pid in g.players
              && var p := g.players[pid];
              && var owned := OwnedInOrder(g.bombs, order, pid);
              && r.value.game.players == g.players && r.value.game.board == g.board
              && r.value.game.powerups == g.powerups && r.value.game.explosions == g.explosions
              && (|owned| >= p.maxBombs ==>
                    && r.value.game == g
                    && (|owned| == 0 ==> r.value.events == [])
                    && (|owned| > 0 ==> r.value.events == [Detonate(owned[|owned| - 1])]))
              && (|owned| < p.maxBombs ==>
                    var id := BombId(pid, |owned|);
                    && r.value.events == []
                    && r.value.game.bombs == g.bombs[id := Bomb(id, pid, p.position, p.bombRange, now)])
  {
    if pid !in g.players || !g.players[pid].alive then Failure("player not found or not alive")
    else
      var p := g.players[pid];
      var owned := OwnedInOrder(g.bombs, order, pid);
      if |owned| >= p.maxBombs then
        Success(Step(g, if |owned| > 0 then [Detonate(owned[|owned| - 1])] else []))
      else
        var id := BombId(pid, |owned|);
        Success(Step(g.(bombs := g.bombs[id := Bomb(id, pid, p.position, p.bombRange, now)]), []))
  }

  /** `remoteDetonate`: one detonation per owned bomb; never fails, changes nothing itself. */
  function RemoteDetonate(g: Game, pid: string, order: seq<string>): (r: Step)
    ensures r.game == g
    ensures forall e :: e in r.events ==> e.Detonate? && e.bombId in Owned(g.bombs, pid)
    ensures Enumerates(order, g.bombs.Keys) ==>
              forall id :: id in Owned(g.bombs, pid) ==> Detonate(id) in r.events
  {
    Step(g, Detonations(OwnedInOrder(g.bombs, order, pid)))
  }

  function Detonations(ids: seq<string>): (r: seq<Event>)
    ensures forall e :: e in r ==> e.Detonate? && e.bombId in ids
    ensures forall id :: id in ids ==> Detonate(id) in r
  {
    if |ids| == 0 then [] else [Detonate(ids[0])] + Detonations(ids[1..])
  }

  // ------------------------------------------------------------- scoring

  /** The tile multiplier in tenths: 1.0, 1.0, 1.2, 1.6, then 2.0. */
  function MultiplierTenths(tiles: nat): nat {
    if tiles <= 1 then 10 else if tiles == 2 then 12 else if tiles == 3 then 16 else 20
  }

  /** `int(float64(tiles * 10) * multiplier)`, computed exactly: 0, 10, 24, 48, then 20 per tile. */
  function TilePoints(tiles: nat): (pts: nat)
    ensures tiles == 0 ==> pts == 0
    ensures tiles == 1 ==> pts == 10
    ensures tiles == 2 ==> pts == 24
    ensures tiles == 3 ==> pts == 48
    ensures tiles >= 4 ==> pts == 20 * tiles
    ensures pts >= 10 * tiles
  {
    (tiles * 10 * MultiplierTenths(tiles)) / 10
  }

  /** `awardPoints`: the owner gains the tile points plus 250 per kill. */
  function AwardPoints(g: Game, chain: ChainExplosion): (r: Game)
    ensures chain.playerId !in g.players ==> r == g
    ensures r.players.Keys == g.players.Keys
    ensures forall id :: id in g.players && id != chain.playerId ==> r.players[id] == g.players[id]
    ensures chain.playerId in g.players ==>
              r.players[chain.playerId] == g.players[chain.playerId].(score :=
                g.players[chain.playerId].score + TilePoints(chain.tilesDestroyed) + KillPoints * chain.playersKilled)
    ensures r == g.(players := r.players)
  {
    if chain.playerId !in g.players then g
    else
      var p := g.players[chain.playerId];
      var total := TilePoints(chain.tilesDestroyed) + KillPoints * chain.playersKilled;
      g.(players := g.players[chain.playerId := p.(score := p.score + total)])
  }

  // ------------------------------------------------------------- match end

  /**
   The winner loop of the match timer: scanning in order, a player becomes
   the leader only with a score strictly above the best so far (which starts
   at 0).
   */
  function LeaderFrom(players: map<string, Player>, order: seq<string>, leader: Option<string>, best: int): (r: Option<string>)
    ensures r.Some? ==> r == leader || (r.value in order && r.value in players)
    decreases |order|
  {
    if |order| == 0 then leader
    else
      var id := order[0];
      if id in players && players[id].score > best then LeaderFrom(players, order[1..], Some(id), players[id].score)
      else LeaderFrom(players, order[1..], leader, best)
  }

  /** The winner id, or the empty string when no score is above 0. */
  function Winner(players: map<string, Player>, order: seq<string>): string {
    match LeaderFrom(players, order, None, 0)
    case Some(id) => id
    case None => ""
  }

  /** The match-timer transition: finished, stamped, winner recorded; teardown 5 s later. */
  function FinishMatch(g: Game, order: seq<string>, now: int): (r: Step)
    ensures r.game == g.(status := Finished, endTime := Some(now), winner := Winner(g.players, order))
    ensures r.events == [Teardown(g.id, now + 5000)]
  {
    Step(g.(status := Finished, endTime := Some(now), winner := Winner(g.players, order)), [Teardown(g.id, now + 5000)])
  }
}

=== FILE: engine_facts.dfy ===
/**
 Properties of the player actions that relate several calls or need an
 argument: the push rule, the bomb cap, fresh bomb ids, the winner rule,
 and the shape invariants every action keeps.
 */
module EngineFacts {
  import opened Wrappers
  import opened Orders
  import opened Types
  import opened Engine
  import Decimal

  // ------------------------------------------------------------- moving

  /** The push test of `movePlayer`: the cell beyond is on the board, empty terrain and bomb-free. */
  predicate PushClear(g: Game, pp: Position)
    requires IsGrid(g.board)
  {
    InBounds(g.board, pp) && Cell(g.board, pp) == Empty && !BombAt(g, pp)
  }

  /** `r` is `g` with one bomb lying on `np` moved on to `pp`. */
  ghost predicate PushedFrom(g: Game, r: Game, np: Position, pp: Position) {
    exists bid :: bid in g.bombs && g.bombs[bid].position == np && r.bombs == g.bombs[bid := g.bombs[bid].(position := pp)]
  }

  /**
   A step onto a cell that is not empty terrain: it succeeds exactly when a
   bomb lies there and the cell beyond passes the push test; then that bomb
   moves on and the player takes its cell. Any other outcome is "invalid move".
   */
  lemma MovePush(g: Game, pid: string, dir: string, o: MapOrders, now: int)
    requires IsGrid(g.board) && Enumerates(o.bombs, g.bombs.Keys)
    requires pid in g.players && g.players[pid].alive && ParseDir(dir).Some?
    requires InBounds(g.board, Shift(g.players[pid].position, ParseDir(dir).value, 1))
    requires Cell(g.board, Shift(g.players[pid].position, ParseDir(dir).value, 1)) != Empty
    ensures var d := ParseDir(dir).value;
            var np := Shift(g.players[pid].position, d, 1);
            var r := MovePlayer(g, pid, dir, o, now);
            && (r.Success? <==> BombAt(g, np) && PushClear(g, Shift(np, d, 1)))
            && (r.Failure? ==> r.error == "invalid move")
            && (r.Success? ==> PushedFrom(g, r.value.game, np, Shift(np, d, 1)) && r.value.game.players[pid].position == np)
  {
  }

  /**
   A step onto empty terrain always succeeds and keeps the bombs, even one
   lying there; every listed powerup on the new cell is taken unless the
   player already holds an effect and it is not a shield, and no other
   powerup is taken.
   */
  lemma MoveOntoEmpty(g: Game, pid: string, dir: string, o: MapOrders, now: int)
    requires IsGrid(g.board)
    requires pid in g.players && g.players[pid].alive && ParseDir(dir).Some?
    requires InBounds(g.board, Shift(g.players[pid].position, ParseDir(dir).value, 1))
    requires Cell(g.board, Shift(g.players[pid].position, ParseDir(dir).value, 1)) == Empty
    ensures var np := Shift(g.players[pid].position, ParseDir(dir).value, 1);
            var r := MovePlayer(g, pid, dir, o, now);
            && r.Success? && r.value.game.bombs == g.bombs
            && (forall id :: id in g.powerups && id !in r.value.game.powerups ==> g.powerups[id].position == np)
            && (forall id :: id in r.value.game.powerups && r.value.game.powerups[id].position == np && id in o.powerups ==>
                  |r.value.game.players[pid].powerups| >= 1 && r.value.game.powerups[id].kind != ShieldKind)
  {
  }

  // ------------------------------------------------------------- bombs

  /** With an order enumerating the bombs, the owned list counts the owned set. */
  lemma OwnedCount(bombs: map<string, Bomb>, order: seq<string>, pid: string)
    requires Enumerates(order, bombs.Keys)
    ensures |OwnedInOrder(bombs, order, pid)| == |Owned(bombs, pid)|
  {
    var r := OwnedInOrder(bombs, order, pid);
    assert Enumerates(r, Owned(bombs, pid));
    EnumerationSize(r, Owned(bombs, pid));
  }

  lemma SubsetCard<T>(a: set<T>, b: set<T>)
    requires a <= b
    ensures |a| <= |b|
  {
    assert b == a + (b - a);
  }

  /** `placeBomb` keeps every player within `maxBombs` bombs. */
  lemma PlaceBombKeepsCap(g: Game, pid: string, order: seq<string>, now: int)
    requires BombCap(g) && Enumerates(order, g.bombs.Keys)
    requires PlaceBomb(g, pid, order, now).Success?
    ensures BombCap(PlaceBomb(g, pid, order, now).value.game)
  {
    var r := PlaceBomb(g, pid, order, now).value.game;
    var p := g.players[pid];
    var owned := OwnedInOrder(g.bombs, order, pid);
    OwnedCount(g.bombs, order, pid);
    if |owned| < p.maxBombs {
      var id := BombId(pid, |owned|);
      forall q | q in r.players ensures |Owned(r.bombs, q)| <= r.players[q].maxBombs {
        if q == pid {
          SubsetCard(Owned(r.bombs, q), Owned(g.bombs, q) + {id});
        } else {
          SubsetCard(Owned(r.bombs, q), Owned(g.bombs, q));
        }
      }
    }
  }

  /** The digits after the last underscore: bomb ids determine owner and counter. */
  lemma BombIdInjective(p1: string, n1: nat, p2: string, n2: nat)
    requires BombId(p1, n1) == BombId(p2, n2)
    ensures p1 == p2 && n1 == n2
  {
    var d1 := Decimal.NatToString(n1);
    var d2 := Decimal.NatToString(n2);
    var s := BombId(p1, n1);
    assert s == "bomb_" + p1 + "_" + d1 && s == "bomb_" + p2 + "_" + d2;
    assert s[|s| - |d1| - 1] == '_' && s[|s| - |d2| - 1] == '_';
    if |d1| != |d2| {
      assert false;
    } else {
      assert d1 == s[|s| - |d1|..] == d2;
      assert p1 == s[5..|s| - |d1| - 1] == p2;
      Decimal.ParseNatToString(n1);
      Decimal.ParseNatToString(n2);
    }
  }

  /** Every bomb is filed under an id of the `bomb_<owner>_<n>` form. */
  ghost predicate BombIds(g: Game) {
    forall x :: x in g.bombs ==> exists n: nat :: x == BombId(g.bombs[x].playerId, n)
  }

  /**
   With the one-bomb capacity every player starts with, a bomb placed below
   capacity gets an id no bomb has yet, so nothing is overwritten, and the
   id form is kept.
   */
  lemma PlaceBombFresh(g: Game, pid: string, order: seq<string>, now: int)
    requires BombIds(g) && Enumerates(order, g.bombs.Keys)
    requires pid in g.players && g.players[pid].alive && g.players[pid].maxBombs <= 1
    requires |OwnedInOrder(g.bombs, order, pid)| < g.players[pid].maxBombs
    ensures BombId(pid, 0) !in g.bombs
    ensures var r := PlaceBomb(g, pid, order, now).value.game;
            && r.bombs.Keys == g.bombs.Keys + {BombId(pid, 0)}
            && BombIds(r)
  {
    OwnedCount(g.bombs, order, pid);
    var id := BombId(pid, 0);
    if id in g.bombs {
      var n: nat :| id == BombId(g.bombs[id].playerId, n);
      BombIdInjective(pid, 0, g.bombs[id].playerId, n);
      assert id in Owned(g.bombs, pid);
    }
    var r := PlaceBomb(g, pid, order, now).value.game;
    forall x | x in r.bombs ensures exists n: nat :: x == BombId(r.bombs[x].playerId, n) {
      if x == id {
        assert x == BombId(r.bombs[x].playerId, 0);
      } else {
        var n: nat :| x == BombId(g.bombs[x].playerId, n);
        assert x == BombId(r.bombs[x].playerId, n);
      }
    }
  }

  // ------------------------------------------------------------- winner

  /**
   `order[j]` leads the scan from `best` on: its score is above `best`, no
   listed player scores more, and every player listed before it scores less.
   */
  predicate LeadsAt(players: map<string, Player>, order: seq<string>, j: int, best: int) {
    && 0 <= j < |order| && order[j] in players
    && players[order[j]].score > best
    && (forall i :: 0 <= i < |order| && order[i] in players ==> players[order[i]].score <= players[order[j]].score)
    && (forall i :: 0 <= i < j && order[i] in players ==> players[order[i]].score < players[order[j]].score)
  }

  /** The scan keeps the old leader only when nobody beats `best`, else it ends on the first top scorer. */
  lemma {:induction false} LeaderFacts(players: map<string, Player>, order: seq<string>, leader: Option<string>, best: int)
    ensures var r := LeaderFrom(players, order, leader, best);
            || (r == leader && forall i :: 0 <= i < |order| && order[i] in players ==> players[order[i]].score <= best)
            || (exists j :: LeadsAt(players, order, j, best) && r == Some(order[j]))
    decreases |order|
  {
    if |order| > 0 {
      var x := order[0];
      var rest := order[1..];
      var beats := x in players && players[x].score > best;
      var l' := if beats then Some(x) else leader;
      var b' := if beats then players[x].score else best;
      LeaderFacts(players, rest, l', b');
      var r := LeaderFrom(players, rest, l', b');
      assert r == LeaderFrom(players, order, leader, best);
      if r == l' && forall i :: 0 <= i < |rest| && rest[i] in players ==> players[rest[i]].score <= b' {
        if beats {
          assert LeadsAt(players, order, 0, best) by {
            forall i | 0 <= i < |order| && order[i] in players ensures players[order[i]].score <= players[x].score {
              if i > 0 { assert order[i] == rest[i - 1]; }
            }
          }
        } else {
          forall i | 0 <= i < |order| && order[i] in players ensures players[order[i]].score <= best {
            if i > 0 { assert order[i] == rest[i - 1]; }
          }
        }
      } else {
        var j :| LeadsAt(players, rest, j, b') && r == Some(rest[j]);
        assert LeadsAt(players, order, j + 1, best) by {
          forall i | 0 <= i < |order| && order[i] in players ensures players[order[i]].score <= players[rest[j]].score {
            if i > 0 { assert order[i] == rest[i - 1]; }
          }
          forall i | 0 <= i < j + 1 && order[i] in players ensures players[order[i]].score < players[rest[j]].score {
            if i > 0 { assert order[i] == rest[i - 1]; }
          }
        }
      }
    }
  }

  /**
   Winner selection with an order listing every player: no winner exactly
   when no score is above 0; otherwise the winner is a player with the top
   score, above 0, and no player before it in the order has that score.
   */
  lemma WinnerFacts(players: map<string, Player>, order: seq<string>)
    requires Enumerates(order, players.Keys)
    ensures var r := LeaderFrom(players, order, None, 0);
            && (r.None? <==> forall id :: id in players ==> players[id].score <= 0)
            && (r.Some? ==>
                  && r.value in players && players[r.value].score > 0
                  && (forall id :: id in players ==> players[id].score <= players[r.value].score)
                  && exists j :: 0 <= j < |order| && order[j] == r.value
                       && forall i :: 0 <= i < j ==> players[order[i]].score < players[r.value].score)
            && Winner(players, order) == if r.Some? then r.value else ""
  {
    LeaderFacts(players, order, None, 0);
    var r := LeaderFrom(players, order, None, 0);
    if r.Some? {
      var j :| LeadsAt(players, order, j, 0) && r == Some(order[j]);
      forall id | id in players ensures players[id].score <= players[r.value].score {
        var i :| 0 <= i < |order| && order[i] == id;
      }
    } else {
      forall id | id in players ensures players[id].score <= 0 {
        var i :| 0 <= i < |order| && order[i] == id;
      }
    }
  }

  // ------------------------------------------------------------- invariants

  /** A move-frame successor landing `pid` on the board, with bomb owners kept, keeps the invariants. */
  lemma MoveFrameKeeps(g: Game, r: Game, pid: string)
    requires Invariants(g) && MoveFrame(g, r, pid) && pid in g.players
    requires InBounds(g.board, r.players[pid].position)
    requires r.bombs.Keys == g.bombs.Keys && forall b :: b in g.bombs ==> r.bombs[b].playerId == g.bombs[b].playerId
    ensures Invariants(r)
  {
    forall q | q in r.players ensures Owned(r.bombs, q) == Owned(g.bombs, q) {
    }
  }

  /** `movePlayer` keeps the invariants. */
  lemma MoveKeeps(g: Game, pid: string, dir: string, o: MapOrders, now: int)
    requires Invariants(g)
    requires MovePlayer(g, pid, dir, o, now).Success?
    ensures Invariants(MovePlayer(g, pid, dir, o, now).value.game)
  {
    var r := MovePlayer(g, pid, dir, o, now).value.game;
    MoveFrameKeeps(g, r, pid);
  }

  /** `dash` keeps the invariants. */
  lemma DashKeeps(g: Game, pid: string, dir: string, o: MapOrders, now: int)
    requires Invariants(g)
    requires Dash(g, pid, dir, o, now).Success?
    ensures Invariants(Dash(g, pid, dir, o, now).value.game)
  {
    var r := Dash(g, pid, dir, o, now).value.game;
    var d := ParseDir(dir).value;
    var k :| k >= 1 && r.players[pid].position == Shift(g.players[pid].position, d, k)
             && ClearRun(g, g.players[pid].position, d, k) && !DashClear(g, Shift(g.players[pid].position, d, k + 1));
    assert DashClear(g, Shift(g.players[pid].position, d, k));
    MoveFrameKeeps(g, r, pid);
  }

  /** `placeBomb` keeps the invariants. */
  lemma PlaceKeeps(g: Game, pid: string, order: seq<string>, now: int)
    requires Invariants(g) && Enumerates(order, g.bombs.Keys)
    requires PlaceBomb(g, pid, order, now).Success?
    ensures Invariants(PlaceBomb(g, pid, order, now).value.game)
  {
    PlaceBombKeepsCap(g, pid, order, now);
  }

  /** Taking or losing an effect keeps the invariants. */
  lemma EffectKeeps(g: Game, r: Game, pid: string)
    requires Invariants(g) && EffectFrame(g, r, pid)
    ensures Invariants(r)
  {
    forall q | q in r.players ensures Owned(r.bombs, q) == Owned(g.bombs, q) {
    }
  }

  lemma CollectKeeps(g: Game, pid: string, puid: string, now: int)
    requires Invariants(g)
    ensures Invariants(CollectPowerup(g, pid, puid, now).game)
  {
    EffectKeeps(g, CollectPowerup(g, pid, puid, now).game, pid);
  }

  lemma ExpireKeeps(g: Game, pid: string, kind: string)
    requires Invariants(g)
    ensures Invariants(ExpirePowerup(g, pid, kind))
  {
    EffectKeeps(g, ExpirePowerup(g, pid, kind), pid);
  }

  /** A respawn keeps the invariants: the player stays alive, back on its in-bounds spawn cell. */
  lemma RespawnKeeps(g: Game, pid: string)
    requires Invariants(g)
    ensures Invariants(RespawnPlayer(g, pid))
  {
    var r := RespawnPlayer(g, pid);
    forall q | q in r.players ensures Owned(r.bombs, q) == Owned(g.bombs, q) {
    }
  }
}

=== FILE: lobby.dfy ===
/**
 Match creation (backend/lobby.go): the random board, the powerup layout,
 and the in-memory half of `startGame` and `startSinglePlayerGame` —
 seating the roster on the four spawns and replacing the lobby's earlier
 match in the registry. Random draws and fresh UUIDs are arguments; the
 roster and the lobby row come from outside (the session tracker and the
 database).
 */
module Lobby {
  import opened Wrappers
  import opened Orders
  import opened Types
  import Engine
  import opened Registry

  // ---------------------------------------------------------------- board

  const Size := 15

  predicate Border(i: int, j: int) {
    i == 0 || i == Size - 1 || j == 0 || j == Size - 1
  }

  /** Both indices even: the fixed pillars of the grid. */
  predicate Pillar(i: int, j: int) {
    i % 2 == 0 && j % 2 == 0
  }

  /** The twelve cells cleared next to the corners after filling, in the order they are written. */
  const Pockets: seq<Position> := [
    Position(1, 1), Position(1, 2), Position(2, 1),
    Position(1, 12), Position(1, 13), Position(2, 13),
    Position(12, 1), Position(13, 1), Position(13, 2),
    Position(12, 13), Position(13, 12), Position(13, 13)]

  /** A corner cell of the interior or one of its two inward neighbours along the border. */
  predicate Pocket(i: int, j: int) {
    || ((i == 1 || i == Size - 2) && (j == 1 || j == Size - 2))
    || ((i == 1 || i == Size - 2) && (j == 2 || j == Size - 3))
    || ((i == 2 || i == Size - 3) && (j == 1 || j == Size - 2))
  }

  /** The cleared cells are exactly the pocket cells. */
  lemma PocketsExactly()
    ensures forall q: Position :: q in Pockets <==> Pocket(q.row, q.col)
  {
  }

  /** The fill loop's choice for one cell; `coin(i, j)` is the draw `rand.Float64() < 0.6` made there. */
  function Drawn(i: int, j: int, coin: (int, int) -> bool): int {
    if Border(i, j) then Wall
    else if Pillar(i, j) then Wall
    else if coin(i, j) then Block
    else Empty
  }

  /**
   `generateBoard`: a 15 by 15 grid whose walls are exactly the border and
   the pillars, whose pockets are empty, and whose other cells are blocks
   exactly where the coin came up. Clearing the pockets after the fill is
   the same as choosing empty terrain for them in the fill, since no pocket
   is a border cell or a pillar.
   */
  function GenerateBoard(coin: (int, int) -> bool): (r: Board)
    ensures |r| == Size && IsGrid(r) && |r[0]| == Size
    ensures forall q :: InBounds(r, q) ==> Cell(r, q) in {Empty, Wall, Block}
    ensures forall q :: InBounds(r, q) ==> (Cell(r, q) == Wall <==> Border(q.row, q.col) || Pillar(q.row, q.col))
    ensures forall q: Position :: Pocket(q.row, q.col) ==> InBounds(r, q) && Cell(r, q) == Empty
    ensures forall q :: InBounds(r, q) && !Border(q.row, q.col) && !Pillar(q.row, q.col) && !Pocket(q.row, q.col) ==>
              (Cell(r, q) == Block <==> coin(q.row, q.col))
  {
    seq(Size, i => seq(Size, j => if Pocket(i, j) then Empty else Drawn(i, j, coin)))
  }

  /** The spawn cells, in seating order. */
  const Spawns: seq<Position> := [Position(2, 2), Position(2, 12), Position(12, 2), Position(12, 12)]

  /** Every spawn is a pillar, hence a wall on every board, and each has an empty pocket cell beside it. */
  lemma SpawnsAreWalls(coin: (int, int) -> bool)
    ensures forall k :: 0 <= k < |Spawns| ==>
              var b := GenerateBoard(coin);
              && InBounds(b, Spawns[k]) && Cell(b, Spawns[k]) == Wall
              && (exists d :: Pocket(Shift(Spawns[k], d, 1).row, Shift(Spawns[k], d, 1).col))
  {
    assert Pocket(Shift(Spawns[0], Up, 1).row, Shift(Spawns[0], Up, 1).col);
    assert Pocket(Shift(Spawns[1], Up, 1).row, Shift(Spawns[1], Up, 1).col);
    assert Pocket(Shift(Spawns[2], Down, 1).row, Shift(Spawns[2], Down, 1).col);
    assert Pocket(Shift(Spawns[3], Down, 1).row, Shift(Spawns[3], Down, 1).col);
  }

  // ---------------------------------------------------------------- powerups

  const Centre := Position(7, 7)

  function Chebyshev(p: Position, q: Position): nat {
    var dr := Engine.Abs(p.row - q.row);
    var dc := Engine.Abs(p.col - q.col);
    if dr >= dc then dr else dc
  }

  /** The scan's test: on the square ring of radius 3 around the centre, off the pillars. */
  predicate Candidate(i: int, j: int) {
    && !Pillar(i, j)
    && !(i == Centre.row && j == Centre.col)
    && (|| ((i == Centre.row - 3 || i == Centre.row + 3) && Centre.col - 3 <= j <= Centre.col + 3)
        || ((j == Centre.col - 3 || j == Centre.col + 3) && Centre.row - 3 <= i <= Centre.row + 3))
  }

  /** Row-major order. */
  predicate Before(p: Position, q: Position) {
    p.row < q.row || (p.row == q.row && p.col < q.col)
  }

  predicate Ascending(s: seq<Position>) {
    forall a, b :: 0 <= a < b < |s| ==> Before(s[a], s[b])
  }

  /** The interior cells, rows 1 to 13 and columns 1 to 13, in the order the two loops visit them. */
  function Interior(): (r: seq<Position>)
    ensures |r| == 169
    ensures forall k :: 0 <= k < 169 ==> r[k] == Position(1 + k / 13, 1 + k % 13)
  {
    seq(169, k => Position(1 + k / 13, 1 + k % 13))
  }

  lemma InteriorCells()
    ensures Ascending(Interior())
    ensures forall p :: p in Interior() <==> 1 <= p.row < Size - 1 && 1 <= p.col < Size - 1
  {
    var r := Interior();
    forall a, b | 0 <= a < b < |r| ensures Before(r[a], r[b]) {
      assert a == 13 * (a / 13) + a % 13 && b == 13 * (b / 13) + b % 13;
    }
    forall p: Position | 1 <= p.row < Size - 1 && 1 <= p.col < Size - 1 ensures p in r {
      var k := 13 * (p.row - 1) + (p.col - 1);
      assert k / 13 == p.row - 1 && k % 13 == p.col - 1;
      assert r[k] == p;
    }
  }

  /** The cells of `s` that pass the scan's test, in the order of `s`. */
  function Keep(s: seq<Position>): (r: seq<Position>)
    ensures forall p :: p in r <==> p in s && Candidate(p.row, p.col)
    ensures Ascending(s) ==> Ascending(r)
  {
    if |s| == 0 then []
    else
      var rest := Keep(s[1..]);
      if Candidate(s[0].row, s[0].col) then
        assert Ascending(s) ==> forall p :: p in rest ==> Before(s[0], p) by {
          if Ascending(s) {
            forall p | p in rest ensures Before(s[0], p) {
              var k :| 0 <= k < |s| - 1 && s[1..][k] == p;
              assert s[k + 1] == p;
            }
          }
        }
        HeadJoin(s[0], rest);
        [s[0]] + rest
      else rest
  }

  lemma HeadJoin(x: Position, rest: seq<Position>)
    ensures (forall p :: p in rest ==> Before(x, p)) && Ascending(rest) ==> Ascending([x] + rest)
  {
    var s := [x] + rest;
    if (forall p :: p in rest ==> Before(x, p)) && Ascending(rest) {
      forall a, b | 0 <= a < b < |s| ensures Before(s[a], s[b]) {
        assert s[b] == rest[b - 1];
        if a > 0 {
          assert s[a] == rest[a - 1];
        } else {
          assert rest[b - 1] in rest;
        }
      }
    }
  }

  /** `validPositions`: every candidate cell of the board interior, each once, in scan order. */
  function ValidPositions(): (r: seq<Position>)
    ensures forall p :: p in r <==> 1 <= p.row < Size - 1 && 1 <= p.col < Size - 1 && Candidate(p.row, p.col)
    ensures Ascending(r) && Distinct(r)
  {
    InteriorCells();
    var r := Keep(Interior());
    assert forall a, b :: 0 <= a < b < |r| ==> r[a] != r[b] by {
      forall a, b | 0 <= a < b < |r| ensures r[a] != r[b] {
        assert Before(r[a], r[b]);
      }
    }
    r
  }

  /** A scan candidate is exactly an off-pillar cell at Chebyshev distance 3 from the centre. */
  lemma CandidateRing(p: Position)
    ensures (1 <= p.row < Size - 1 && 1 <= p.col < Size - 1 && Candidate(p.row, p.col))
            <==> (Chebyshev(p, Centre) == 3 && !Pillar(p.row, p.col))
  {
  }

  /** The sequence without its element at `i`. */
  function RemoveAt(s: seq<Position>, i: nat): (r: seq<Position>)
    requires i < |s|
    ensures |r| == |s| - 1
    ensures forall p :: p in r ==> p in s
    ensures Distinct(s) ==> Distinct(r) && s[i] !in r
  {
    var r := s[..i] + s[i + 1..];
    assert forall a :: 0 <= a < |r| ==> r[a] == (if a < i then s[a] else s[a + 1]);
    r
  }

  /** A powerup of a generated layout: the level-1 shield at the centre, or a bomb-range boost of `level` on a ring cell. */
  predicate Laid(pu: Powerup, level: int) {
    && pu.endTime.None?
    && ((pu.kind == ShieldKind && pu.level == 1 && pu.position == Centre)
        || (pu.kind == BombRangeKind && pu.level == level && Chebyshev(pu.position, Centre) == 3 && !Pillar(pu.position.row, pu.position.col)))
  }

  /** Filed under their ids, laid out as generated, no two on one cell. */
  predicate Layout(pus: map<string, Powerup>, level: int) {
    && (forall id :: id in pus ==> pus[id].id == id && Laid(pus[id], level))
    && (forall a, b :: a in pus && b in pus && a != b ==> pus[a].position != pus[b].position)
  }

  function Min(a: int, b: int): int {
    if a <= b then a else b
  }

  /**
   The filling loop of `generatePowerups`: while fewer than three powerups
   exist and candidates remain, draw a candidate (`pick(k)` is the k-th
   `rand.Intn` draw), remove it, and put a boost there under the next id.
   */
  function Fill(pus: map<string, Powerup>, valid: seq<Position>, k: nat, level: int, pick: nat -> nat, ids: nat -> string): (r: map<string, Powerup>)
    requires Layout(pus, level) && Distinct(valid)
    requires forall p :: p in valid ==> Chebyshev(p, Centre) == 3 && !Pillar(p.row, p.col)
    requires forall id :: id in pus ==> pus[id].position !in valid
    ensures Layout(r, level)
    ensures |pus| <= 3 ==> |r| <= 3
    ensures Injective(ids) && (forall m: nat :: m > k ==> ids(m) !in pus) && |pus| <= 3 ==> |r| == Min(3, |pus| + |valid|)
    decreases |valid|
  {
    if |pus| >= 3 || |valid| == 0 then pus
    else
      var idx := pick(k) % |valid|;
      var id := ids(k + 1);
      var next := pus[id := Powerup(id, BombRangeKind, level, valid[idx], None)];
      FillStep(pus, valid, idx, id, level);
      var r := Fill(next, RemoveAt(valid, idx), k + 1, level, pick, ids);
      assert Injective(ids) && (forall m: nat :: m > k ==> ids(m) !in pus) ==> forall m: nat :: m > k + 1 ==> ids(m) !in next;
      r
  }

  /** One round of the filling loop keeps the loop's requirements. */
  lemma FillStep(pus: map<string, Powerup>, valid: seq<Position>, idx: nat, id: string, level: int)
    requires Layout(pus, level) && Distinct(valid) && idx < |valid|
    requires forall p :: p in valid ==> Chebyshev(p, Centre) == 3 && !Pillar(p.row, p.col)
    requires forall id :: id in pus ==> pus[id].position !in valid
    ensures var next := pus[id := Powerup(id, BombRangeKind, level, valid[idx], None)];
            var rest := RemoveAt(valid, idx);
            && Layout(next, level) && Distinct(rest)
            && (forall p :: p in rest ==> Chebyshev(p, Centre) == 3 && !Pillar(p.row, p.col))
            && (forall i :: i in next ==> next[i].position !in rest)
            && (id !in pus ==> |next| == |pus| + 1)
  {
    assert valid[idx] in valid;
  }

  /**
   `generatePowerups(level)`: with fresh ids, exactly three powerups — the
   level-1 shield at the centre under the first id, and two boosts of
   `level` on distinct ring cells.
   */
  function GeneratePowerups(level: int, pick: nat -> nat, ids: nat -> string): (r: map<string, Powerup>)
    ensures Layout(r, level) && |r| <= 3
    ensures Injective(ids) ==> |r| == 3 && ids(0) in r && r[ids(0)] == Powerup(ids(0), ShieldKind, 1, Centre, None)
    ensures Injective(ids) ==> forall id :: id in r && id != ids(0) ==> r[id].kind == BombRangeKind && r[id].level == level
  {
    RingTwo();
    RingCells();
    LayOut(level, pick, ids, ValidPositions())
  }

  /** The shield, then the filling loop over the candidate list `valid`. */
  function LayOut(level: int, pick: nat -> nat, ids: nat -> string, valid: seq<Position>): (r: map<string, Powerup>)
    requires Distinct(valid) && |valid| >= 2
    requires forall p :: p in valid ==> Chebyshev(p, Centre) == 3 && !Pillar(p.row, p.col) && p != Centre
    ensures Layout(r, level) && |r| <= 3
    ensures Injective(ids) ==> |r| == 3 && ids(0) in r && r[ids(0)] == Powerup(ids(0), ShieldKind, 1, Centre, None)
    ensures Injective(ids) ==> forall id :: id in r && id != ids(0) ==> r[id].kind == BombRangeKind && r[id].level == level
  {
    var shield := map[ids(0) := Powerup(ids(0), ShieldKind, 1, Centre, None)];
    var r := Fill(shield, valid, 0, level, pick, ids);
    FillKeeps(shield, valid, 0, level, pick, ids);
    OnlyShieldWhenFresh(r, level, ids);
    r
  }

  /** At least two candidates exist. */
  lemma RingTwo()
    ensures |ValidPositions()| >= 2
  {
    var x, y := Position(4, 5), Position(4, 7);
    assert Candidate(x.row, x.col) && Candidate(y.row, y.col);
    var valid := ValidPositions();
    assert x in valid && y in valid;
    TwoMembers(valid, x, y);
  }

  lemma TwoMembers(s: seq<Position>, x: Position, y: Position)
    requires x in s && y in s && x != y
    ensures |s| >= 2
  {
    var a :| 0 <= a < |s| && s[a] == x;
    var b :| 0 <= b < |s| && s[b] == y;
  }

  /** Every candidate is an off-pillar ring cell, hence not the centre. */
  lemma RingCells()
    ensures forall p :: p in ValidPositions() ==> Chebyshev(p, Centre) == 3 && !Pillar(p.row, p.col) && p != Centre
  {
    forall p | p in ValidPositions() ensures Chebyshev(p, Centre) == 3 && !Pillar(p.row, p.col) && p != Centre {
      CandidateRing(p);
    }
  }

  /** In a layout the shield under the first id is the only shield, since both would lie on the centre. */
  lemma OnlyShieldWhenFresh(r: map<string, Powerup>, level: int, ids: nat -> string)
    requires Layout(r, level)
    ensures Injective(ids) && ids(0) in r && r[ids(0)].position == Centre ==>
              forall id :: id in r && id != ids(0) ==> r[id].kind == BombRangeKind && r[id].level == level
  {
  }

  /** The loop never overwrites a powerup whose id is older than its own draws. */
  lemma {:induction false} FillKeeps(pus: map<string, Powerup>, valid: seq<Position>, k: nat, level: int, pick: nat -> nat, ids: nat -> string)
    requires Layout(pus, level) && Distinct(valid)
    requires forall p :: p in valid ==> Chebyshev(p, Centre) == 3 && !Pillar(p.row, p.col)
    requires forall id :: id in pus ==> pus[id].position !in valid
    ensures Injective(ids) && (forall m: nat :: m > k ==> ids(m) !in pus) ==>
              forall id :: id in pus ==> id in Fill(pus, valid, k, level, pick, ids) && Fill(pus, valid, k, level, pick, ids)[id] == pus[id]
    decreases |valid|
  {
    if |pus| >= 3 || |valid| == 0 {
    } else {
      var idx := pick(k) % |valid|;
      var id := ids(k + 1);
      var next := pus[id := Powerup(id, BombRangeKind, level, valid[idx], None)];
      FillStep(pus, valid, idx, id, level);
      FillKeeps(next, RemoveAt(valid, idx), k + 1, level, pick, ids);
      if Injective(ids) && (forall m: nat :: m > k ==> ids(m) !in pus) {
        assert forall m: nat :: m > k + 1 ==> ids(m) !in next;
        assert id !in pus;
      }
    }
  }

  // ---------------------------------------------------------------- match start

  /** A roster entry: `getPlayersForLobby` copies only a session's id, name and AI flag. */
  datatype Member = Member(id: string, name: string, isAI: bool)

  /** The random draws and fresh ids one match start consumes. */
  datatype Draws = Draws(gameId: string, coin: (int, int) -> bool, pick: nat -> nat, ids: nat -> string)

  /** The outcome of a start request: the registry afterwards, the new game's id or an error, and the timers armed. */
  datatype Started = Started(reg: Registry, result: Result<string, string>, events: seq<Engine.Event>)

  /** A freshly seated player: alive on its spawn with one bomb of range 1, no score and no effects. */
  function Seated(id: string, name: string, isAI: bool, spawn: Position): Player {
    Player(id, name, spawn, spawn, true, 0, 1, 1, isAI, "", 0, 0, map[], false, None)
  }

  /** A player as seated at the start: filed under `id`, alive on a spawn that is also its home, with a fresh record. */
  predicate FreshOnSpawn(p: Player, id: string) {
    && p.id == id && p.alive && p.position in Spawns && p.spawnPosition == p.position
    && p.score == 0 && p.maxBombs == 1 && p.bombRange == 1 && p.bombCount == 0 && p.powerups == map[] && !p.shield
  }

  /** No later roster entry has the id of entry `i`. */
  predicate LastOf(roster: seq<Member>, i: int)
    requires 0 <= i < |roster|
  {
    forall j :: i < j < |roster| ==> roster[j].id != roster[i].id
  }

  /** The ids of roster entries `i` onwards. */
  function IdsFrom(roster: seq<Member>, i: nat): set<string> {
    set k | i <= k < |roster| :: roster[k].id
  }

  function RosterIds(roster: seq<Member>): set<string> {
    IdsFrom(roster, 0)
  }

  /** Entry `i` as the seating loop creates it, on spawn `i mod 4`. */
  function SeatedAt(roster: seq<Member>, i: nat): (p: Player)
    requires i < |roster|
    ensures FreshOnSpawn(p, roster[i].id)
  {
    assert Spawns[i % 4] in Spawns;
    Seated(roster[i].id, roster[i].name, roster[i].isAI, Spawns[i % 4])
  }

  /** The seating loop from entry `i` on; a repeated id is seated again by its later entry. */
  function SeatFrom(players: map<string, Player>, roster: seq<Member>, i: nat): map<string, Player>
    decreases |roster| - i
  {
    if i >= |roster| then players
    else SeatFrom(players[roster[i].id := SeatedAt(roster, i)], roster, i + 1)
  }

  /** The loop files exactly the roster's ids, and every record it files is fresh. */
  lemma {:induction false} SeatFromShape(players: map<string, Player>, roster: seq<Member>, i: nat)
    requires forall id :: id in players ==> FreshOnSpawn(players[id], id)
    ensures SeatFrom(players, roster, i).Keys == players.Keys + IdsFrom(roster, i)
    ensures forall id :: id in SeatFrom(players, roster, i) ==> FreshOnSpawn(SeatFrom(players, roster, i)[id], id)
    decreases |roster| - i
  {
    if i < |roster| {
      SeatFromShape(players[roster[i].id := SeatedAt(roster, i)], roster, i + 1);
      assert IdsFrom(roster, i) == {roster[i].id} + IdsFrom(roster, i + 1);
    } else {
      assert IdsFrom(roster, i) == {};
    }
  }

  /** A record whose id no later entry carries is left as it is. */
  lemma {:induction false} SeatFromKeeps(players: map<string, Player>, roster: seq<Member>, i: nat, id: string)
    requires id in players && forall k :: i <= k < |roster| ==> roster[k].id != id
    ensures id in SeatFrom(players, roster, i) && SeatFrom(players, roster, i)[id] == players[id]
    decreases |roster| - i
  {
    if i < |roster| {
      SeatFromKeeps(players[roster[i].id := SeatedAt(roster, i)], roster, i + 1, id);
    }
  }

  /** The last entry with a given id decides its record. */
  lemma {:induction false} SeatFromLast(players: map<string, Player>, roster: seq<Member>, i: nat, k: nat)
    requires i <= k < |roster| && LastOf(roster, k)
    ensures roster[k].id in SeatFrom(players, roster, i) && SeatFrom(players, roster, i)[roster[k].id] == SeatedAt(roster, k)
    decreases |roster| - i
  {
    var next := players[roster[i].id := SeatedAt(roster, i)];
    if i == k {
      SeatFromKeeps(next, roster, i + 1, roster[k].id);
    } else {
      SeatFromLast(next, roster, i + 1, k);
    }
  }

  /**
   The seating loop over the whole roster: entry `i` sits on spawn
   `i mod 4`, and of entries sharing an id the last one counts.
   */
  function SeatAll(roster: seq<Member>): (r: map<string, Player>)
    ensures r.Keys == RosterIds(roster)
    ensures forall id :: id in r ==> FreshOnSpawn(r[id], id)
    ensures forall i :: 0 <= i < |roster| && LastOf(roster, i) ==> r[roster[i].id] == SeatedAt(roster, i)
  {
    SeatFromShape(map[], roster, 0);
    forall i | 0 <= i < |roster| && LastOf(roster, i) ensures SeatFrom(map[], roster, 0)[roster[i].id] == SeatedAt(roster, i) {
      SeatFromLast(map[], roster, 0, i);
    }
    SeatFrom(map[], roster, 0)
  }

  /** Drop every registered game of the lobby. */
  function DropLobby(reg: Registry, lobbyId: string): (r: Registry)
    ensures forall id :: id in r.games <==> id in reg.games && reg.games[id].lobbyId != lobbyId
    ensures forall id :: id in r.games ==> r.games[id] == reg.games[id]
  {
    Registry(map id | id in reg.games && reg.games[id].lobbyId != lobbyId :: reg.games[id])
  }

  /** The players of a new match: the seated roster, plus the requester on the next spawn if absent. */
  function MatchPlayers(roster: seq<Member>, requester: string, requesterName: Option<string>): (r: map<string, Player>)
    ensures r.Keys == RosterIds(roster) + {requester}
    ensures forall id :: id in r ==> FreshOnSpawn(r[id], id)
    ensures forall id :: id in RosterIds(roster) ==> r[id] == SeatAll(roster)[id]
    ensures requester !in RosterIds(roster) ==>
              r[requester] == Seated(requester, requesterName.GetOr("Player"), false, Spawns[|roster| % 4])
  {
    var seated := SeatAll(roster);
    assert Spawns[|roster| % 4] in Spawns;
    if requester in seated then seated
    else seated[requester := Seated(requester, requesterName.GetOr("Player"), false, Spawns[|roster| % 4])]
  }

  /** The new match: generated board and level-1 powerups, no bombs or hazards, playing since `now`. */
  function NewGame(lobbyId: string, players: map<string, Player>, draws: Draws, now: int): Game {
    Game(draws.gameId, lobbyId, GenerateBoard(draws.coin), players, map[], map[],
         GeneratePowerups(1, draws.pick, draws.ids), Playing, now, None, "")
  }

  /** The powerup wave after one minute and the match end after two, both for the match's lobby. */
  function MatchTimers(lobbyId: string, now: int): seq<Engine.Event> {
    [Engine.PowerupWave(lobbyId, now + 60000), Engine.MatchEnd(lobbyId, now + 120000)]
  }

  /**
   Registering the new match `g` after the lobby's old matches were dropped:
   the start reports the new id, the match is filed under it next to every
   other match that was left, and its wave and match end are due one and two
   minutes on.
   */
  function Launch(cleared: Registry, g: Game, now: int): (r: Started)
    ensures r.result == Success(g.id)
    ensures r.events == [Engine.PowerupWave(g.lobbyId, now + 60000), Engine.MatchEnd(g.lobbyId, now + 120000)]
    ensures r.reg.games.Keys == cleared.games.Keys + {g.id} && r.reg.games[g.id] == g
    ensures forall id :: id in cleared.games && id != g.id ==> r.reg.games[id] == cleared.games[id]
  {
    Started(Registry(cleared.games[g.id := g]), Success(g.id), MatchTimers(g.lobbyId, now))
  }

  /**
   The registry after a start: the new game is the lobby's only game, and
   every game of another lobby is kept unless the new id displaced it.
   */
  ghost predicate Replaced(reg: Registry, r: Registry, lobbyId: string, gid: string) {
    && gid in r.games && r.games[gid].lobbyId == lobbyId && r.games[gid].status == Playing
    && (forall id :: id in r.games && r.games[id].lobbyId == lobbyId ==> id == gid)
    && (forall id :: id in r.games <==> id == gid || (id in reg.games && reg.games[id].lobbyId != lobbyId))
    && (forall id :: id in reg.games && reg.games[id].lobbyId != lobbyId && id != gid ==> r.games[id] == reg.games[id])
  }

  /** Dropping the lobby's games and filing a playing game of the lobby replaces them. */
  lemma ReplacedBy(reg: Registry, lobbyId: string, g: Game)
    requires g.lobbyId == lobbyId && g.status == Playing
    ensures Replaced(reg, Registry(DropLobby(reg, lobbyId).games[g.id := g]), lobbyId, g.id)
  {
  }

  /**
   `startGame`: an empty roster is refused with the registry untouched;
   otherwise the lobby's earlier matches leave the registry and the new one
   takes their place.
   */
  function StartGame(reg: Registry, lobbyId: string, requester: string, roster: seq<Member>,
                     requesterName: Option<string>, draws: Draws, now: int): (r: Started)
    ensures |roster| == 0 <==> r.result.Failure?
    ensures |roster| == 0 ==> r == Started(reg, Failure("no players in lobby"), [])
    ensures |roster| > 0 ==> Replaced(reg, r.reg, lobbyId, draws.gameId) && r.result == Success(draws.gameId)
    ensures |roster| > 0 ==> r.reg.games[draws.gameId] == NewGame(lobbyId, MatchPlayers(roster, requester, requesterName), draws, now)
    ensures |roster| > 0 ==> r.events == MatchTimers(lobbyId, now)
  {
    if |roster| == 0 then Started(reg, Failure("no players in lobby"), [])
    else
      var g := NewGame(lobbyId, MatchPlayers(roster, requester, requesterName), draws, now);
      ReplacedBy(reg, lobbyId, g);
      Launch(DropLobby(reg, lobbyId), g, now)
  }

  /**
   `startSinglePlayerGame`: a missing lobby row is "lobby not found" with
   nothing changed. The lobby's matches are dropped before the database
   writes, so a write error leaves them dropped; otherwise the match is
   created as by `startGame`, an empty roster included.
   */
  function StartSinglePlayer(reg: Registry, lobbyId: string, requester: string, lobby: Option<seq<Member>>,
                             requesterName: Option<string>, dbError: Option<string>, draws: Draws, now: int): (r: Started)
    ensures lobby.None? ==> r == Started(reg, Failure("lobby not found"), [])
    ensures lobby.Some? && dbError.Some? ==> r == Started(DropLobby(reg, lobbyId), Failure(dbError.value), [])
    ensures lobby.Some? && dbError.None? ==>
              && Replaced(reg, r.reg, lobbyId, draws.gameId) && r.result == Success(draws.gameId)
              && r.reg.games[draws.gameId] == NewGame(lobbyId, MatchPlayers(lobby.value, requester, requesterName), draws, now)
              && r.events == MatchTimers(lobbyId, now)
  {
    if lobby.None? then Started(reg, Failure("lobby not found"), [])
    else
      var cleared := DropLobby(reg, lobbyId);
      if dbError.Some? then Started(cleared, Failure(dbError.value), [])
      else
        var g := NewGame(lobbyId, MatchPlayers(lobby.value, requester, requesterName), draws, now);
        ReplacedBy(reg, lobbyId, g);
        Launch(cleared, g, now)
  }

  /** Both entry points build the same match from the same non-empty roster. */
  lemma StartsAgree(reg: Registry, lobbyId: string, requester: string, roster: seq<Member>,
                    requesterName: Option<string>, draws: Draws, now: int)
    requires |roster| > 0
    ensures StartSinglePlayer(reg, lobbyId, requester, Some(roster), requesterName, None, draws, now)
            == StartGame(reg, lobbyId, requester, roster, requesterName, draws, now)
  {
  }

  /** Every new match satisfies the engine's invariants, whatever the roster. */
  lemma NewGameSound(lobbyId: string, players: map<string, Player>, draws: Draws, now: int)
    requires forall id :: id in players ==> FreshOnSpawn(players[id], id)
    ensures Invariants(NewGame(lobbyId, players, draws, now))
  {
    var g := NewGame(lobbyId, players, draws, now);
    FreshBoardSound(g);
  }

  /** A 15 by 15 board, no bombs, and freshly seated players: the invariants hold. */
  lemma FreshBoardSound(g: Game)
    requires |g.board| == Size && IsGrid(g.board) && |g.board[0]| == Size && g.bombs == map[]
    requires forall id :: id in g.players ==> FreshOnSpawn(g.players[id], id)
    ensures Invariants(g)
  {
    assert forall k :: 0 <= k < 4 ==> InBounds(g.board, Spawns[k]);
    forall pid | pid in g.players ensures |Owned(g.bombs, pid)| <= g.players[pid].maxBombs {
      assert Owned(g.bombs, pid) == {};
    }
  }

  /**
   The seating promised to players: roster entry `i` (ids on a roster are
   distinct, as session keys are) starts on spawn `i mod 4` with its name
   and AI flag, and the requester, when not on the roster, as a human on
   the next spawn.
   */
  lemma SeatingFacts(roster: seq<Member>, requester: string, requesterName: Option<string>)
    requires forall i, j :: 0 <= i < j < |roster| ==> roster[i].id != roster[j].id
    ensures var ps := MatchPlayers(roster, requester, requesterName);
            && (forall i :: 0 <= i < |roster| ==>
                  var p := ps[roster[i].id];
                  && p.position == Spawns[i % 4] && p.spawnPosition == Spawns[i % 4]
                  && p.name == roster[i].name && p.isAI == roster[i].isAI)
            && (requester !in RosterIds(roster) ==>
                  ps[requester].position == Spawns[|roster| % 4] && !ps[requester].isAI
                  && ps[requester].name == requesterName.GetOr("Player"))
  {
    assert forall i :: 0 <= i < |roster| ==> LastOf(roster, i);
    assert forall i :: 0 <= i < |roster| ==> roster[i].id in RosterIds(roster);
  }

  /** A start keeps every registered game filed under its id and satisfying the engine's invariants. */
  lemma StartKeeps(reg: Registry, lobbyId: string, requester: string, roster: seq<Member>,
                   requesterName: Option<string>, draws: Draws, now: int)
    requires Sound(reg)
    ensures Sound(StartGame(reg, lobbyId, requester, roster, requesterName, draws, now).reg)
  {
    if |roster| > 0 {
      var g := NewGame(lobbyId, MatchPlayers(roster, requester, requesterName), draws, now);
      NewGameSound(lobbyId, MatchPlayers(roster, requester, requesterName), draws, now);
      FilingKeeps(DropLobby(reg, lobbyId), g);
    }
  }

  /** Filing a sound game under its own id keeps a sound registry sound. */
  lemma FilingKeeps(reg: Registry, g: Game)
    requires Sound(reg) && Invariants(g)
    ensures Sound(Registry(reg.games[g.id := g]))
  {
  }

  /** A replacement's games are the other lobbies' games plus the new one. */
  lemma ReplacedKeys(reg: Registry, r: Registry, lobbyId: string, gid: string)
    requires Replaced(reg, r, lobbyId, gid)
    ensures r.games.Keys == DropLobby(reg, lobbyId).games.Keys + {gid}
  {
  }

  /** After a start, looking the lobby up finds the new match whatever the order of the games left and the new one. */
  lemma StartFound(reg: Registry, lobbyId: string, requester: string, roster: seq<Member>,
                   requesterName: Option<string>, draws: Draws, now: int, order: seq<string>)
    requires |roster| > 0
    requires Enumerates(order, DropLobby(reg, lobbyId).games.Keys + {draws.gameId})
    ensures GameByLobby(StartGame(reg, lobbyId, requester, roster, requesterName, draws, now).reg, order, lobbyId) == Some(draws.gameId)
  {
    var r := StartGame(reg, lobbyId, requester, roster, requesterName, draws, now).reg;
    ReplacedKeys(reg, r, lobbyId, draws.gameId);
    OnlyGameFound(r, order, lobbyId, draws.gameId);
  }
}

=== FILE: messages.dfy ===
/**
 The message layer of backend/websocket.go: `handleMessage` picks the
 handler by the message type and each handler checks its payload before it
 acts. JSON decoding itself is not modelled; a message arrives decoded.
 */
module Messages {
  import opened Wrappers
  import opened Types
  import Validation

  /** A decoded JSON value, as far as the handlers look at it. */
  datatype Json = JStr(s: string) | JObj(fields: map<string, Json>) | JOther

  datatype Message = Message(msgType: string, payload: Json)

  /** The message types `handleMessage` knows. */
  datatype Tag =
    | TJoinLobby | TJoinGame | TStartGame | TStartSinglePlayer | TLeaveLobby | TMove | TPlaceBomb
    | TRemoteDetonate | TDash | TRestartGame | TUpdatePlayerName | TRequestLobbyUpdate | TRequestPlayerInfo | TPing

  function TagName(k: Tag): string {
    match k
    case TJoinLobby => "joinLobby"
    case TJoinGame => "joinGame"
    case TStartGame => "startGame"
    case TStartSinglePlayer => "startSinglePlayer"
    case TLeaveLobby => "leaveLobby"
    case TMove => "move"
    case TPlaceBomb => "placeBomb"
    case TRemoteDetonate => "remoteDetonate"
    case TDash => "dash"
    case TRestartGame => "restartGame"
    case TUpdatePlayerName => "updatePlayerName"
    case TRequestLobbyUpdate => "requestLobbyUpdate"
    case TRequestPlayerInfo => "requestPlayerInfo"
    case TPing => "ping"
  }

  /** The `switch` of `handleMessage`: the handler a message type selects, if any. */
  function TagOf(t: string): (r: Option<Tag>)
    ensures r.Some? ==> TagName(r.value) == t
    ensures r.None? ==> forall k: Tag :: TagName(k) != t
  {
    if t == "joinLobby" then Some(TJoinLobby)
    else if t == "joinGame" then Some(TJoinGame)
    else if t == "startGame" then Some(TStartGame)
    else if t == "startSinglePlayer" then Some(TStartSinglePlayer)
    else if t == "leaveLobby" then Some(TLeaveLobby)
    else if t == "move" then Some(TMove)
    else if t == "placeBomb" then Some(TPlaceBomb)
    else if t == "remoteDetonate" then Some(TRemoteDetonate)
    else if t == "dash" then Some(TDash)
    else if t == "restartGame" then Some(TRestartGame)
    else if t == "updatePlayerName" then Some(TUpdatePlayerName)
    else if t == "requestLobbyUpdate" then Some(TRequestLobbyUpdate)
    else if t == "requestPlayerInfo" then Some(TRequestPlayerInfo)
    else if t == "ping" then Some(TPing)
    else None
  }

  /** A message whose payload passed its handler's checks. */
  datatype Command =
    | JoinLobby(lobbyId: string, playerId: string, playerName: string)
    | JoinGame(lobbyId: string)
    | StartGame(lobbyId: string, playerId: string)
    | StartSinglePlayer(lobbyId: string, playerId: string)
    | LeaveLobby(lobbyId: string, playerId: string)
    | Move(direction: string)
    | PlaceBomb
    | RemoteDetonate
    | Dash(direction: string)
    | RestartGame(lobbyId: string, playerId: string)
    | UpdatePlayerName(playerId: string, playerName: string)
    | RequestLobbyUpdate(lobbyId: string)
    | RequestPlayerInfo(playerId: string)
    | Ping

  /** The message type each command answers. */
  function Kind(c: Command): Tag {
    match c
    case JoinLobby(_, _, _) => TJoinLobby
    case JoinGame(_) => TJoinGame
    case StartGame(_, _) => TStartGame
    case StartSinglePlayer(_, _) => TStartSinglePlayer
    case LeaveLobby(_, _) => TLeaveLobby
    case Move(_) => TMove
    case PlaceBomb => TPlaceBomb
    case RemoteDetonate => TRemoteDetonate
    case Dash(_) => TDash
    case RestartGame(_, _) => TRestartGame
    case UpdatePlayerName(_, _) => TUpdatePlayerName
    case RequestLobbyUpdate(_) => TRequestLobbyUpdate
    case RequestPlayerInfo(_) => TRequestPlayerInfo
    case Ping => TPing
  }

  /** The handlers that never look at their payload. */
  predicate PayloadFree(k: Tag) {
    k.TPlaceBomb? || k.TRemoteDetonate? || k.TPing?
  }

  /** A string field of an object payload: "Invalid payload format" or "Missing <name>" otherwise. */
  function Field(p: Json, name: string): (r: Result<string, string>)
    ensures !p.JObj? ==> r == Failure("Invalid payload format")
    ensures p.JObj? ==> (r.Success? <==> name in p.fields && p.fields[name].JStr?)
    ensures p.JObj? && r.Failure? ==> r.error == "Missing " + name
    ensures r.Success? ==> p.JObj? && p.fields[name] == JStr(r.value)
  {
    if !p.JObj? then Failure("Invalid payload format")
    else if name in p.fields && p.fields[name].JStr? then Success(p.fields[name].s)
    else Failure("Missing " + name)
  }

  /** The string fields each handler reads, in the order it reads them. */
  function Reads(k: Tag): (fields: seq<string>)
    ensures |fields| <= 2
  {
    match k
    case TJoinLobby => ["lobbyId", "playerId"]
    case TStartGame => ["lobbyId", "playerId"]
    case TStartSinglePlayer => ["lobbyId", "playerId"]
    case TLeaveLobby => ["lobbyId", "playerId"]
    case TRestartGame => ["lobbyId", "playerId"]
    case TJoinGame => ["lobbyId"]
    case TRequestLobbyUpdate => ["lobbyId"]
    case TMove => ["direction"]
    case TDash => ["direction"]
    case TUpdatePlayerName => ["playerId"]
    case TRequestPlayerInfo => ["playerId"]
    case TPlaceBomb => []
    case TRemoteDetonate => []
    case TPing => []
  }

  /**
   The first of `fields` that is missing decides the error, and a command
   comes out only when every one of them is a string.
   */
  predicate FieldsChecked(p: Json, fields: seq<string>, r: Result<Command, string>)
    requires |fields| <= 2
  {
    && (|fields| > 0 && Field(p, fields[0]).Failure? ==> r == Failure(Field(p, fields[0]).error))
    && (|fields| > 1 && Field(p, fields[0]).Success? && Field(p, fields[1]).Failure? ==> r == Failure(Field(p, fields[1]).error))
    && (r.Success? ==> forall i :: 0 <= i < |fields| ==> Field(p, fields[i]).Success?)
  }

  /** The `playerName` of a join, "Player" when absent, not a string or empty. */
  function NameOrDefault(p: Json): (name: string)
    requires p.JObj?
    ensures name != ""
    ensures !("playerName" in p.fields && p.fields["playerName"].JStr? && p.fields["playerName"].s != "") ==> name == "Player"
    ensures "playerName" in p.fields && p.fields["playerName"].JStr? && p.fields["playerName"].s != "" ==> name == p.fields["playerName"].s
  {
    if "playerName" in p.fields && p.fields["playerName"].JStr? && p.fields["playerName"].s != "" then p.fields["playerName"].s
    else "Player"
  }

  /** `handleJoinLobby`'s checks: both ids, then the lobby id's UUID form. */
  function ParseJoin(p: Json): (r: Result<Command, string>)
    ensures FieldsChecked(p, Reads(TJoinLobby), r)
    ensures Field(p, "lobbyId").Success? && Field(p, "playerId").Success? ==>
              var lobbyId := Field(p, "lobbyId").value;
              && (r.Success? <==> Validation.UuidText(lobbyId))
              && (r.Failure? ==> r.error == "Invalid lobby ID")
              && (r.Success? ==> r.value == JoinLobby(lobbyId, Field(p, "playerId").value, NameOrDefault(p)))
  {
    var lobbyId :- Field(p, "lobbyId");
    var playerId :- Field(p, "playerId");
    var name := NameOrDefault(p);
    if Validation.ValidateUUID(lobbyId).Fail? then Failure("Invalid lobby ID")
    else Success(JoinLobby(lobbyId, playerId, name))
  }

  /** The handlers that read `lobbyId` and `playerId` and check nothing more. */
  function ParseLobbyAndPlayer(k: Tag, p: Json): (r: Result<Command, string>)
    requires k.TStartGame? || k.TStartSinglePlayer? || k.TLeaveLobby? || k.TRestartGame?
    ensures FieldsChecked(p, Reads(k), r)
    ensures r.Success? ==> Kind(r.value) == k
  {
    var lobbyId :- Field(p, "lobbyId");
    var playerId :- Field(p, "playerId");
    Success(
      match k
      case TStartGame => StartGame(lobbyId, playerId)
      case TStartSinglePlayer => StartSinglePlayer(lobbyId, playerId)
      case TLeaveLobby => LeaveLobby(lobbyId, playerId)
      case TRestartGame => RestartGame(lobbyId, playerId))
  }

  /** `handleMove`'s checks: the direction must be one of the four words. */
  function ParseMove(p: Json): (r: Result<Command, string>)
    ensures FieldsChecked(p, Reads(TMove), r)
    ensures Field(p, "direction").Success? ==>
              var d := Field(p, "direction").value;
              && (r.Success? <==> ParseDir(d).Some?)
              && (r.Failure? ==> r.error == "invalid direction: " + d)
              && (r.Success? ==> r.value == Move(d))
  {
    var direction :- Field(p, "direction");
    match Validation.ValidateDirection(direction)
    case Fail(e) => Failure(e)
    case Pass => Success(Move(direction))
  }

  /** `handleUpdatePlayerName`'s checks: the id, then a non-empty name. */
  function ParseUpdateName(p: Json): (r: Result<Command, string>)
    ensures FieldsChecked(p, Reads(TUpdatePlayerName), r)
    ensures Field(p, "playerId").Success? && r.Failure? ==> r.error == "Missing or invalid playerName"
    ensures r.Success? ==> r.value.UpdatePlayerName? && r.value.playerName != ""
  {
    var playerId :- Field(p, "playerId");
    if !("playerName" in p.fields && p.fields["playerName"].JStr? && p.fields["playerName"].s != "") then
      Failure("Missing or invalid playerName")
    else Success(UpdatePlayerName(playerId, p.fields["playerName"].s))
  }

  /** The handlers that read one field and check nothing more. */
  function ParseOne(k: Tag, p: Json): (r: Result<Command, string>)
    requires k.TJoinGame? || k.TRequestLobbyUpdate? || k.TDash? || k.TRequestPlayerInfo?
    ensures FieldsChecked(p, Reads(k), r)
    ensures r.Success? ==> Kind(r.value) == k
  {
    var v :- Field(p, Reads(k)[0]);
    Success(
      match k
      case TJoinGame => JoinGame(v)
      case TRequestLobbyUpdate => RequestLobbyUpdate(v)
      case TDash => Dash(v)
      case TRequestPlayerInfo => RequestPlayerInfo(v))
  }

  /** The checks of the handler `k` selects. */
  function ParseFor(k: Tag, p: Json): (r: Result<Command, string>)
    ensures PayloadFree(k) ==> r.Success?
    ensures FieldsChecked(p, Reads(k), r)
    ensures r.Success? ==> Kind(r.value) == k
    ensures r.Success? && r.value.Move? ==> ParseDir(r.value.direction).Some?
    ensures r.Success? && r.value.JoinLobby? ==> Validation.UuidText(r.value.lobbyId) && r.value.playerName != ""
  {
    match k
    case TJoinLobby => ParseJoin(p)
    case TStartGame => ParseLobbyAndPlayer(k, p)
    case TStartSinglePlayer => ParseLobbyAndPlayer(k, p)
    case TLeaveLobby => ParseLobbyAndPlayer(k, p)
    case TRestartGame => ParseLobbyAndPlayer(k, p)
    case TMove => ParseMove(p)
    case TPlaceBomb => Success(PlaceBomb)
    case TRemoteDetonate => Success(RemoteDetonate)
    case TPing => Success(Ping)
    case TUpdatePlayerName => ParseUpdateName(p)
    case TJoinGame => ParseOne(k, p)
    case TRequestLobbyUpdate => ParseOne(k, p)
    case TDash => ParseOne(k, p)
    case TRequestPlayerInfo => ParseOne(k, p)
  }

  /**
   `handleMessage` and the payload checks of each handler: the command a
   message asks for, or the error text sent back for it.
   */
  function Parse(m: Message): (r: Result<Command, string>)
    ensures TagOf(m.msgType).None? ==> r == Failure("Unknown message type: " + m.msgType)
    ensures TagOf(m.msgType).Some? ==> r == ParseFor(TagOf(m.msgType).value, m.payload)
  {
    match TagOf(m.msgType)
    case None => Failure("Unknown message type: " + m.msgType)
    case Some(k) => ParseFor(k, m.payload)
  }

  /** Every handler's own type name selects it. */
  lemma TagOfName(k: Tag)
    ensures TagOf(TagName(k)) == Some(k)
  {
  }

  /**
   A handler that reads fields answers a non-object payload with "Invalid
   payload format" and a missing or non-string field with "Missing <field>",
   the first such field in reading order deciding.
   */
  lemma PayloadErrors(m: Message, k: Tag)
    requires TagName(k) == m.msgType
    ensures |Reads(k)| > 0 && !m.payload.JObj? ==> Parse(m) == Failure("Invalid payload format")
    ensures |Reads(k)| > 0 && m.payload.JObj? && !(Reads(k)[0] in m.payload.fields && m.payload.fields[Reads(k)[0]].JStr?) ==>
              Parse(m) == Failure("Missing " + Reads(k)[0])
    ensures |Reads(k)| > 1 && m.payload.JObj? && Reads(k)[0] in m.payload.fields && m.payload.fields[Reads(k)[0]].JStr?
            && !(Reads(k)[1] in m.payload.fields && m.payload.fields[Reads(k)[1]].JStr?) ==>
              Parse(m) == Failure("Missing " + Reads(k)[1])
  {
    TagOfName(k);
  }

  /** `placeBomb`, `remoteDetonate` and `ping` are accepted whatever their payload. */
  lemma PayloadIgnored(k: Tag, p: Json)
    requires PayloadFree(k)
    ensures Parse(Message(TagName(k), p)) == Success(if k.TPlaceBomb? then PlaceBomb else if k.TRemoteDetonate? then RemoteDetonate else Ping)
  {
    TagOfName(k);
  }

  /** A `move` is accepted exactly with one of the four direction words; any other word gets the validator's error. */
  lemma MoveChecked(p: Json, d: string)
    requires p.JObj? && "direction" in p.fields && p.fields["direction"] == JStr(d)
    ensures Parse(Message("move", p)) == if ParseDir(d).Some? then Success(Move(d)) else Failure("invalid direction: " + d)
  {
    TagOfName(TMove);
  }

  /**
   A `joinLobby` with both ids: a lobby id that is not a UUID is refused with
   "Invalid lobby ID"; otherwise the join goes ahead under the given name, or
   "Player" when the name is absent, not a string or empty.
   */
  lemma JoinChecked(p: Json, lobbyId: string, playerId: string)
    requires p.JObj? && "lobbyId" in p.fields && p.fields["lobbyId"] == JStr(lobbyId)
    requires "playerId" in p.fields && p.fields["playerId"] == JStr(playerId)
    ensures !Validation.UuidText(lobbyId) ==> Parse(Message("joinLobby", p)) == Failure("Invalid lobby ID")
    ensures Validation.UuidText(lobbyId) && !("playerName" in p.fields && p.fields["playerName"].JStr? && p.fields["playerName"].s != "") ==>
              Parse(Message("joinLobby", p)) == Success(JoinLobby(lobbyId, playerId, "Player"))
    ensures Validation.UuidText(lobbyId) && "playerName" in p.fields && p.fields["playerName"].JStr? && p.fields["playerName"].s != "" ==>
              Parse(Message("joinLobby", p)) == Success(JoinLobby(lobbyId, playerId, p.fields["playerName"].s))
  {
    TagOfName(TJoinLobby);
  }
}

=== FILE: orders.dfy ===
/**
 Iteration orders. Go's `range` over a map visits every key exactly once, in
 an unspecified order that changes from loop to loop. The model makes that
 order an explicit argument: a sequence of keys that `Enumerates` the map.
 Fresh UUIDs come from an id source `nat -> string`, the n-th id drawn.
 */
module Orders {

  /** No element occurs twice. */
  predicate Distinct<T(==)>(s: seq<T>) {
    forall i, j :: 0 <= i < j < |s| ==> s[i] != s[j]
  }

  /** `s` lists every element of `keys` exactly once and nothing else. */
  predicate Enumerates(s: seq<string>, keys: set<string>) {
    && Distinct(s)
    && (forall x :: x in keys ==> x in s)
    && (forall i :: 0 <= i < |s| ==> s[i] in keys)
  }

  /** A duplicate-free listing has exactly as many entries as the set it lists. */
  lemma {:induction false} EnumerationSize(s: seq<string>, keys: set<string>)
    requires Enumerates(s, keys)
    ensures |s| == |keys|
  {
    if |s| == 0 {
      assert keys == {};
    } else {
      assert s[0] in keys;
      TailEnumerates(s, keys);
      EnumerationSize(s[1..], keys - {s[0]});
    }
  }

  /** Removing the head of an enumeration enumerates the rest of the set. */
  lemma TailEnumerates(s: seq<string>, keys: set<string>)
    requires |s| > 0 && Enumerates(s, keys)
    ensures Enumerates(s[1..], keys - {s[0]})
  {
    forall x ensures x in keys - {s[0]} <==> x in s[1..] {
      if x in s[1..] {
        var k :| 1 <= k < |s| && s[k] == x;
        assert s[0] != s[k];
      }
      if x in keys && x != s[0] {
        var k :| 0 <= k < |s| && s[k] == x;
        assert k != 0;
        assert s[1..][k - 1] == x;
      }
    }
    forall i, j | 0 <= i < j < |s[1..]| ensures s[1..][i] != s[1..][j] {
      assert s[1..][i] == s[i + 1] && s[1..][j] == s[j + 1];
    }
  }

  /** Distinct draws from the id source give distinct ids, as fresh UUIDs do. */
  ghost predicate Injective(ids: nat -> string) {
    forall a, b :: ids(a) == ids(b) ==> a == b
  }
}

=== FILE: ratelimit.dfy ===
/**
 The sliding-window rate limiter of backend/middleware.go. Each client key
 keeps the times of its accepted requests; a request is accepted while fewer
 than `limit` of them fall inside the window ending now. Times are
 milliseconds and the clock is a parameter.
 */
module RateLimit {
  datatype Limiter = Limiter(requests: map<string, seq<int>>, limit: int, window: int)

  datatype Decision = Decision(limiter: Limiter, allowed: bool)

  /** The request times strictly after `start`, each as often as it was recorded, in their original order. */
  function Recent(times: seq<int>, start: int): (r: seq<int>)
    ensures |r| <= |times|
    ensures forall t :: t in r <==> t in times && t > start
    ensures forall t :: multiset(r)[t] == if t > start then multiset(times)[t] else 0
    decreases |times|
  {
    if |times| == 0 then []
    else
      assert times == [times[0]] + times[1..];
      (if times[0] > start then [times[0]] else []) + Recent(times[1..], start)
  }

  /** Pruning works entry by entry: the kept times stay in their order. */
  lemma {:induction false} RecentConcat(a: seq<int>, b: seq<int>, start: int)
    ensures Recent(a + b, start) == Recent(a, start) + Recent(b, start)
    decreases |a|
  {
    if |a| > 0 {
      assert (a + b)[0] == a[0] && (a + b)[1..] == a[1..] + b;
      RecentConcat(a[1..], b, start);
    } else {
      assert a + b == b;
    }
  }

  /** Pruning twice is pruning once. */
  lemma {:induction false} RecentIdempotent(times: seq<int>, start: int)
    ensures Recent(Recent(times, start), start) == Recent(times, start)
    decreases |times|
  {
    if |times| > 0 {
      RecentIdempotent(times[1..], start);
      var rest := Recent(times[1..], start);
      if times[0] > start {
        var r := [times[0]] + rest;
        assert r[0] == times[0] && r[1..] == rest;
        assert Recent(times, start) == r;
        assert Recent(r, start) == [times[0]] + Recent(rest, start);
      } else {
        assert Recent(times, start) == [] + rest == rest;
      }
    }
  }

  /** Nothing is dropped from times that all lie inside the window. */
  lemma {:induction false} RecentAllInside(times: seq<int>, start: int)
    requires forall k :: 0 <= k < |times| ==> times[k] > start
    ensures Recent(times, start) == times
    decreases |times|
  {
    if |times| > 0 {
      RecentAllInside(times[1..], start);
      assert [times[0]] + times[1..] == times;
    }
  }

  /**
   `Allow`: a known key's history is pruned to the window; the request is
   refused when the pruned history already holds `limit` entries, and a
   refusal is not recorded. A key never seen before is always accepted.
   */
  function Allow(l: Limiter, key: string, now: int): (r: Decision)
    ensures r.limiter.limit == l.limit && r.limiter.window == l.window
    ensures r.limiter.requests.Keys == l.requests.Keys + {key}
    ensures forall k :: k in l.requests && k != key ==> r.limiter.requests[k] == l.requests[k]
    ensures key !in l.requests ==> r.allowed && r.limiter.requests[key] == [now]
    ensures key in l.requests ==>
              var kept := Recent(l.requests[key], now - l.window);
              && (r.allowed <==> |kept| < l.limit)
              && r.limiter.requests[key] == if r.allowed then kept + [now] else kept
  {
    if key in l.requests then
      var kept := Recent(l.requests[key], now - l.window);
      if |kept| >= l.limit then Decision(l.(requests := l.requests[key := kept]), false)
      else Decision(l.(requests := l.requests[key := kept + [now]]), true)
    else Decision(l.(requests := l.requests[key := [now]]), true)
  }

  /** No key holds more than `limit` request times. */
  predicate Bounded(l: Limiter) {
    forall k :: k in l.requests ==> |l.requests[k]| <= l.limit
  }

  /** With a limit of at least one, no key ever records more than `limit` requests. */
  lemma AllowBounded(l: Limiter, key: string, now: int)
    requires Bounded(l) && l.limit >= 1
    ensures Bounded(Allow(l, key, now).limiter)
  {
  }

  /** Once a key is refused, asking again at the same moment is refused again and changes nothing. */
  lemma RefusalStays(l: Limiter, key: string, now: int)
    requires !Allow(l, key, now).allowed
    ensures var r := Allow(l, key, now).limiter;
            Allow(r, key, now) == Decision(r, false)
  {
    RecentIdempotent(l.requests[key], now - l.window);
    var r := Allow(l, key, now).limiter;
    assert r.requests[key := r.requests[key]] == r.requests;
  }

  /**
   A key that made `limit` accepted requests within the window is refused:
   the limiter never lets more than `limit` through inside one window.
   */
  lemma FullWindowRefused(l: Limiter, key: string, now: int)
    requires key in l.requests && |l.requests[key]| >= l.limit
    requires forall k :: 0 <= k < |l.requests[key]| ==> l.requests[key][k] > now - l.window
    ensures !Allow(l, key, now).allowed
  {
    RecentAllInside(l.requests[key], now - l.window);
  }

  /**
   `getClientIP`: the `X-Forwarded-For` header when set, else `X-Real-IP`,
   else the connection's remote address; an absent header reads as "".
   */
  function ClientIp(forwardedFor: string, realIp: string, remoteAddr: string): (ip: string)
    ensures forwardedFor != "" ==> ip == forwardedFor
    ensures forwardedFor == "" && realIp != "" ==> ip == realIp
    ensures forwardedFor == "" && realIp == "" ==> ip == remoteAddr
  {
    if forwardedFor != "" then forwardedFor else if realIp != "" then realIp else remoteAddr
  }
}

=== FILE: registry.dfy ===
/**
 The process-wide match registry of backend/game.go: the `games` map keyed by
 game id, the two lookups that scan it in map order, `isActive` and
 `cleanupGame`. Game ids are fresh UUIDs, so "this game object is the one
 registered under its id" is modelled as "its id is registered".
 */
module Registry {
  import opened Wrappers
  import opened Orders
  import opened Types

  datatype Registry = Registry(games: map<string, Game>)

  /** Every game is filed under its own id. */
  predicate Filed(reg: Registry) {
    forall id :: id in reg.games ==> reg.games[id].id == id
  }

  /** Filed, and every registered match satisfies the engine's invariants. */
  predicate Sound(reg: Registry) {
    Filed(reg) && forall id :: id in reg.games ==> Invariants(reg.games[id])
  }

  /** No id listed before position `i` of `order` is a registered game satisfying `p`. */
  predicate NoneBefore(games: map<string, Game>, order: seq<string>, i: int, p: Game -> bool)
    requires 0 <= i <= |order|
  {
    forall j :: 0 <= j < i && order[j] in games ==> !p(games[order[j]])
  }

  /** The first registered game in `order` that satisfies `p`. */
  function FirstMatch(games: map<string, Game>, order: seq<string>, p: Game -> bool): (r: Option<string>)
    ensures r.Some? ==> r.value in games && p(games[r.value])
    ensures r.Some? ==> exists i :: 0 <= i < |order| && order[i] == r.value && NoneBefore(games, order, i, p)
    ensures r.None? <==> NoneBefore(games, order, |order|, p)
    decreases |order|
  {
    if |order| == 0 then None
    else if order[0] in games && p(games[order[0]]) then
      assert NoneBefore(games, order, 0, p);
      Some(order[0])
    else
      var r := FirstMatch(games, order[1..], p);
      assert forall i :: 0 <= i < |order| - 1 && NoneBefore(games, order[1..], i, p) ==> NoneBefore(games, order, i + 1, p);
      assert NoneBefore(games, order[1..], |order| - 1, p) <==> NoneBefore(games, order, |order|, p);
      r
  }

  /** `getGameByLobbyID`: the id of the first game, in map order, of the lobby. */
  function GameByLobby(reg: Registry, order: seq<string>, lobbyId: string): (r: Option<string>)
    ensures r.Some? ==> r.value in reg.games && reg.games[r.value].lobbyId == lobbyId
    ensures Enumerates(order, reg.games.Keys) ==>
              (r.None? <==> forall id :: id in reg.games ==> reg.games[id].lobbyId != lobbyId)
  {
    var r := FirstMatch(reg.games, order, (g: Game) => g.lobbyId == lobbyId);
    assert Enumerates(order, reg.games.Keys) && r.None? ==>
      forall id :: id in reg.games ==> reg.games[id].lobbyId != lobbyId by {
      if Enumerates(order, reg.games.Keys) && r.None? {
        forall id | id in reg.games ensures reg.games[id].lobbyId != lobbyId {
          var j :| 0 <= j < |order| && order[j] == id;
        }
      }
    }
    r
  }

  /** `getGameByPlayerID`: the id of the first game, in map order, that seats the player. */
  function GameByPlayer(reg: Registry, order: seq<string>, pid: string): (r: Option<string>)
    ensures r.Some? ==> r.value in reg.games && pid in reg.games[r.value].players
    ensures Enumerates(order, reg.games.Keys) ==>
              (r.None? <==> forall id :: id in reg.games ==> pid !in reg.games[id].players)
  {
    var r := FirstMatch(reg.games, order, (g: Game) => pid in g.players);
    assert Enumerates(order, reg.games.Keys) && r.None? ==>
      forall id :: id in reg.games ==> pid !in reg.games[id].players by {
      if Enumerates(order, reg.games.Keys) && r.None? {
        forall id | id in reg.games ensures pid !in reg.games[id].players {
          var j :| 0 <= j < |order| && order[j] == id;
        }
      }
    }
    r
  }

  /** `isActive`: the game is still the registered one. */
  predicate IsActive(reg: Registry, gid: string) {
    gid in reg.games
  }

  /** `cleanupGame`: the game leaves the registry; an unregistered id is a no-op. */
  function Cleanup(reg: Registry, gid: string): (r: Registry)
    ensures !IsActive(r, gid)
    ensures !IsActive(reg, gid) ==> r == reg
    ensures forall id :: id != gid ==> (IsActive(r, id) <==> IsActive(reg, id))
    ensures forall id :: id in r.games ==> id in reg.games && r.games[id] == reg.games[id]
  {
    if gid in reg.games then Registry(reg.games - {gid}) else reg
  }

  /** When a lobby has exactly one game, the lookup by lobby finds it whatever the map order. */
  lemma OnlyGameFound(reg: Registry, order: seq<string>, lobbyId: string, gid: string)
    requires Enumerates(order, reg.games.Keys)
    requires gid in reg.games && reg.games[gid].lobbyId == lobbyId
    requires forall id :: id in reg.games && reg.games[id].lobbyId == lobbyId ==> id == gid
    ensures GameByLobby(reg, order, lobbyId) == Some(gid)
  {
  }

  /** Cleaning up twice is cleaning up once, and a cleaned-up game is never found again. */
  lemma CleanupIdempotent(reg: Registry, gid: string, order: seq<string>, lobbyId: string, pid: string)
    ensures Cleanup(Cleanup(reg, gid), gid) == Cleanup(reg, gid)
    ensures GameByLobby(Cleanup(reg, gid), order, lobbyId) != Some(gid)
    ensures GameByPlayer(Cleanup(reg, gid), order, pid) != Some(gid)
  {
  }
}

=== FILE: sockets.dfy ===
/**
 The websocket hub of backend/websocket.go: the registered connections keyed
 by connection id, each with the player and lobby it speaks for and its
 bounded outgoing queue of 256 frames. Marshalled JSON is abstracted to a
 frame's type and a payload tag.
 */
module Sockets {
  /** What a frame carries, in place of its JSON text. */
  datatype Payload =
    | Text(text: string)
    | GameOf(gameId: string)
    | PowerupsOf(gameId: string)
    | LobbyOf(lobbyId: string)
    | PlayerInfo(playerName: string)

  datatype Frame = Frame(msgType: string, payload: Payload)

  /** `make(chan []byte, 256)`: the capacity of every outgoing queue. */
  const QueueCapacity := 256

  datatype Conn = Conn(id: string, playerId: string, lobbyId: string, queue: seq<Frame>)

  datatype Hub = Hub(conns: map<string, Conn>)

  /** A queue with room for one more frame. */
  predicate HasRoom(c: Conn) {
    |c.queue| < QueueCapacity
  }

  /** Every queue within capacity, every connection filed under its id. */
  predicate Bounded(h: Hub) {
    forall id :: id in h.conns ==> h.conns[id].id == id && |h.conns[id].queue| <= QueueCapacity
  }

  /** One frame onto a queue with room; a full queue refuses it. */
  function Offer(c: Conn, f: Frame): (r: Conn)
    ensures HasRoom(c) ==> r == c.(queue := c.queue + [f])
    ensures !HasRoom(c) ==> r == c
    ensures |r.queue| <= if HasRoom(c) then QueueCapacity else |c.queue|
  {
    if HasRoom(c) then c.(queue := c.queue + [f]) else c
  }

  /** The hub's register case: the connection is filed under its id, replacing any earlier one. */
  function Register(h: Hub, c: Conn): (r: Hub)
    ensures c.id in r.conns && r.conns[c.id] == c
    ensures forall id :: id != c.id ==> (id in r.conns <==> id in h.conns)
    ensures forall id :: id in h.conns && id != c.id ==> r.conns[id] == h.conns[id]
  {
    Hub(h.conns[c.id := c])
  }

  datatype Closing = Closing(hub: Hub, closed: bool)

  /**
   The hub's unregister case: a registered connection leaves the hub and its
   queue is closed; an id the hub does not hold is left alone.
   */
  function Unregister(h: Hub, id: string): (r: Closing)
    ensures r.closed <==> id in h.conns
    ensures id !in r.hub.conns
    ensures !r.closed ==> r.hub == h
    ensures forall k :: k != id ==> (k in r.hub.conns <==> k in h.conns)
    ensures forall k :: k in r.hub.conns ==> r.hub.conns[k] == h.conns[k]
  {
    if id in h.conns then Closing(Hub(h.conns - {id}), true) else Closing(h, false)
  }

  /** Repeating an unregister closes nothing and changes nothing. */
  lemma UnregisterTwice(h: Hub, id: string)
    ensures var once := Unregister(h, id).hub;
            Unregister(once, id) == Closing(once, false)
  {
  }

  datatype Sweep = Sweep(hub: Hub, dropped: set<string>)

  /**
   The hub's broadcast case: every connection with room takes the frame; a
   connection whose queue is full is closed and leaves the hub.
   */
  function HubBroadcast(h: Hub, f: Frame): (r: Sweep)
    ensures forall id :: id in r.hub.conns <==> id in h.conns && HasRoom(h.conns[id])
    ensures forall id :: id in r.hub.conns ==> r.hub.conns[id] == h.conns[id].(queue := h.conns[id].queue + [f])
    ensures forall id :: id in r.dropped <==> id in h.conns && !HasRoom(h.conns[id])
  {
    Sweep(Hub(map id | id in h.conns && HasRoom(h.conns[id]) :: Offer(h.conns[id], f)),
          set id | id in h.conns && !HasRoom(h.conns[id]))
  }

  /** A connection the broadcast case dropped is not closed again by its own unregister. */
  lemma DroppedClosedOnce(h: Hub, f: Frame, id: string)
    requires id in HubBroadcast(h, f).dropped
    ensures !Unregister(HubBroadcast(h, f).hub, id).closed
  {
  }

  datatype Fanout = Fanout(hub: Hub, sentTo: set<string>)

  /**
   `broadcastToLobby`: the frame goes onto the queue of every connection of
   the lobby that has room; a full queue is skipped and the connection stays.
   */
  function BroadcastToLobby(h: Hub, lobbyId: string, f: Frame): (r: Fanout)
    ensures r.hub.conns.Keys == h.conns.Keys
    ensures forall id :: id in r.sentTo <==> id in h.conns && h.conns[id].lobbyId == lobbyId && HasRoom(h.conns[id])
    ensures forall id :: id in h.conns ==>
              r.hub.conns[id] == if id in r.sentTo then h.conns[id].(queue := h.conns[id].queue + [f]) else h.conns[id]
  {
    Fanout(Hub(map id | id in h.conns :: if h.conns[id].lobbyId == lobbyId then Offer(h.conns[id], f) else h.conns[id]),
           set id | id in h.conns && h.conns[id].lobbyId == lobbyId && HasRoom(h.conns[id]))
  }

  /** `sendMessage`: the frame onto one connection's queue when it has room. */
  function Send(h: Hub, id: string, f: Frame): (r: Hub)
    ensures r.conns.Keys == h.conns.Keys
    ensures forall k :: k in h.conns && k != id ==> r.conns[k] == h.conns[k]
    ensures id in h.conns ==> r.conns[id] == Offer(h.conns[id], f)
  {
    if id in h.conns then Hub(h.conns[id := Offer(h.conns[id], f)]) else h
  }

  /** Registering, unregistering and replying never grow a queue past its capacity. */
  lemma StaysBounded(h: Hub, c: Conn, id: string, f: Frame)
    requires Bounded(h) && |c.queue| <= QueueCapacity
    ensures Bounded(Register(h, c))
    ensures Bounded(Unregister(h, id).hub)
    ensures Bounded(Send(h, id, f))
  {
  }

  /** Neither broadcast grows a queue past its capacity. */
  lemma BroadcastsBounded(h: Hub, lobbyId: string, f: Frame)
    requires Bounded(h)
    ensures Bounded(HubBroadcast(h, f).hub)
    ensures Bounded(BroadcastToLobby(h, lobbyId, f).hub)
  {
  }
}

=== FILE: timers.dfy ===
/**
 The timers of a running match (backend/game.go): a detonation, the effect
 expiry, the hazard clean-up half a second after a blast, the powerup wave
 one minute in, the match end two minutes in and the teardown five seconds
 after that.

 A bomb has no fuse of its own: it goes off only in a `go g.explodeBomb`
 goroutine, started by a remote detonation (backend/game.go:395), by a bomb
 placed at capacity (backend/game.go:486) or by a chain
 (backend/game.go:590 and 651). The `Detonate` event stands for that
 goroutine.

 A timer belongs to one game object. The detonation, expiry and clean-up
 first ask `isActive` and do nothing for a game that is no longer the one
 registered under its id. The wave and match-end timers do not ask. A match
 dropped by a restart or a single-player start never had them stopped, so
 they still work on an object nobody can look up any more and still send
 their frame to the lobby, which may be playing another match by then. The
 teardown removes the id from the registry when present.
 */
module Timers {
  import opened Wrappers
  import opened Orders
  import opened Types
  import opened Engine
  import opened Blast
  import BlastEffects
  import EngineFacts
  import opened Registry
  import opened Sockets
  import Lobby

  /** The oracles a firing may consult: map orders, fresh ids and the powerup draws. */
  datatype Env = Env(o: MapOrders, ids: nat -> string, pick: nat -> nat, puIds: nat -> string, now: int)

  /** A frame for every connection of a lobby (`broadcastToLobby`). */
  datatype Broadcast = Broadcast(lobbyId: string, frame: Frame)

  /** The registry after a timer fired, the work the firing scheduled and the frames it sent. */
  datatype Fired = Fired(reg: Registry, events: seq<Event>, sent: seq<Broadcast>)

  const WaveLevel := 2

  /** Every registered match has a rectangular board. */
  predicate Grids(reg: Registry) {
    forall id :: id in reg.games ==> IsGrid(reg.games[id].board)
  }

  /** Replace the registered game `gid` by its successor. */
  function Refile(reg: Registry, gid: string, g: Game): Registry {
    Registry(reg.games[gid := g])
  }

  /**
   What a timer does to its own game object: detonate, expire an effect,
   clear a blast, lay the level-2 wave or finish the match. The teardown's
   work on the object is invisible once the id is unregistered.
   */
  function Act(g: Game, e: Event, env: Env): (r: Step)
    requires IsGrid(g.board)
    ensures e.Teardown? ==> r == Step(g, [])
  {
    match e
    case Detonate(bid) => Explode(g, bid, env.o, env.ids, env.now)
    case ExpireEffect(pid, kind, _) => Step(ExpirePowerup(g, pid, kind), [])
    case ClearHazards(bid, hazards, _) => Step(ClearBlast(g, bid, hazards), [])
    case PowerupWave(_, _) => Step(g.(powerups := Lobby.GeneratePowerups(WaveLevel, env.pick, env.puIds)), [])
    case MatchEnd(_, _) => FinishMatch(g, env.o.players, env.now)
    case Teardown(_, _) => Step(g, [])
  }

  /**
   The frame a timer's callback sends: the match state after a detonation
   whose bomb was still there and after the clean-up, both only on a
   registered match; the new powerups after the wave and the final state
   after the match end, registered or not. Expiry and teardown send nothing.
   */
  function Report(reg: Registry, gid: string, e: Event): seq<Broadcast> {
    match e
    case Detonate(bid) =>
      if IsActive(reg, gid) && bid in reg.games[gid].bombs
      then [Broadcast(reg.games[gid].lobbyId, Frame("gameState", GameOf(gid)))] else []
    case ClearHazards(_, _, _) =>
      if IsActive(reg, gid) then [Broadcast(reg.games[gid].lobbyId, Frame("gameState", GameOf(gid)))] else []
    case PowerupWave(l, _) => [Broadcast(l, Frame("powerupSpawn", PowerupsOf(gid)))]
    case MatchEnd(l, _) => [Broadcast(l, Frame("gameState", GameOf(gid)))]
    case ExpireEffect(_, _, _) => []
    case Teardown(_, _) => []
  }

  /** The timer event `e`, scheduled by the game object registered as `gid`, fires. */
  function Fire(reg: Registry, gid: string, e: Event, env: Env): (r: Fired)
    requires Grids(reg)
    ensures e.Teardown? ==> r == Fired(Cleanup(reg, e.gameId), [], [])
    ensures e.MatchEnd? && Filed(reg) ==> r.events == [Teardown(gid, env.now + 5000)]
    ensures !e.Teardown? && !IsActive(reg, gid) ==> r.reg == reg
    ensures !e.Teardown? && !e.MatchEnd? && !IsActive(reg, gid) ==> r.events == []
    ensures r.reg.games.Keys <= reg.games.Keys
    ensures forall id :: id in r.reg.games && id != gid ==> r.reg.games[id] == reg.games[id]
    ensures e.PowerupWave? ==> r.sent == [Broadcast(e.lobbyId, Frame("powerupSpawn", PowerupsOf(gid)))]
    ensures e.MatchEnd? ==> r.sent == [Broadcast(e.lobbyId, Frame("gameState", GameOf(gid)))]
    ensures e.ExpireEffect? || e.Teardown? ==> r.sent == []
    ensures e.Detonate? || e.ClearHazards? ==>
              && |r.sent| <= 1
              && (r.sent != [] <==> IsActive(reg, gid) && (e.Detonate? ==> e.bombId in reg.games[gid].bombs))
              && (r.sent != [] ==> r.sent[0] == Broadcast(reg.games[gid].lobbyId, Frame("gameState", GameOf(gid))))
  {
    if e.Teardown? then Fired(Cleanup(reg, e.gameId), [], [])
    else if !IsActive(reg, gid) then Fired(reg, if e.MatchEnd? then [Teardown(gid, env.now + 5000)] else [], Report(reg, gid, e))
    else
      var s := Act(reg.games[gid], e, env);
      Fired(Refile(reg, gid, s.game), s.events, Report(reg, gid, e))
  }

  /**
   The timers as the teardown means them to be: a match that left the
   registry has every timer stopped, as `endGame` stops them, so its timers
   do nothing at all; on a registered match, and for the teardown itself,
   this is `Fire`.
   */
  function FireStopped(reg: Registry, gid: string, e: Event, env: Env): (r: Fired)
    requires Grids(reg)
    ensures !e.Teardown? && !IsActive(reg, gid) ==> r == Fired(reg, [], [])
    ensures e.Teardown? || IsActive(reg, gid) ==> r == Fire(reg, gid, e, env)
  {
    if !e.Teardown? && !IsActive(reg, gid) then Fired(reg, [], []) else Fire(reg, gid, e, env)
  }

  /** Clearing a blast's bomb and hazards keeps the match invariants. */
  lemma ClearKeeps(g: Game, bid: string, hazards: seq<string>)
    requires Invariants(g)
    ensures Invariants(ClearBlast(g, bid, hazards))
  {
    var r := ClearBlast(g, bid, hazards);
    forall q | q in r.players ensures |Owned(r.bombs, q)| <= r.players[q].maxBombs {
      EngineFacts.SubsetCard(Owned(r.bombs, q), Owned(g.bombs, q));
    }
  }

  /** A timer's work on its own game keeps the match invariants and the game's identity. */
  lemma ActKeeps(g: Game, e: Event, env: Env)
    requires Invariants(g)
    ensures var r := Act(g, e, env).game;
            Invariants(r) && r.id == g.id && r.lobbyId == g.lobbyId
  {
    match e
    case Detonate(bid) =>
      if bid in g.bombs {
        BlastEffects.ExplodeKeeps(g, bid, env.o, env.ids, env.now);
      }
      BlastEffects.ExplodeFrame(g, bid, env.o, env.ids, env.now);
    case ExpireEffect(pid, kind, _) => EngineFacts.ExpireKeeps(g, pid, kind);
    case ClearHazards(bid, hazards, _) => ClearKeeps(g, bid, hazards);
    case PowerupWave(_, _) =>
    case MatchEnd(_, _) =>
    case Teardown(_, _) =>
  }

  /** Firing any timer keeps every registered match sound and filed under its id. */
  lemma FireKeeps(reg: Registry, gid: string, e: Event, env: Env)
    requires Sound(reg)
    ensures Sound(Fire(reg, gid, e, env).reg)
  {
    if !e.Teardown? && IsActive(reg, gid) {
      var g := reg.games[gid];
      ActKeeps(g, e, env);
      Lobby.FilingKeeps(reg, Act(g, e, env).game);
    }
  }

  /**
   Once a match of the lobby has been replaced by a new one under another
   id, every timer of the stale match, its own teardown included, leaves the
   registry as it is, and only the wave and the match end still send.
   */
  lemma StaleTimerSilent(reg: Registry, r: Registry, lobbyId: string, gid: string, stale: string, e: Event, env: Env)
    requires Lobby.Replaced(reg, r, lobbyId, gid) && Grids(r)
    requires stale in reg.games && reg.games[stale].lobbyId == lobbyId && stale != gid
    requires e.Teardown? ==> e.gameId == stale
    ensures !IsActive(r, stale)
    ensures Fire(r, stale, e, env).reg == r
    ensures !e.PowerupWave? && !e.MatchEnd? ==> Fire(r, stale, e, env).sent == []
  {
  }

  /**
   After a start on a lobby, the timers of the match it replaced leave the
   new registry alone, but the old wave still sends its powerups and the old
   match end its finished state to the lobby, now playing the new match.
   Every other old timer sends nothing.
   */
  lemma OldTimersAfterRestart(reg: Registry, lobbyId: string, requester: string, roster: seq<Lobby.Member>,
                              requesterName: Option<string>, draws: Lobby.Draws, now: int, stale: string, e: Event, env: Env)
    requires Sound(reg) && |roster| > 0
    requires stale in reg.games && reg.games[stale].lobbyId == lobbyId && stale != draws.gameId
    requires e.Teardown? ==> e.gameId == stale
    requires e.PowerupWave? || e.MatchEnd? ==> e.lobbyId == lobbyId
    ensures var r := Lobby.StartGame(reg, lobbyId, requester, roster, requesterName, draws, now).reg;
            && Grids(r) && Fire(r, stale, e, env).reg == r
            && (e.PowerupWave? ==> Fire(r, stale, e, env).sent == [Broadcast(lobbyId, Frame("powerupSpawn", PowerupsOf(stale)))])
            && (e.MatchEnd? ==> Fire(r, stale, e, env).sent == [Broadcast(lobbyId, Frame("gameState", GameOf(stale)))])
            && (!e.PowerupWave? && !e.MatchEnd? ==> Fire(r, stale, e, env).sent == [])
  {
    var r := Lobby.StartGame(reg, lobbyId, requester, roster, requesterName, draws, now).reg;
    Lobby.StartKeeps(reg, lobbyId, requester, roster, requesterName, draws, now);
    StaleTimerSilent(reg, r, lobbyId, draws.gameId, stale, e, env);
  }

  /**
   With the timers stopped as intended, a start silences every timer of the
   match it replaced: none changes the registry, schedules work or sends a frame.
   */
  lemma StoppedAfterRestart(reg: Registry, lobbyId: string, requester: string, roster: seq<Lobby.Member>,
                            requesterName: Option<string>, draws: Lobby.Draws, now: int, stale: string, e: Event, env: Env)
    requires Sound(reg) && |roster| > 0
    requires stale in reg.games && reg.games[stale].lobbyId == lobbyId && stale != draws.gameId
    requires e.Teardown? ==> e.gameId == stale
    ensures var r := Lobby.StartGame(reg, lobbyId, requester, roster, requesterName, draws, now).reg;
            Grids(r) && FireStopped(r, stale, e, env) == Fired(r, [], [])
  {
    var r := Lobby.StartGame(reg, lobbyId, requester, roster, requesterName, draws, now).reg;
    Lobby.StartKeeps(reg, lobbyId, requester, roster, requesterName, draws, now);
    StaleTimerSilent(reg, r, lobbyId, draws.gameId, stale, e, env);
    if e.Teardown? {
      assert Cleanup(r, stale) == r;
    }
  }

  /**
   The match timer finishes a registered match in place: finished, stamped
   with the firing time, winner chosen over the player order, and the
   teardown scheduled 5 s on.
   */
  lemma MatchEndFinishes(reg: Registry, gid: string, l: string, due: int, env: Env)
    requires Grids(reg) && Filed(reg) && IsActive(reg, gid)
    ensures var f := Fire(reg, gid, MatchEnd(l, due), env);
            var g := reg.games[gid];
            && f.reg.games == reg.games[gid := g.(status := Finished, endTime := Some(env.now), winner := Winner(g.players, env.o.players))]
            && f.events == [Teardown(gid, env.now + 5000)]
            && f.sent == [Broadcast(l, Frame("gameState", GameOf(gid)))]
  {
  }

  /** The teardown the match timer schedules removes exactly that match. */
  lemma MatchEndThenTeardown(reg: Registry, gid: string, l: string, due: int, env: Env, later: Env)
    requires Grids(reg) && Filed(reg) && IsActive(reg, gid)
    ensures var f := Fire(reg, gid, MatchEnd(l, due), env);
            && Grids(f.reg) && f.events == [Teardown(gid, env.now + 5000)]
            && Fire(f.reg, gid, Teardown(gid, env.now + 5000), later).reg.games == reg.games - {gid}
            && !IsActive(Fire(f.reg, gid, Teardown(gid, env.now + 5000), later).reg, gid)
  {
    MatchEndFinishes(reg, gid, l, due, env);
    var f := Fire(reg, gid, MatchEnd(l, due), env);
    assert Grids(f.reg) by {
      forall id | id in f.reg.games ensures IsGrid(f.reg.games[id].board) {
        assert f.reg.games[id].board == reg.games[id].board;
      }
    }
    assert f.reg.games.Keys == reg.games.Keys;
    assert Fire(f.reg, gid, Teardown(gid, env.now + 5000), later).reg == Cleanup(f.reg, gid);
    assert Cleanup(f.reg, gid).games == f.reg.games - {gid};
    assert forall id :: id in reg.games - {gid} ==> (reg.games - {gid})[id] == f.reg.games[id];
  }

  /**
   The powerup wave on a registered match swaps in a fresh level-2 layout
   and touches nothing else.
   */
  lemma WaveLays(reg: Registry, gid: string, l: string, due: int, env: Env)
    requires Grids(reg) && IsActive(reg, gid)
    ensures var w := Fire(reg, gid, PowerupWave(l, due), env);
            var g := reg.games[gid];
            && w.events == []
            && w.reg.games == reg.games[gid := g.(powerups := Lobby.GeneratePowerups(WaveLevel, env.pick, env.puIds))]
            && Lobby.Layout(w.reg.games[gid].powerups, WaveLevel)
  {
  }

  /** With distinct ids the wave lays exactly three: the level-1 shield at the centre and two level-2 range boosts. */
  lemma WaveThree(reg: Registry, gid: string, l: string, due: int, env: Env)
    requires Grids(reg) && IsActive(reg, gid) && Injective(env.puIds)
    ensures var pus := Fire(reg, gid, PowerupWave(l, due), env).reg.games[gid].powerups;
            && |pus| == 3
            && env.puIds(0) in pus && pus[env.puIds(0)] == Powerup(env.puIds(0), ShieldKind, 1, Lobby.Centre, None)
            && forall id :: id in pus && id != env.puIds(0) ==> pus[id].kind == BombRangeKind && pus[id].level == WaveLevel
  {
    WaveLays(reg, gid, l, due, env);
  }
}

=== FILE: tracker.dfy ===
/**
 The session and presence tracker of backend/player_tracker.go. A player's
 session records the lobby, name, timestamps, a status (`active`, `idle` or
 `disconnected`) and the set of websocket connection ids it holds; a
 separate map keeps each player's last heartbeat. The three monitoring
 sweeps take the current time as a parameter.
 */
module Tracker {
  import opened Wrappers
  import opened Orders

  const Active := "active"
  const Idle := "idle"
  const Disconnected := "disconnected"

  /** Idle after 2 minutes without activity. */
  const IdleAfter := 120000
  /** Disconnected after 3 minutes without a heartbeat. */
  const DisconnectAfter := 180000
  /** Forgotten 10 minutes after the disconnect. */
  const StaleAfter := 600000

  datatype Session = Session(
    playerId: string,
    lobbyId: string,
    playerName: string,
    isAI: bool,
    connectedAt: int,
    lastSeen: int,
    heartbeat: int,
    status: string,
    sockets: set<string>)

  datatype Tracker = Tracker(sessions: map<string, Session>, heartbeats: map<string, int>)

  /** Nothing outside player `pid`'s session and heartbeat changes. */
  ghost predicate OthersKept(t: Tracker, r: Tracker, pid: string) {
    && (forall id :: id != pid ==> (id in r.sessions <==> id in t.sessions))
    && (forall id :: id != pid ==> (id in r.heartbeats <==> id in t.heartbeats))
    && (forall id :: id in r.sessions && id != pid ==> r.sessions[id] == t.sessions[id])
    && (forall id :: id in r.heartbeats && id != pid ==> r.heartbeats[id] == t.heartbeats[id])
  }

  /**
   `RegisterPlayer`: a known player gains the connection and is refreshed
   and active, keeping its lobby, name, AI flag and connection time; an
   unknown player gets a new active session holding just this connection.
   Either way the heartbeat is recorded.
   */
  function Register(t: Tracker, pid: string, lobbyId: string, name: string, socket: string, isAI: bool, now: int): (r: Tracker)
    ensures pid in r.sessions && socket in r.sessions[pid].sockets && r.sessions[pid].status == Active
    ensures r.heartbeats == t.heartbeats[pid := now]
    ensures r.sessions[pid].lastSeen == now && r.sessions[pid].heartbeat == now
    ensures pid in t.sessions ==>
              var s := t.sessions[pid];
              r.sessions[pid] == s.(sockets := s.sockets + {socket}, lastSeen := now, heartbeat := now, status := Active)
    ensures pid !in t.sessions ==> r.sessions[pid] == Session(pid, lobbyId, name, isAI, now, now, now, Active, {socket})
    ensures OthersKept(t, r, pid)
  {
    var s :=
      if pid in t.sessions then
        var known := t.sessions[pid];
        known.(sockets := known.sockets + {socket}, lastSeen := now, heartbeat := now, status := Active)
      else Session(pid, lobbyId, name, isAI, now, now, now, Active, {socket});
    Tracker(t.sessions[pid := s], t.heartbeats[pid := now])
  }

  /**
   `UpdateHeartbeat`: the heartbeat is recorded even for a player without a
   session; a session, when there is one, is refreshed and active.
   */
  function UpdateHeartbeat(t: Tracker, pid: string, now: int): (r: Tracker)
    ensures r.heartbeats == t.heartbeats[pid := now]
    ensures r.sessions.Keys == t.sessions.Keys
    ensures pid in t.sessions ==> r.sessions[pid] == t.sessions[pid].(heartbeat := now, lastSeen := now, status := Active)
    ensures OthersKept(t, r, pid)
  {
    var sessions :=
      if pid in t.sessions then t.sessions[pid := t.sessions[pid].(heartbeat := now, lastSeen := now, status := Active)]
      else t.sessions;
    Tracker(sessions, t.heartbeats[pid := now])
  }

  /** `UpdatePlayerStatus`: a known session takes the status and is touched. */
  function UpdateStatus(t: Tracker, pid: string, status: string, now: int): (r: Tracker)
    ensures pid !in t.sessions ==> r == t
    ensures pid in t.sessions ==> r == t.(sessions := t.sessions[pid := t.sessions[pid].(status := status, lastSeen := now)])
  {
    if pid in t.sessions then t.(sessions := t.sessions[pid := t.sessions[pid].(status := status, lastSeen := now)]) else t
  }

  /** `UpdatePlayerName`: a known session takes the name and is touched. */
  function UpdateName(t: Tracker, pid: string, name: string, now: int): (r: Tracker)
    ensures pid !in t.sessions ==> r == t
    ensures pid in t.sessions ==> r == t.(sessions := t.sessions[pid := t.sessions[pid].(playerName := name, lastSeen := now)])
  {
    if pid in t.sessions then t.(sessions := t.sessions[pid := t.sessions[pid].(playerName := name, lastSeen := now)]) else t
  }

  /**
   `UnregisterPlayer`: the connection id leaves the session; the session and
   the heartbeat go exactly when no connection is left. An unknown player is
   a no-op.
   */
  function Unregister(t: Tracker, pid: string, socket: string): (r: Tracker)
    ensures pid !in t.sessions ==> r == t
    ensures pid in t.sessions ==>
              var left := t.sessions[pid].sockets - {socket};
              && (left == {} <==> pid !in r.sessions)
              && (left == {} ==> pid !in r.heartbeats)
              && (left != {} ==> r.sessions[pid] == t.sessions[pid].(sockets := left) && r.heartbeats == t.heartbeats)
    ensures OthersKept(t, r, pid)
  {
    if pid !in t.sessions then t
    else
      var s := t.sessions[pid];
      var left := s.sockets - {socket};
      if left == {} then Tracker(t.sessions - {pid}, t.heartbeats - {pid})
      else Tracker(t.sessions[pid := s.(sockets := left)], t.heartbeats)
  }

  /** Registering then closing the only connection of a new player leaves no trace of it. */
  lemma RegisterUnregister(t: Tracker, pid: string, lobbyId: string, name: string, socket: string, isAI: bool, now: int)
    requires pid !in t.sessions && pid !in t.heartbeats
    ensures Unregister(Register(t, pid, lobbyId, name, socket, isAI, now), pid, socket) == t
  {
    var r := Register(t, pid, lobbyId, name, socket, isAI, now);
    assert r.sessions - {pid} == t.sessions;
    assert r.heartbeats - {pid} == t.heartbeats;
  }

  /** A session that `checkIdlePlayers` turns idle. */
  predicate GoesIdle(s: Session, now: int) {
    s.status == Active && now - s.lastSeen > IdleAfter
  }

  /** `checkIdlePlayers`: active sessions quiet for over 2 minutes become idle; nothing else changes. */
  function CheckIdle(t: Tracker, now: int): (r: Tracker)
    ensures r.heartbeats == t.heartbeats && r.sessions.Keys == t.sessions.Keys
    ensures forall id :: id in t.sessions ==>
              r.sessions[id] == if GoesIdle(t.sessions[id], now) then t.sessions[id].(status := Idle) else t.sessions[id]
  {
    t.(sessions := map id | id in t.sessions :: if GoesIdle(t.sessions[id], now) then t.sessions[id].(status := Idle) else t.sessions[id])
  }

  /** A human session whose heartbeat is missing or over 3 minutes old. */
  predicate Silent(t: Tracker, id: string, now: int)
    requires id in t.sessions
  {
    !t.sessions[id].isAI && (id !in t.heartbeats || now - t.heartbeats[id] > DisconnectAfter)
  }

  /** A silent session not yet marked: `checkDisconnectedPlayers` marks it. */
  predicate GoesDisconnected(t: Tracker, id: string, now: int)
    requires id in t.sessions
  {
    Silent(t, id, now) && t.sessions[id].status != Disconnected
  }

  /** A lobby departure the sweep sends off for a player. */
  datatype Departure = Departure(playerId: string, lobbyId: string)

  datatype Checked = Checked(tracker: Tracker, departures: set<Departure>)

  /**
   `checkDisconnectedPlayers`: every silent human session not yet marked is
   marked disconnected, stamped, and sent out of its lobby; AI sessions and
   everything else stay as they were.
   */
  function CheckDisconnected(t: Tracker, now: int): (r: Checked)
    ensures r.tracker.heartbeats == t.heartbeats && r.tracker.sessions.Keys == t.sessions.Keys
    ensures forall id :: id in t.sessions && t.sessions[id].isAI ==> r.tracker.sessions[id] == t.sessions[id]
    ensures forall id :: id in t.sessions ==>
              r.tracker.sessions[id] ==
                if GoesDisconnected(t, id, now) then t.sessions[id].(status := Disconnected, lastSeen := now) else t.sessions[id]
    ensures forall d :: d in r.departures <==>
              d.playerId in t.sessions && GoesDisconnected(t, d.playerId, now) && d.lobbyId == t.sessions[d.playerId].lobbyId
  {
    var sessions := map id | id in t.sessions ::
      if GoesDisconnected(t, id, now) then t.sessions[id].(status := Disconnected, lastSeen := now) else t.sessions[id];
    var departures := set id | id in t.sessions && GoesDisconnected(t, id, now) :: Departure(id, t.sessions[id].lobbyId);
    Checked(Tracker(sessions, t.heartbeats), departures)
  }

  /** A session is marked disconnected once: sweeping again at the same moment changes nothing and sends no one away. */
  lemma DisconnectOnce(t: Tracker, now: int)
    ensures var r := CheckDisconnected(t, now).tracker;
            CheckDisconnected(r, now) == Checked(r, {})
  {
    var r := CheckDisconnected(t, now).tracker;
    forall id | id in r.sessions ensures !GoesDisconnected(r, id, now) {
      if GoesDisconnected(t, id, now) {
        assert r.sessions[id].status == Disconnected;
      } else {
        assert r.sessions[id] == t.sessions[id];
      }
    }
    var again := CheckDisconnected(r, now);
    assert again.tracker.sessions == r.sessions;
    forall d ensures d !in again.departures {
    }
  }

  /** A disconnected session left alone for over 10 minutes. */
  predicate Stale(s: Session, now: int) {
    s.status == Disconnected && now - s.lastSeen > StaleAfter
  }

  /** `cleanupStaleSessions`: exactly the stale sessions go, together with their heartbeats. */
  function CleanupStale(t: Tracker, now: int): (r: Tracker)
    ensures forall id :: id in r.sessions <==> id in t.sessions && !Stale(t.sessions[id], now)
    ensures forall id :: id in r.sessions ==> r.sessions[id] == t.sessions[id]
    ensures forall id :: id in r.heartbeats <==> id in t.heartbeats && !(id in t.sessions && Stale(t.sessions[id], now))
    ensures forall id :: id in r.heartbeats ==> r.heartbeats[id] == t.heartbeats[id]
  {
    var gone := set id | id in t.sessions && Stale(t.sessions[id], now);
    Tracker(t.sessions - gone, t.heartbeats - gone)
  }

  /** A session the disconnect sweep has just stamped is not stale at that moment. */
  lemma FreshDisconnectKept(t: Tracker, now: int, id: string)
    requires id in t.sessions && GoesDisconnected(t, id, now)
    ensures var r := CleanupStale(CheckDisconnected(t, now).tracker, now);
            id in r.sessions && r.sessions[id].status == Disconnected
  {
  }

  /** `GetLobbyPlayers`: the sessions of the lobby, in map order. */
  function LobbyPlayers(t: Tracker, lobbyId: string, order: seq<string>): (r: seq<Session>)
    ensures forall s :: s in r ==> s.lobbyId == lobbyId && exists id :: id in t.sessions && t.sessions[id] == s
    ensures forall i :: 0 <= i < |order| && order[i] in t.sessions && t.sessions[order[i]].lobbyId == lobbyId ==>
              t.sessions[order[i]] in r
    ensures Enumerates(order, t.sessions.Keys) ==>
              forall id :: id in t.sessions && t.sessions[id].lobbyId == lobbyId ==> t.sessions[id] in r
    decreases |order|
  {
    if |order| == 0 then []
    else
      var rest := LobbyPlayers(t, lobbyId, order[1..]);
      var r := if order[0] in t.sessions && t.sessions[order[0]].lobbyId == lobbyId then [t.sessions[order[0]]] + rest else rest;
      assert forall i :: 1 <= i < |order| ==> order[i] == order[1..][i - 1];
      assert Enumerates(order, t.sessions.Keys) ==>
               forall id :: id in t.sessions && t.sessions[id].lobbyId == lobbyId ==> t.sessions[id] in r by {
        if Enumerates(order, t.sessions.Keys) {
          forall id | id in t.sessions && t.sessions[id].lobbyId == lobbyId ensures t.sessions[id] in r {
            var i :| 0 <= i < |order| && order[i] == id;
          }
        }
      }
      r
  }

  /** The sessions come in the order of the keys: listing two runs of keys lists each in turn. */
  lemma {:induction false} LobbyPlayersConcat(t: Tracker, lobbyId: string, a: seq<string>, b: seq<string>)
    ensures LobbyPlayers(t, lobbyId, a + b) == LobbyPlayers(t, lobbyId, a) + LobbyPlayers(t, lobbyId, b)
    decreases |a|
  {
    if |a| > 0 {
      assert (a + b)[0] == a[0] && (a + b)[1..] == a[1..] + b;
      LobbyPlayersConcat(t, lobbyId, a[1..], b);
    } else {
      assert a + b == b;
    }
  }

  // ---------------------------------------------------------------- statistics

  datatype Stats = Stats(total: nat, active: nat, idle: nat, disconnected: nat, ai: nat, human: nat, lobbies: map<string, nat>)

  /** The sum of a map's values. */
  ghost function SumValues(m: map<string, nat>): nat
    decreases |m|
  {
    if |m| == 0 then 0
    else
      var k :| k in m;
      assert (m - {k}).Keys == m.Keys - {k};
      m[k] + SumValues(m - {k})
  }

  lemma Unfold(m: map<string, nat>) returns (j: string)
    requires |m| > 0
    ensures j in m && SumValues(m) == m[j] + SumValues(m - {j})
  {
    j :| j in m && SumValues(m) == m[j] + SumValues(m - {j});
  }

  lemma Smaller(m: map<string, nat>, j: string)
    requires j in m
    ensures |m - {j}| == |m| - 1
  {
    assert (m - {j}).Keys == m.Keys - {j};
  }

  lemma Swap(m: map<string, nat>, j: string, k: string)
    ensures m - {j} - {k} == m - {k} - {j}
  {
  }

  /** The sum can be split at any key, not just the one the definition happens to pick. */
  lemma {:induction false} SumValuesAt(m: map<string, nat>, k: string)
    requires k in m
    ensures SumValues(m) == m[k] + SumValues(m - {k})
    decreases |m|
  {
    var j := Unfold(m);
    if j != k {
      Smaller(m, j);
      Smaller(m, k);
      SumValuesAt(m - {j}, k);
      SumValuesAt(m - {k}, j);
      Swap(m, j, k);
    }
  }

  /** Adding one to a lobby's count, new or not, adds one to the sum. */
  lemma Bump(m: map<string, nat>, l: string)
    ensures SumValues(m[l := if l in m then m[l] + 1 else 1]) == SumValues(m) + 1
  {
    var m1 := m[l := if l in m then m[l] + 1 else 1];
    SumValuesAt(m1, l);
    assert m1 - {l} == m - {l};
    if l in m {
      SumValuesAt(m, l);
    } else {
      assert m - {l} == m;
    }
  }

  /** One session counted into the running figures. */
  function Count(c: Stats, s: Session): Stats {
    var l := s.lobbyId;
    c.(active := c.active + (if s.status == Active then 1 else 0),
       idle := c.idle + (if s.status == Idle then 1 else 0),
       disconnected := c.disconnected + (if s.status == Disconnected then 1 else 0),
       ai := c.ai + (if s.isAI then 1 else 0),
       human := c.human + (if s.isAI then 0 else 1),
       lobbies := c.lobbies[l := if l in c.lobbies then c.lobbies[l] + 1 else 1])
  }

  predicate IsActive(s: Session) { s.status == Active }
  predicate IsIdle(s: Session) { s.status == Idle }
  predicate IsDisconnected(s: Session) { s.status == Disconnected }
  predicate IsAi(s: Session) { s.isAI }
  predicate IsHuman(s: Session) { !s.isAI }

  /** The players whose session satisfies `p`. */
  ghost function Having(sessions: map<string, Session>, p: Session -> bool): set<string> {
    set id | id in sessions && p(sessions[id])
  }

  /** The ids listed in `order` whose session satisfies `p`. */
  ghost function Listed(sessions: map<string, Session>, order: seq<string>, p: Session -> bool): set<string> {
    set id | id in order && id in sessions && p(sessions[id])
  }

  /** Listing one more, new, id adds it to the ids with `p` exactly when its session has `p`. */
  lemma ListedStep(sessions: map<string, Session>, order: seq<string>, p: Session -> bool)
    requires |order| > 0 && Distinct(order)
    ensures var n := |order| - 1;
            var x := order[n];
            |Listed(sessions, order, p)| == |Listed(sessions, order[..n], p)| + (if x in sessions && p(sessions[x]) then 1 else 0)
  {
    var n := |order| - 1;
    var x := order[n];
    var front := order[..n];
    assert order == front + [x];
    assert x !in front by {
      forall k | 0 <= k < n ensures front[k] != x {
        assert front[k] == order[k];
      }
    }
    if x in sessions && p(sessions[x]) {
      assert Listed(sessions, order, p) == Listed(sessions, front, p) + {x};
    } else {
      assert Listed(sessions, order, p) == Listed(sessions, front, p);
    }
  }

  /** The counting loop over the sessions listed in `order`. */
  function Tally(sessions: map<string, Session>, order: seq<string>): (c: Stats)
    requires forall i :: 0 <= i < |order| ==> order[i] in sessions
    ensures c.total == 0
    ensures c.ai + c.human == |order|
    ensures c.active + c.idle + c.disconnected <= |order|
    decreases |order|
  {
    if |order| == 0 then Stats(0, 0, 0, 0, 0, 0, map[])
    else Count(Tally(sessions, order[..|order| - 1]), sessions[order[|order| - 1]])
  }

  /** The per-lobby counts add up to the number of sessions counted. */
  lemma {:induction false} TallySum(sessions: map<string, Session>, order: seq<string>)
    requires forall i :: 0 <= i < |order| ==> order[i] in sessions
    ensures SumValues(Tally(sessions, order).lobbies) == |order|
    decreases |order|
  {
    if |order| > 0 {
      var n := |order| - 1;
      var front := order[..n];
      TallySum(sessions, front);
      Bump(Tally(sessions, front).lobbies, sessions[order[n]].lobbyId);
    }
  }

  /** The lobbies counted are exactly those of the sessions counted. */
  lemma {:induction false} TallyKeys(sessions: map<string, Session>, order: seq<string>, l: string)
    requires forall i :: 0 <= i < |order| ==> order[i] in sessions
    ensures l in Tally(sessions, order).lobbies <==> exists i :: 0 <= i < |order| && sessions[order[i]].lobbyId == l
    decreases |order|
  {
    if |order| > 0 {
      var n := |order| - 1;
      var front := order[..n];
      TallyKeys(sessions, front, l);
      if l in Tally(sessions, order).lobbies {
        if sessions[order[n]].lobbyId != l {
          var i :| 0 <= i < n && sessions[front[i]].lobbyId == l;
          assert order[i] == front[i];
        }
      } else {
        forall i | 0 <= i < |order| ensures sessions[order[i]].lobbyId != l {
          if i < n {
            assert order[i] == front[i];
          }
        }
      }
    }
  }

  /** Over a duplicate-free listing, each status, AI and human count is the number of listed sessions of that kind. */
  lemma {:induction false} TallyListed(sessions: map<string, Session>, order: seq<string>)
    requires Distinct(order)
    requires forall i :: 0 <= i < |order| ==> order[i] in sessions
    ensures var c := Tally(sessions, order);
            && c.active == |Listed(sessions, order, IsActive)|
            && c.idle == |Listed(sessions, order, IsIdle)|
            && c.disconnected == |Listed(sessions, order, IsDisconnected)|
            && c.ai == |Listed(sessions, order, IsAi)|
            && c.human == |Listed(sessions, order, IsHuman)|
    decreases |order|
  {
    if |order| == 0 {
      assert Listed(sessions, order, IsActive) == {};
      assert Listed(sessions, order, IsIdle) == {};
      assert Listed(sessions, order, IsDisconnected) == {};
      assert Listed(sessions, order, IsAi) == {};
      assert Listed(sessions, order, IsHuman) == {};
    } else {
      var n := |order| - 1;
      var front := order[..n];
      assert Distinct(front) by {
        forall i, j | 0 <= i < j < n ensures front[i] != front[j] {
          assert front[i] == order[i] && front[j] == order[j];
        }
      }
      TallyListed(sessions, front);
      ListedStep(sessions, order, IsActive);
      ListedStep(sessions, order, IsIdle);
      ListedStep(sessions, order, IsDisconnected);
      ListedStep(sessions, order, IsAi);
      ListedStep(sessions, order, IsHuman);
    }
  }

  /** Listing every session once lists, for any `p`, exactly the sessions with `p`. */
  lemma ListedAll(sessions: map<string, Session>, order: seq<string>, p: Session -> bool)
    requires Enumerates(order, sessions.Keys)
    ensures Listed(sessions, order, p) == Having(sessions, p)
  {
  }

  /**
   `GetPlayerStats` over one iteration order of the sessions: each status,
   AI and human count is the number of sessions of that kind, the per-lobby
   counts add up to the session total, and the lobbies counted are exactly
   those with a session.
   */
  function PlayerStats(t: Tracker, order: seq<string>): (r: Stats)
    requires Enumerates(order, t.sessions.Keys)
    ensures r.total == |t.sessions|
    ensures r.ai + r.human == r.total
    ensures SumValues(r.lobbies) == r.total
    ensures r.active == |Having(t.sessions, IsActive)|
    ensures r.idle == |Having(t.sessions, IsIdle)|
    ensures r.disconnected == |Having(t.sessions, IsDisconnected)|
    ensures r.ai == |Having(t.sessions, IsAi)|
    ensures r.human == |Having(t.sessions, IsHuman)|
    ensures r.active + r.idle + r.disconnected <= r.total
    ensures forall l :: l in r.lobbies <==> exists id :: id in t.sessions && t.sessions[id].lobbyId == l
  {
    EnumerationSize(order, t.sessions.Keys);
    var c := Tally(t.sessions, order);
    TallySum(t.sessions, order);
    TallyListed(t.sessions, order);
    ListedAll(t.sessions, order, IsActive);
    ListedAll(t.sessions, order, IsIdle);
    ListedAll(t.sessions, order, IsDisconnected);
    ListedAll(t.sessions, order, IsAi);
    ListedAll(t.sessions, order, IsHuman);
    forall l ensures l in c.lobbies <==> exists id :: id in t.sessions && t.sessions[id].lobbyId == l {
      TallyKeys(t.sessions, order, l);
      if id :| id in t.sessions && t.sessions[id].lobbyId == l {
        var i :| 0 <= i < |order| && order[i] == id;
      }
    }
    c.(total := |t.sessions|)
  }
}

=== FILE: types.dfy ===
/**
 The match aggregate and its parts (backend/types.go), with the board
 accessors of backend/game.go. Times are integer milliseconds; a Go zero
 `time.Time` is `None`.
 */
module Types {
  import opened Wrappers

  // ---------------------------------------------------------------- vocabulary

  const AiEasy := "easy"
  const AiMedium := "medium"
  const AiHard := "hard"
  const AiChosenOne := "chosen_one"

  /** The four AI tiers. */
  const Difficulties: set<string> := {AiEasy, AiMedium, AiHard, AiChosenOne}

  const BombRangeKind := "bomb_range"
  const ShieldKind := "shield"

  /** The two powerup kinds. */
  const PowerupKinds: set<string> := {BombRangeKind, ShieldKind}

  const Playing := "playing"
  const Finished := "finished"

  // ---------------------------------------------------------------- board

  /** Cell codes of the board. */
  const Empty := 0
  const Wall := 1
  const Block := 2

  type Board = seq<seq<int>>

  /** Grid coordinates; equality is structural on (row, col). */
  datatype Position = Position(row: int, col: int)

  datatype Dir = Up | Down | Left | Right

  function DirName(d: Dir): string {
    match d
    case Up => "up"
    case Down => "down"
    case Left => "left"
    case Right => "right"
  }

  /** The direction vocabulary: exactly four strings. */
  function ParseDir(s: string): (r: Option<Dir>)
    ensures r.Some? <==> s in {"up", "down", "left", "right"}
    ensures r.Some? ==> DirName(r.value) == s
  {
    if s == "up" then Some(Up)
    else if s == "down" then Some(Down)
    else if s == "left" then Some(Left)
    else if s == "right" then Some(Right)
    else None
  }

  /** The cell `i` steps from `p` in direction `d`. */
  function Shift(p: Position, d: Dir, i: int): Position {
    match d
    case Up => Position(p.row - i, p.col)
    case Down => Position(p.row + i, p.col)
    case Left => Position(p.row, p.col - i)
    case Right => Position(p.row, p.col + i)
  }

  /** Every row as wide as the first. */
  predicate IsGrid(b: Board) {
    forall r :: 0 <= r < |b| ==> |b[r]| == |b[0]|
  }

  /** `isValidPosition`: the row is below the board height and the column below the width of row 0. */
  predicate InBounds(b: Board, p: Position) {
    0 <= p.row < |b| && 0 <= p.col < |b[0]|
  }

  function Cell(b: Board, p: Position): int
    requires IsGrid(b) && InBounds(b, p)
  {
    b[p.row][p.col]
  }

  /** The board with one cell overwritten and every other cell kept. */
  function SetCell(b: Board, p: Position, v: int): (r: Board)
    requires IsGrid(b) && InBounds(b, p)
    ensures IsGrid(r) && |r| == |b| && |r[0]| == |b[0]|
    ensures forall q :: InBounds(b, q) ==> Cell(r, q) == if q == p then v else Cell(b, q)
  {
    b[p.row := b[p.row][p.col := v]]
  }

  // ---------------------------------------------------------------- entities

  /** An active effect held by a player. */
  datatype PlayerPowerup = PlayerPowerup(kind: string, level: int, endTime: int)

  datatype Player = Player(
    id: string,
    name: string,
    position: Position,
    spawnPosition: Position,
    alive: bool,
    bombCount: int,
    maxBombs: int,
    bombRange: int,
    isAI: bool,
    aiDifficulty: string,
    slot: int,
    score: int,
    powerups: map<string, PlayerPowerup>,
    shield: bool,
    lastDash: Option<int>)

  /** A bomb keeps the range its owner had when it was placed. */
  datatype Bomb = Bomb(id: string, playerId: string, position: Position, range: int, placedAt: int)

  /** A hazard marker left by a detonation. */
  datatype Explosion = Explosion(id: string, position: Position, endTime: int)

  /** The tally of one detonation, handed to the scoring rule. */
  datatype ChainExplosion = ChainExplosion(originalBombId: string, playerId: string, tilesDestroyed: nat, playersKilled: nat)

  datatype Powerup = Powerup(id: string, kind: string, level: int, position: Position, endTime: Option<int>)

  datatype Game = Game(
    id: string,
    lobbyId: string,
    board: Board,
    players: map<string, Player>,
    bombs: map<string, Bomb>,
    explosions: map<string, Explosion>,
    powerups: map<string, Powerup>,
    status: string,
    startTime: int,
    endTime: Option<int>,
    winner: string)

  /**
   Shape facts every operation relies on: a rectangular board, players filed
   under their own id, and player and spawn positions on the board.
   */
  predicate WellFormed(g: Game) {
    && IsGrid(g.board)
    && (forall id :: id in g.players ==> g.players[id].id == id)
    && (forall id :: id in g.players ==> InBounds(g.board, g.players[id].position))
    && (forall id :: id in g.players ==> InBounds(g.board, g.players[id].spawnPosition))
  }

  /** No player is ever marked dead. */
  predicate AllAlive(g: Game) {
    forall id :: id in g.players ==> g.players[id].alive
  }

  predicate ScoresNonNegative(g: Game) {
    forall id :: id in g.players ==> g.players[id].score >= 0
  }

  /** Ids of the bombs a player owns. */
  function Owned(bombs: map<string, Bomb>, pid: string): set<string> {
    set id | id in bombs && bombs[id].playerId == pid
  }

  /** Each player owns at most `maxBombs` bombs. */
  predicate BombCap(g: Game) {
    forall pid :: pid in g.players ==> |Owned(g.bombs, pid)| <= g.players[pid].maxBombs
  }

  /** The invariants every transition of a running match keeps. */
  predicate Invariants(g: Game) {
    WellFormed(g) && AllAlive(g) && ScoresNonNegative(g) && BombCap(g)
  }

  predicate BombAt(g: Game, p: Position) {
    exists id :: id in g.bombs && g.bombs[id].position == p
  }
}

=== FILE: uuid.dfy ===
/**
 `newUUID` of backend/uuid.go: sixteen random bytes, the version and variant
 bits of section 4.1 of RFC 4122 stamped in, printed as lowercase hex in
 8-4-4-4-12 groups. The random source and the clock are parameters.
 */
module Uuid {
  import opened Wrappers
  import Decimal
  import opened Validation

  type Byte = bv8

  function HexDigit(n: nat): (c: char)
    requires n < 16
    ensures IsLowerHex(c)
  {
    if n < 10 then ('0' as int + n) as char else ('a' as int + n - 10) as char
  }

  /** The value of a lowercase hex digit. */
  function HexValue(c: char): (n: nat)
    requires IsLowerHex(c)
    ensures n < 16 && HexDigit(n) == c
  {
    if '0' <= c <= '9' then c as int - '0' as int else c as int - 'a' as int + 10
  }

  lemma HexValueOfDigit(n: nat)
    requires n < 16
    ensures HexValue(HexDigit(n)) == n
  {
  }

  /** `hex.EncodeToString`: two lowercase digits per byte, high nibble first. */
  function Hex(bs: seq<Byte>): (r: string)
    ensures |r| == 2 * |bs|
    ensures AllHex(r)
  {
    if |bs| == 0 then []
    else [HexDigit(bs[0] as int / 16), HexDigit(bs[0] as int % 16)] + Hex(bs[1..])
  }

  lemma {:induction false} HexConcat(a: seq<Byte>, b: seq<Byte>)
    ensures Hex(a + b) == Hex(a) + Hex(b)
    decreases |a|
  {
    if |a| > 0 {
      assert (a + b)[0] == a[0];
      assert (a + b)[1..] == a[1..] + b;
      HexConcat(a[1..], b);
      var d := [HexDigit(a[0] as int / 16), HexDigit(a[0] as int % 16)];
      assert Hex(a + b) == d + Hex(a[1..] + b);
      assert Hex(a) == d + Hex(a[1..]);
      assert d + (Hex(a[1..]) + Hex(b)) == (d + Hex(a[1..])) + Hex(b);
    } else {
      assert a + b == b;
    }
  }

  predicate AllHex(t: string) {
    forall k :: 0 <= k < |t| ==> IsLowerHex(t[k])
  }

  /** `hex.DecodeString` on well-formed input: each digit pair gives back one byte. */
  function Unhex(t: string): (bs: seq<Byte>)
    requires |t| % 2 == 0 && AllHex(t)
    ensures |bs| == |t| / 2
    decreases |t|
  {
    if |t| == 0 then []
    else [(HexValue(t[0]) * 16 + HexValue(t[1])) as Byte] + Unhex(t[2..])
  }

  /** Decoding the hex text gives back the bytes. */
  lemma {:induction false} UnhexHex(bs: seq<Byte>)
    ensures Unhex(Hex(bs)) == bs
    decreases |bs|
  {
    if |bs| > 0 {
      var t := Hex(bs);
      var n := bs[0] as int;
      var d := [HexDigit(n / 16), HexDigit(n % 16)];
      assert t == d + Hex(bs[1..]);
      assert t[0] == d[0] && t[1] == d[1] && t[2..] == Hex(bs[1..]);
      ByteBack(bs[0]);
      UnhexHex(bs[1..]);
      assert bs == [bs[0]] + bs[1..];
    }
  }

  /** The two digits of one byte give the byte back. */
  lemma ByteBack(x: Byte)
    ensures (HexValue(HexDigit(x as int / 16)) * 16 + HexValue(HexDigit(x as int % 16))) as Byte == x
  {
    DigitsBack(x as int);
    assert (x as int) as Byte == x;
  }

  lemma DigitsBack(n: nat)
    requires n < 256
    ensures HexValue(HexDigit(n / 16)) * 16 + HexValue(HexDigit(n % 16)) == n
  {
    HexValueOfDigit(n / 16);
    HexValueOfDigit(n % 16);
  }

  /** The version nibble 4 into byte 6, the variant bits 10 into byte 8. */
  function Stamp(b: seq<Byte>): (r: seq<Byte>)
    requires |b| == 16
    ensures |r| == 16
    ensures forall k :: 0 <= k < 16 && k != 6 && k != 8 ==> r[k] == b[k]
    ensures r[6] & 0x0f == b[6] & 0x0f && r[6] >> 4 == 4
    ensures r[8] & 0x3f == b[8] & 0x3f && r[8] >> 6 == 2
  {
    b[6 := (b[6] & 0x0f) | 0x40][8 := (b[8] & 0x3f) | 0x80]
  }

  /** The 8-4-4-4-12 text of sixteen bytes. */
  function Format(b: seq<Byte>): (s: string)
    requires |b| == 16
  {
    Hex(b[0..4]) + "-" + Hex(b[4..6]) + "-" + Hex(b[6..8]) + "-" + Hex(b[8..10]) + "-" + Hex(b[10..16])
  }

  /** The hex digits of a UUID text with the hyphens taken out. */
  function Digits(s: string): (t: string)
    requires UuidText(s)
    ensures |t| == 32 && AllHex(t)
  {
    var t := s[0..8] + s[9..13] + s[14..18] + s[19..23] + s[24..36];
    assert forall k :: 0 <= k < 32 ==> IsLowerHex(t[k]) by {
      forall k | 0 <= k < 32 ensures IsLowerHex(t[k]) {
        var i := if k < 8 then k else if k < 12 then k + 1 else if k < 16 then k + 2 else if k < 20 then k + 3 else k + 4;
        assert t[k] == s[i] && !HyphenAt(i);
      }
    }
    t
  }

  /** The sixteen bytes a UUID text spells. */
  function Decode(s: string): (bs: seq<Byte>)
    requires UuidText(s)
    ensures |bs| == 16
  {
    Unhex(Digits(s))
  }

  /** Five hex groups of 8, 4, 4, 4 and 12 digits joined by hyphens have the UUID layout, and spell their digits. */
  lemma Layout(a: string, b: string, c: string, d: string, e: string)
    requires |a| == 8 && |b| == 4 && |c| == 4 && |d| == 4 && |e| == 12
    requires AllHex(a) && AllHex(b) && AllHex(c) && AllHex(d) && AllHex(e)
    ensures var s := a + "-" + b + "-" + c + "-" + d + "-" + e;
            UuidText(s) && Digits(s) == a + b + c + d + e && s[14] == c[0] && s[19] == d[0]
  {
    var s := a + "-" + b + "-" + c + "-" + d + "-" + e;
    assert |s| == 36;
    forall k | 0 <= k < 36 ensures if HyphenAt(k) then s[k] == '-' else IsLowerHex(s[k]) {
      if k < 8 { assert s[k] == a[k]; }
      else if k == 8 { }
      else if k < 13 { assert s[k] == b[k - 9]; }
      else if k == 13 { }
      else if k < 18 { assert s[k] == c[k - 14]; }
      else if k == 18 { }
      else if k < 23 { assert s[k] == d[k - 19]; }
      else if k == 23 { }
      else { assert s[k] == e[k - 24]; }
    }
    assert s[0..8] == a && s[9..13] == b && s[14..18] == c && s[19..23] == d && s[24..36] == e;
  }

  /** Formatted bytes have the UUID layout and decode back to themselves. */
  lemma FormatFacts(b: seq<Byte>)
    requires |b| == 16
    ensures UuidText(Format(b))
    ensures Decode(Format(b)) == b
  {
    Layout(Hex(b[0..4]), Hex(b[4..6]), Hex(b[6..8]), Hex(b[8..10]), Hex(b[10..16]));
    HexGroups(b);
    UnhexHex(b);
  }

  /** The five groups' digits, run together, are the hex text of all sixteen bytes. */
  lemma HexGroups(b: seq<Byte>)
    requires |b| == 16
    ensures Hex(b[0..4]) + Hex(b[4..6]) + Hex(b[6..8]) + Hex(b[8..10]) + Hex(b[10..16]) == Hex(b)
  {
    HexConcat5(b[0..4], b[4..6], b[6..8], b[8..10], b[10..16]);
    Cut5(b, 4, 6, 8, 10);
  }

  lemma Cut5(b: seq<Byte>, i: nat, j: nat, k: nat, l: nat)
    requires i <= j <= k <= l <= |b|
    ensures b[0..i] + b[i..j] + b[j..k] + b[k..l] + b[l..|b|] == b
  {
    assert b[0..i] + b[i..j] == b[0..j];
    assert b[0..j] + b[j..k] == b[0..k];
    assert b[0..k] + b[k..l] == b[0..l];
    assert b[0..l] + b[l..|b|] == b;
  }

  lemma HexConcat5(a: seq<Byte>, b: seq<Byte>, c: seq<Byte>, d: seq<Byte>, e: seq<Byte>)
    ensures Hex(a) + Hex(b) + Hex(c) + Hex(d) + Hex(e) == Hex(a + b + c + d + e)
  {
    HexConcat(a, b);
    HexConcat(a + b, c);
    HexConcat(a + b + c, d);
    HexConcat(a + b + c + d, e);
  }

  /** Index 14 shows the high nibble of byte 6, index 19 that of byte 8. */
  lemma FormatNibbles(b: seq<Byte>)
    requires |b| == 16
    ensures Format(b)[14] == HexDigit(b[6] as int / 16) && Format(b)[19] == HexDigit(b[8] as int / 16)
  {
    assert b[6..8][0] == b[6] && b[8..10][0] == b[8];
    Layout(Hex(b[0..4]), Hex(b[4..6]), Hex(b[6..8]), Hex(b[8..10]), Hex(b[10..16]));
  }

  /**
   `newUUID`: `entropy` is what `crypto/rand.Read` delivered, `None` when it
   failed; then the text is `rnd-` and the clock's nanoseconds.
   */
  function NewUuid(entropy: Option<seq<Byte>>, nanos: int): (s: string)
    requires entropy.Some? ==> |entropy.value| == 16
  {
    match entropy
    case Some(b) => Format(Stamp(b))
    case None => "rnd-" + Decimal.IntToString(nanos)
  }

  /**
   A generated UUID passes `ValidateUUID`, carries the version digit `4` at
   index 14 and a variant digit `8`, `9`, `a` or `b` at index 19, and decodes
   to the random bytes with only those bits overwritten.
   */
  lemma NewUuidFacts(b: seq<Byte>, nanos: int)
    requires |b| == 16
    ensures var s := NewUuid(Some(b), nanos);
            && ValidateUUID(s) == Pass
            && s[14] == '4' && s[19] in {'8', '9', 'a', 'b'}
            && Decode(s) == Stamp(b)
  {
    var r := Stamp(b);
    FormatFacts(r);
    FormatNibbles(r);
    VersionDigit(r[6]);
    VariantDigit(r[8]);
  }

  /** Without randomness the fallback text starts with `rnd-` and fails `ValidateUUID`. */
  lemma FallbackRejected(nanos: int)
    ensures NewUuid(None, nanos)[..4] == "rnd-"
    ensures ValidateUUID(NewUuid(None, nanos)).Fail?
  {
    var s := NewUuid(None, nanos);
    assert s[0] == 'r' && !IsLowerHex(s[0]);
  }

  lemma VersionDigit(x: Byte)
    requires x >> 4 == 4
    ensures x as int / 16 == 4
  {
  }

  lemma VariantDigit(x: Byte)
    requires x >> 6 == 2
    ensures 8 <= x as int / 16 <= 11
  {
  }
}

=== FILE: validation.dfy ===
/**
 Input validation of backend/validation.go: the name, direction, difficulty
 and UUID validators and `SanitizeString`.

 Strings are sequences of Unicode scalar values. Go's `len` counts UTF-8
 bytes, which `Utf8Len` computes; the regular expressions count characters.
 Go's `\s` class is the ASCII set tab, line feed, form feed, carriage return
 and space, while `strings.TrimSpace` trims everything `unicode.IsSpace`
 accepts.
 */
module Validation {
  import opened Wrappers
  import Types

  // ---------------------------------------------------------------- text basics

  /** `strings.Contains` and `String.prototype.includes`: `t` occurs in `s` at some index. */
  predicate Contains(s: string, t: string) {
    exists i :: 0 <= i <= |s| - |t| && t <= s[i..]
  }

  /** Bytes of the UTF-8 encoding of one character. */
  function Utf8Width(c: char): nat {
    if c as int < 0x80 then 1 else if c as int < 0x800 then 2 else if c as int < 0x10000 then 3 else 4
  }

  /** Go's `len` of a string: its UTF-8 byte count. */
  function Utf8Len(s: string): (n: nat)
    ensures n >= |s|
  {
    if |s| == 0 then 0 else Utf8Width(s[0]) + Utf8Len(s[1..])
  }

  predicate IsAscii(c: char) {
    c as int < 0x80
  }

  /** ASCII text takes one byte per character. */
  lemma {:induction false} AsciiLen(s: string)
    requires forall k :: 0 <= k < |s| ==> IsAscii(s[k])
    ensures Utf8Len(s) == |s|
  {
    if |s| > 0 {
      AsciiLen(s[1..]);
    }
  }

  /** `unicode.IsSpace`: ASCII tab to carriage return and space, NEL, NBSP and the Unicode space separators. */
  predicate IsSpace(c: char) {
    var n := c as int;
    || (9 <= n <= 13) || n == 32 || n == 0x85 || n == 0xA0 || n == 0x1680
    || (0x2000 <= n <= 0x200A) || n == 0x2028 || n == 0x2029 || n == 0x202F || n == 0x205F || n == 0x3000
  }

  /** Every character of `s` from index `a` up to `b` is white space. */
  predicate SpaceBetween(s: string, a: int, b: int)
    requires 0 <= a && b <= |s|
  {
    forall k :: a <= k < b ==> IsSpace(s[k])
  }

  predicate AllSpace(s: string) {
    SpaceBetween(s, 0, |s|)
  }

  /** The first non-space index at or after `i`, given only white space before `i`. */
  function StartFrom(s: string, i: nat): (b: nat)
    requires i <= |s| && SpaceBetween(s, 0, i)
    ensures i <= b <= |s| && SpaceBetween(s, 0, b) && (b < |s| ==> !IsSpace(s[b]))
    decreases |s| - i
  {
    if i == |s| || !IsSpace(s[i]) then i else StartFrom(s, i + 1)
  }

  /** The end of the last non-space character in `s[lo..j]`, given only white space from `j` on. */
  function EndFrom(s: string, lo: nat, j: nat): (e: nat)
    requires lo <= j <= |s| && SpaceBetween(s, j, |s|)
    ensures lo <= e <= j && SpaceBetween(s, e, |s|) && (e > lo ==> !IsSpace(s[e - 1]))
    decreases j
  {
    if j == lo || !IsSpace(s[j - 1]) then j else EndFrom(s, lo, j - 1)
  }

  /** `r` is a slice of `s` with only white space outside it. */
  predicate Trims(s: string, r: string) {
    exists i, j :: 0 <= i <= j <= |s| && r == s[i..j] && SpaceBetween(s, 0, i) && SpaceBetween(s, j, |s|)
  }

  /**
   `strings.TrimSpace`: the slice left after dropping white space at both
   ends. It is empty exactly for blank input; otherwise it starts and ends
   with a non-space character.
   */
  function TrimSpace(s: string): (r: string)
    ensures Trims(s, r)
    ensures forall c :: c in r ==> c in s
    ensures r == [] <==> AllSpace(s)
    ensures r != [] ==> !IsSpace(r[0]) && !IsSpace(r[|r| - 1])
  {
    var b := StartFrom(s, 0);
    var e := EndFrom(s, b, |s|);
    assert b == |s| ==> AllSpace(s);
    assert AllSpace(s) ==> b == |s|;
    s[b..e]
  }

  /** Trimming text that has no white space at either end changes nothing. */
  lemma TrimSpaceFixed(s: string)
    requires s == [] || (!IsSpace(s[0]) && !IsSpace(s[|s| - 1]))
    ensures TrimSpace(s) == s
  {
    assert StartFrom(s, 0) == 0;
    assert EndFrom(s, 0, |s|) == |s|;
  }

  /** Trimming is idempotent. */
  lemma TrimSpaceIdempotent(s: string)
    ensures TrimSpace(TrimSpace(s)) == TrimSpace(s)
  {
    TrimSpaceFixed(TrimSpace(s));
  }

  // ---------------------------------------------------------------- names

  /** A character of the class `[a-zA-Z0-9\s\-_]`. */
  predicate NameChar(c: char) {
    || ('a' <= c <= 'z') || ('A' <= c <= 'Z') || ('0' <= c <= '9')
    || c == '\t' || c == '\n' || c == '\U{000C}' || c == '\r' || c == ' '
    || c == '-' || c == '_'
  }

  /** `nameRegex`: one to twenty characters of the name class. */
  predicate NameMatch(s: string) {
    1 <= |s| <= 20 && forall k :: 0 <= k < |s| ==> NameChar(s[k])
  }

  /** A name matching the pattern is ASCII, so its byte length is its length. */
  lemma NameMatchLen(s: string)
    requires NameMatch(s)
    ensures Utf8Len(s) == |s| <= 20
  {
    AsciiLen(s);
  }

  /**
   `ValidateLobbyName`. The length cap of 50 bytes is never what accepts a
   name: the pattern already stops at 20, so a non-blank name of 21 to 50
   bytes is reported as having invalid characters.
   */
  function ValidateLobbyName(name: string): (r: Outcome<string>)
    ensures r == Pass <==> !AllSpace(name) && NameMatch(name)
    ensures AllSpace(name) ==> r == Fail("lobby name cannot be empty")
    ensures !AllSpace(name) && Utf8Len(name) > 50 ==> r == Fail("lobby name too long (max 50 characters)")
    ensures !AllSpace(name) && 21 <= Utf8Len(name) <= 50 ==> r == Fail("lobby name contains invalid characters")
  {
    assert NameMatch(name) ==> Utf8Len(name) == |name| by {
      if NameMatch(name) {
        NameMatchLen(name);
      }
    }
    if TrimSpace(name) == "" then Fail("lobby name cannot be empty")
    else if Utf8Len(name) > 50 then Fail("lobby name too long (max 50 characters)")
    else if !NameMatch(name) then Fail("lobby name contains invalid characters")
    else Pass
  }

  /** `ValidatePlayerName`: accepted exactly when non-blank, at most 20 characters, all of the name class. */
  function ValidatePlayerName(name: string): (r: Outcome<string>)
    ensures r == Pass <==>
              && !AllSpace(name) && |name| <= 20
              && forall k :: 0 <= k < |name| ==> NameChar(name[k])
    ensures AllSpace(name) ==> r == Fail("player name cannot be empty")
    ensures !AllSpace(name) && Utf8Len(name) > 20 ==> r == Fail("player name too long (max 20 characters)")
    ensures r.Fail? ==> r.error in {"player name cannot be empty", "player name too long (max 20 characters)",
                                    "player name contains invalid characters"}
  {
    assert NameMatch(name) ==> Utf8Len(name) == |name| by {
      if NameMatch(name) {
        NameMatchLen(name);
      }
    }
    if TrimSpace(name) == "" then Fail("player name cannot be empty")
    else if Utf8Len(name) > 20 then Fail("player name too long (max 20 characters)")
    else if !NameMatch(name) then Fail("player name contains invalid characters")
    else Pass
  }

  // ---------------------------------------------------------------- vocabularies

  /** `ValidateDirection`: exactly the four direction words, the words the engine parses. */
  function ValidateDirection(direction: string): (r: Outcome<string>)
    ensures r == Pass <==> direction in {"up", "down", "left", "right"}
    ensures r == Pass <==> Types.ParseDir(direction).Some?
    ensures r.Fail? ==> r.error == "invalid direction: " + direction
  {
    if direction == "up" || direction == "down" || direction == "left" || direction == "right" then Pass
    else Fail("invalid direction: " + direction)
  }

  /** `ValidateDifficulty`: exactly the four AI tiers. */
  function ValidateDifficulty(difficulty: string): (r: Outcome<string>)
    ensures r == Pass <==> difficulty in Types.Difficulties
    ensures r.Fail? ==> r.error == "invalid difficulty: " + difficulty
  {
    if difficulty == Types.AiEasy || difficulty == Types.AiMedium || difficulty == Types.AiHard
       || difficulty == Types.AiChosenOne then Pass
    else Fail("invalid difficulty: " + difficulty)
  }

  // ---------------------------------------------------------------- UUIDs

  predicate IsLowerHex(c: char) {
    ('0' <= c <= '9') || ('a' <= c <= 'f')
  }

  /** Positions of the four hyphens of the 8-4-4-4-12 layout. */
  predicate HyphenAt(i: int) {
    i == 8 || i == 13 || i == 18 || i == 23
  }

  /** `uuidRegex`: 36 characters, hyphens at 8, 13, 18 and 23, lowercase hex elsewhere. */
  predicate UuidText(s: string) {
    |s| == 36 && forall k :: 0 <= k < 36 ==> if HyphenAt(k) then s[k] == '-' else IsLowerHex(s[k])
  }

  /** The hex groups of `s` from index `i` on match the layout. */
  predicate GroupsFrom(s: string, i: nat)
    requires |s| == 36 && i <= 36
    decreases 36 - i
  {
    i == 36 || ((if HyphenAt(i) then s[i] == '-' else IsLowerHex(s[i])) && GroupsFrom(s, i + 1))
  }

  lemma {:induction false} GroupsFromMeans(s: string, i: nat)
    requires |s| == 36 && i <= 36
    ensures GroupsFrom(s, i) <==> forall k :: i <= k < 36 ==> if HyphenAt(k) then s[k] == '-' else IsLowerHex(s[k])
    decreases 36 - i
  {
    if i < 36 {
      GroupsFromMeans(s, i + 1);
    }
  }

  /** `ValidateUUID`: accepted exactly when the text has the UUID layout. */
  function ValidateUUID(id: string): (r: Outcome<string>)
    ensures r == Pass <==> UuidText(id)
    ensures r.Fail? ==> r.error == "invalid UUID format"
  {
    assert |id| == 36 ==> (GroupsFrom(id, 0) <==> UuidText(id)) by {
      if |id| == 36 {
        GroupsFromMeans(id, 0);
      }
    }
    if |id| == 36 && GroupsFrom(id, 0) then Pass else Fail("invalid UUID format")
  }

  /** Uppercase hex digits are rejected. */
  lemma UppercaseRejected(id: string, k: nat)
    requires k < |id| && 'A' <= id[k] <= 'F'
    ensures ValidateUUID(id).Fail?
  {
  }

  // ---------------------------------------------------------------- sanitising

  /** A character `SanitizeString` keeps: tab, line feed, carriage return and 32 to 127. */
  predicate Kept(c: char) {
    var n := c as int;
    n == 9 || n == 10 || n == 13 || (32 <= n <= 127)
  }

  predicate AllKept(s: string) {
    forall k :: 0 <= k < |s| ==> Kept(s[k])
  }

  /** The drop loop: control characters other than tab, LF and CR, and everything above 127, go. */
  function DropControl(s: string): (r: string)
    ensures AllKept(r)
    ensures forall c :: c in r <==> c in s && Kept(c)
    ensures AllKept(s) ==> r == s
  {
    if |s| == 0 then []
    else
      var c := s[0];
      var rest := DropControl(s[1..]);
      if c as int < 32 && c as int != 9 && c as int != 10 && c as int != 13 then rest
      else if c as int > 127 then rest
      else [c] + rest
  }

  /** One character is kept exactly when `Kept` says so. */
  lemma DropControlOne(c: char)
    ensures DropControl([c]) == if Kept(c) then [c] else []
  {
  }

  /** Every kept character survives as often as it occurs; every other one is gone. */
  lemma {:induction false} DropControlCounts(s: string)
    ensures forall c :: multiset(DropControl(s))[c] == if Kept(c) then multiset(s)[c] else 0
    decreases |s|
  {
    if |s| > 0 {
      assert s == [s[0]] + s[1..];
      DropControlCounts(s[1..]);
    }
  }

  /** The loop works character by character: the kept characters stay in their order. */
  lemma {:induction false} DropControlConcat(a: string, b: string)
    ensures DropControl(a + b) == DropControl(a) + DropControl(b)
    decreases |a|
  {
    if |a| > 0 {
      assert (a + b)[1..] == a[1..] + b;
      DropControlConcat(a[1..], b);
    } else {
      assert a + b == b;
    }
  }

  /**
   `SanitizeString`: the kept characters, in order, with the white space at
   either end of them cut off and nothing else removed.
   */
  function Sanitize(input: string): (r: string)
    ensures AllKept(r)
    ensures forall c :: c in r ==> c in input
    ensures Trims(DropControl(input), r)
    ensures r == [] <==> AllSpace(DropControl(input))
    ensures r != [] ==> !IsSpace(r[0]) && !IsSpace(r[|r| - 1])
  {
    TrimSpace(DropControl(input))
  }

  /** Sanitising twice is sanitising once. */
  lemma SanitizeIdempotent(input: string)
    ensures Sanitize(Sanitize(input)) == Sanitize(input)
  {
    var r := Sanitize(input);
    assert AllKept(r);
    var d := DropControl(r);
    assert d == r;
    TrimSpaceFixed(r);
    assert Sanitize(r) == TrimSpace(d);
  }
}

=== FILE: wrappers.dfy ===
/** Failure-compatible result types shared by every module of the model. */
module Wrappers {

  /** An optional value: a map lookup, a header that may be missing. */
  datatype Option<+T> = None | Some(value: T) {
    function GetOr(default: T): T {
      match this
      case Some(v) => v
      case None => default
    }
  }

  /** Either a value or a named error (the Go `(T, error)` pair). */
  datatype Result<+R, +E> = Success(value: R) | Failure(error: E) {
    predicate IsFailure() {
      Failure?
    }

    function PropagateFailure<U>(): Result<U, E>
      requires Failure?
    {
      Failure(error)
    }

    function Extract(): R
      requires Success?
    {
      value
    }
  }

  /** A check that passes or fails with a message (the Go `error` return). */
  datatype Outcome<+E> = Pass | Fail(error: E)
}
